=== FILE: README.md ===
# COVID-19 data analysis core, modelled in Dafny

This project models the core of GroupKCovidAnalysis, a desktop tool that loads
daily COVID-19 figures per US state from CSV text and writes a text report.

**Records and collections.** A record (`CovidRecord`) holds a date, a state
code and five counters. Two records are equal when their date and state agree.
The collection (`CovidDataCollection`) is a list with replace-or-append
(`AddAll`) and a state filter.

**Parsing, merging and saving.**
- The parser (`CovidCsvParser`) turns text into a collection. It logs every
  rejected line under its line number (`CovidDataErrorLogger`). It stops at
  the first line whose number does not parse.
- The merge controller (`CovidDataMergeController`) moves the records whose
  day and state are new into a target collection. It keeps the rest as
  duplicates for the user to resolve.
- The savers (`CsvCovidDataSaver`, `CovidDataSaver`) write a collection back
  as CSV.

**Statistics and report.**
- The statistics (`CovidDataStatistics`) answer the report's queries:
  - first positive day;
  - highest and lowest figures;
  - averages;
  - positivity rate;
  - days above or below a threshold.
- The report is assembled from several parts:
  - the summary (`CovidDataSummary`);
  - the monthly summary (`CovidDataMonthlySummary`);
  - the histogram (`CovidDataHistogramGenerator`);
  - the line templates (`CovidDataLines`);
  - the formatting and validation helpers (`Format`, `FormatValidator`).
- The assembler (`CovidDataAssembler`) is the facade the pages call. It
  rebuilds the report after every change.

## How the model is built

- **Purity.** Every class is a module of pure functions over immutable
  datatypes.
- **Exceptions.** An exception that escapes a member is an `Err` of a
  `Failure`:
  - `NoData`: `InvalidOperationException` from `First` or `Average` on an
    empty sequence;
  - `InvalidArgument`: the `ArgumentException` family;
  - `ParseAbort`: `FormatException` or `OverflowException` from `int.Parse`;
  - `Fault`: `NullReferenceException`, `DivideByZeroException` and
    `IndexOutOfRangeException`.
- **Null.** `null` is `None` where the code tells null apart.
- **The assembler** is a state record, and each public method is a
  transition that returns the next state together with the exception that
  escaped, if any.
  - Assignments made before the exception stay made, as they do in the C#
    object.
  - The invariant every transition keeps: a loaded assembler has both
    collections, and a filtered collection or a merge controller only
    exists next to the whole collection.
- **Host parameters** (`Host.Env`). Some values come from the host and the
  .NET runtime rather than from the engine:
  - `Environment.NewLine`;
  - the culture's "N" and "P" renderings of a `double`;
  - the label and column index of the current-hospitalizations figure.

    The code uses the label and column, but `Assets.cs` does not define
    them.
- **Integers.** Counters are natural numbers because every path that builds
  a record goes through `FormatStringToInteger`, which clamps negative
  values to 0. The 32-bit parse limit of `int.Parse` is modelled; the
  counters themselves are unbounded.

Behaviour of the code worth knowing:
- **Histogram.** The bins of the frequency table are `[0, w]`, then
  `[w + 1, 2w]`, and so on. The first bin also counts zeros. With no value
  above `w` the table has the single bin `[1, w]`, which does not count
  zeros. `Histograms.HistogramExample` pins one case: values
  `0, 499, 500, 999, 1000` with width 500 give `[0, 500]: 3` and
  `[501, 1000]: 2`.
- **Number validation.** The validation pattern `[-]?\d+` is not anchored.
  Any text holding a digit passes validation. `"12abc"` therefore passes
  validation and then makes `int.Parse` raise.
- **Monthly summary.** Its "highest positive tests" line reports the
  positives of the month's record with the most deaths
  (`MonthlySummaries.MonthReport`,
  `MonthlySummaries.MonthReportOpensWithDeathsRanking`).
- **Summary constructor.** The summary's constructor comment says a `null`
  state filter means "unfiltered"; the code raises instead.
- **Saved files.** A saved file has seven columns (current hospitalizations
  included), while the parser accepts exactly six. Loading a saved file
  therefore logs every row as an error (`Savers.SaveThenLoadKeepsNothing`).

## Model

| member | source | states |
|---|---|---|
| Records.NewRecord | Covid19Analysis/Model/CovidRecord.cs:58-63 | a null state raises ArgumentNullException; otherwise the record has the given date, the state in upper case and all counters zero |
| Records.NewRecordKeyIgnoresCase | Covid19Analysis/Model/CovidRecord.cs:58-63 | two constructed records are equal exactly when their dates agree and their states agree ignoring case |
| Records.ToStringIdentifiesKey | Covid19Analysis/Model/CovidRecord.cs:70-73 | two records print the same "Date: MM/dd/yyyy, State: XX" text exactly when they are equal records |
| Records.SlashedInjective | Covid19Analysis/Model/CovidRecord.cs:70-73 | the "MM/dd/yyyy" rendering tells different dates apart |
| FormatValidator.NumericValidIffHasDigit | Covid19Analysis/Resources/FormatValidator.cs:42-56 | a non-empty text passes the unanchored `[-]?\d+` check exactly when it holds a digit |
| FormatValidator.StateLabelPositions | Covid19Analysis/Resources/FormatValidator.cs:68-76 | a state label is valid exactly when it starts with two capitals, or ends with two small letters (optionally before a final line feed) |
| FormatValidator.StateLabelExamples | Covid19Analysis/Resources/FormatValidator.cs:68-76 | "GA", "ga", "GAX" and "xga" pass; "Ga", "G1", "" and null fail |
| Calendar.ParseCompact | Covid19Analysis/Resources/FormatValidator.cs:21-30 | a text accepted as "yyyyMMdd" has eight digits whose groups are the year, month and day of the date |
| Calendar.CompactRoundTrip | Covid19Analysis/Resources/Format.cs:21-25 | parsing the "yyyyMMdd" rendering of any date gives that date back |
| Calendar.ParseCompactInverse | Covid19Analysis/Resources/Format.cs:21-25 | every accepted "yyyyMMdd" text is the rendering of the date it parses to |
| Calendar.ParseCompactRejects | Covid19Analysis/Resources/FormatValidator.cs:21-30 | "20200230" and "2020-05-01" are rejected, while the leap day "20200229" is accepted |
| Format.FormatAsDateTime | Covid19Analysis/Resources/Format.cs:21-25 | null raises ArgumentNullException; a text succeeds exactly when it is a valid "yyyyMMdd" date, and then renders back to itself; otherwise FormatException |
| Format.FormatStringToInteger | Covid19Analysis/Resources/Format.cs:74-98 | null and "" give 0; text failing validation raises ArgumentException; otherwise `int.Parse` decides; a negative value becomes 0; a result never exceeds 2^31 - 1 |
| Format.FormatStringToIntegerRoundTrip | Covid19Analysis/Resources/Format.cs:74-98 | the decimal text of every count up to 2^31 - 1 reads back as that count |
| Format.FormatStringToIntegerClamps | Covid19Analysis/Resources/Format.cs:74-98 | every negative number within range reads as 0 |
| Format.FormatStringToIntegerRejects | Covid19Analysis/Resources/Format.cs:74-98 | "12abc" passes validation but makes `int.Parse` raise; "abc" and "-" fail validation |
| Format.OrdinalIndicatorRule | Covid19Analysis/Resources/Format.cs:160-184 | "st", "nd", "rd" for numbers ending in 1, 2, 3 except 11, 12, 13, and "th" otherwise |
| Format.DetermineOrdinalIndicator | Covid19Analysis/Resources/Format.cs:160-184 | the suffix is produced exactly when the day text parses as an integer, and is the ordinal indicator of that number |
| Format.DayWithOrdinal | Covid19Analysis/Resources/Format.cs:38-42 | a day of month is its number followed by its ordinal indicator |
| Format.DaysWithOrdinals | Covid19Analysis/Resources/Format.cs:57-62 | one ordinal day per date, in the order of the dates |
| Format.DayListOfDistinctDays | Covid19Analysis/Resources/Format.cs:136-158 | for distinct days the aggregation yields the days separated by commas, with ", and " before the last |
| Format.DayListOfRepeatedDay | Covid19Analysis/Resources/Format.cs:136-158 | a day repeated in the list is taken for the last one and loses its comma: "1st2nd, and 1st" |
| Format.MonthAndYearInjective | Covid19Analysis/Resources/Format.cs:27-33 | different calendar months get different "Month Year" headings |
| Format.GroupThousandsDigits | Covid19Analysis/Resources/Format.cs:111-114 | the "##,##0" grouping only inserts commas between the digits |
| Format.GroupThousandsGroups | Covid19Analysis/Resources/Format.cs:111-114 | the first group holds one to three digits, every later group exactly three |
| Format.FormattedIntegerDigits | Covid19Analysis/Resources/Format.cs:111-114 | removing the separators from a formatted integer gives its plain decimal text, sign included |
| Format.FormattedIntegerExamples | Covid19Analysis/Resources/Format.cs:111-114 | 0, 999 and -1000 are formatted as "0", "999" and "-1,000" |
| ErrorLogs.AddErrorLine | Covid19Analysis/DataTier/CovidDataErrorLogger.cs:27-31 | a null line raises ArgumentNullException; otherwise the log keeps its text and gains the entry "Error on Line n: line" |
| ErrorLogs.AddAllErrorLinesInOrder | Covid19Analysis/DataTier/CovidDataErrorLogger.cs:17-31 | entries added one by one appear in call order after the existing text |
| CsvParser.BreakDownTextContent | Covid19Analysis/DataTier/CovidCsvParser.cs:137-148 | text that is empty after removing carriage returns raises; otherwise the data lines contain no line feed |
| CsvParser.BreakDownTerminatedLines | Covid19Analysis/DataTier/CovidCsvParser.cs:137-148 | text made of a header and terminated single lines breaks down into exactly those lines, header dropped, for either line terminator |
| CsvParser.DoesRecordHaveNoErrors | Covid19Analysis/DataTier/CovidCsvParser.cs:115-135 | a line is accepted exactly when it has six fields, a valid date, a valid state and valid numeric fields |
| CsvParser.BuildRecord | Covid19Analysis/DataTier/CovidCsvParser.cs:95-113 | a built record's date and upper-cased state come from their columns, and each counter is the parsed value of its column |
| CsvParser.CreateCovidRecord | Covid19Analysis/DataTier/CovidCsvParser.cs:95-113 | a malformed line yields no record; a well-formed line yields the built record or the parse exception |
| CsvParser.ProcessLines | Covid19Analysis/DataTier/CovidCsvParser.cs:63-93 | the records kept never share a day and state |
| CsvParser.ProcessedLinesCharacterised | Covid19Analysis/DataTier/CovidCsvParser.cs:63-93 | before the first aborting line, every line is kept when it is the first of its key and logged otherwise; lines after the abort are not read |
| CsvParser.OneOutcomePerLine | Covid19Analysis/DataTier/CovidCsvParser.cs:81-93 | every line read becomes exactly one kept record or one log entry |
| CsvParser.CompletedBatch | Covid19Analysis/DataTier/CovidCsvParser.cs:63-75 | a parse that is not aborted keeps the first record of each key, logs the other lines with their line numbers, and accounts for every line |
| CsvParser.KeptContainsKey | Covid19Analysis/DataTier/CovidCsvParser.cs:150-153 | a key is held after parsing exactly when some line yields a record with that key |
| CsvParser.GenerateCovidDataCollection | Covid19Analysis/DataTier/CovidCsvParser.cs:46-75 | the parsed collection is key-unique, and empty text raises ArgumentException with nothing parsed |
| Collections.Add | Covid19Analysis/Model/CovidDataCollection.cs:144-147 | the record is appended after the existing records |
| Collections.AddCanDuplicateKey | Covid19Analysis/Model/CovidDataCollection.cs:144-147 | adding a record whose key is present breaks key-uniqueness |
| Collections.ReplaceDuplicateRecords | Covid19Analysis/Model/CovidDataCollection.cs:52-62 | null raises; the result reports whether the key was present; if so, the first record with that key is removed and the new one appended, and otherwise nothing changes |
| Collections.ReplaceDependsOnlyOnKey | Covid19Analysis/Model/CovidDataCollection.cs:52-62 | two chosen records with the same day and state find and remove the same member; only the appended record differs |
| Collections.ReplaceKeepsOthersInOrder | Covid19Analysis/Model/CovidDataCollection.cs:52-62 | the replacement keeps every other record in its order |
| Collections.AddAllKeyUnique | Covid19Analysis/Model/CovidDataCollection.cs:93-103 | `AddAll` keeps a key-unique collection key-unique |
| Collections.AddAllKeys | Covid19Analysis/Model/CovidDataCollection.cs:93-103 | after `AddAll`, a key is present exactly when it was present before or is incoming |
| Collections.AddAllKeepsUntouched | Covid19Analysis/Model/CovidDataCollection.cs:93-103 | a record whose key no incoming record has survives |
| Collections.AddAllLastWins | Covid19Analysis/Model/CovidDataCollection.cs:93-103 | the last incoming record of each key ends up in the collection |
| Collections.AddAllMembers | Covid19Analysis/Model/CovidDataCollection.cs:93-103 | every record afterwards was either present before or incoming |
| Collections.AddAllCount | Covid19Analysis/Model/CovidDataCollection.cs:93-103 | for a key-unique collection the size afterwards is the number of distinct keys of both |
| Collections.CreateAFilteredCollection | Covid19Analysis/Model/CovidDataCollection.cs:109-123 | null raises; an invalid label or an absent state returns every record unchanged; otherwise the records of that state, compared ignoring case, in collection order |
| Collections.MatchingStateAppend | Covid19Analysis/Model/CovidDataCollection.cs:109-123 | filtering a concatenation filters each part and keeps them in order, so the selected records keep their order and multiplicity |
| Collections.FilterIdempotent | Covid19Analysis/Model/CovidDataCollection.cs:109-123 | filtering the filtered list by the same label changes nothing |
| Collections.FilterFailsOpen | Covid19Analysis/Model/CovidDataCollection.cs:109-123 | "G1" and an absent "TX" select every record |
| Collections.Clone | Covid19Analysis/Model/CovidDataCollection.cs:75-84 | the clone holds the same records in the same order |
| Collections.ContainsIsByKey | Covid19Analysis/Model/CovidDataCollection.cs:158-161 | `Contains` answers by day and state, not by the counters |
| Merging.NewController | Covid19Analysis/DataTier/CovidDataMergeController.cs:43-48 | a null collection raises ArgumentNullException; otherwise the controller holds both collections |
| Merging.AddAllNonDuplicates | Covid19Analysis/DataTier/CovidDataMergeController.cs:60-98 | the target gains the incoming records whose key it lacked, in order; the incoming collection keeps exactly the others, in order |
| Merging.MergePreservesCount | Covid19Analysis/DataTier/CovidDataMergeController.cs:60-71 | no record is lost or invented by the merge |
| Merging.MergeCoversIncomingKeys | Covid19Analysis/DataTier/CovidDataMergeController.cs:60-71 | after the merge the target holds every incoming key, and every record left behind duplicates one of the target |
| Merging.MergeIdempotent | Covid19Analysis/DataTier/CovidDataMergeController.cs:60-71 | a second merge changes nothing |
| Merging.MergeKeepsKeyUnique | Covid19Analysis/DataTier/CovidDataMergeController.cs:60-71 | merging key-unique collections gives a key-unique target |
| Merging.MergeCanDuplicateKey | Covid19Analysis/DataTier/CovidDataMergeController.cs:60-71 | without a key-unique incoming collection, two records for one day and state are both moved |
| Merging.MovedRecordWins | Covid19Analysis/DataTier/CovidDataMergeController.cs:60-71 | a moved record, once the target is upserted into a key-unique collection, is that collection's only record with its key |
| Merging.DuplicatesAfterMerge | Covid19Analysis/DataTier/CovidDataMergeController.cs:78-81 | after a merge the reported duplicates are exactly the incoming records whose key the target held |
| Merging.ReplaceDuplicate | Covid19Analysis/DataTier/CovidDataMergeController.cs:88-91 | null raises ArgumentNullException; the target becomes the collection's own replacement result: the first record with the chosen key removed and the chosen one appended, the others in order; without the key it is unchanged |
| Merging.ReplaceDuplicateKeepsKeys | Covid19Analysis/DataTier/CovidDataMergeController.cs:88-91 | replacing keeps the target's keys and its key-uniqueness |
| Statistics.FindDayOfFirstPositiveTest | Covid19Analysis/Model/CovidDataStatistics.cs:41-46 | raises when no record has a positive test; otherwise the date of a positive record on or before every other positive record |
| Statistics.FindRecordWithHighest | Covid19Analysis/Model/CovidDataStatistics.cs:50-122 | raises on an empty collection; otherwise a member with the greatest value of the figure, the first such in order |
| Statistics.FindRecordWithLowest | Covid19Analysis/Model/CovidDataStatistics.cs:60-65 | raises when no record is dated on or after the date; otherwise the first record of that window with the least value |
| Statistics.FindPositivePercentageForRecord | Covid19Analysis/Model/CovidDataStatistics.cs:237-248 | null raises; no tests gives NaN; otherwise the share of positives, between 0 and 1 |
| Statistics.FindRecordWithHighestPercentageOfPositiveTests | Covid19Analysis/Model/CovidDataStatistics.cs:135-141 | raises when no record has a test; otherwise the first record ranked highest by share of positives, ties broken by more positives |
| Statistics.FindAverageSinceFirstPositiveTest | Covid19Analysis/Model/CovidDataStatistics.cs:145-176 | raises when nothing is positive; otherwise the mean of the figure over the records since the first positive test |
| Statistics.AverageBetweenExtremes | Covid19Analysis/Model/CovidDataStatistics.cs:145-176 | that average lies between the lowest and highest value of the window |
| Statistics.FindOverallPositivityRate | Covid19Analysis/Model/CovidDataStatistics.cs:180-192 | raises when nothing is positive; otherwise the positives' sum over the tests' sum since the first positive test, in (0, 1] |
| Statistics.FindNumberOfDaysBeyondThreshold | Covid19Analysis/Model/CovidDataStatistics.cs:199-234 | a negative threshold raises ArgumentException before anything else; no positive test raises; otherwise the number of days since the first positive test whose positives are strictly above (or strictly below) the threshold |
| Statistics.CountIsBeyondDays | Covid19Analysis/Model/CovidDataStatistics.cs:199-234 | the running counts equal the size of the set of days beyond the threshold |
| Statistics.ThresholdCountsCoverWindow | Covid19Analysis/Model/CovidDataStatistics.cs:199-234 | the days above, the days below and the days equal to the threshold add up to the window |
| Statistics.NegativeThresholdFirst | Covid19Analysis/Model/CovidDataStatistics.cs:199-205 | a negative threshold is rejected even for an empty collection |
| Histograms.NewHistogram | Covid19Analysis/OutputFormatter/CovidDataHistogramGenerator.cs:97-107 | no values or width 0 raise; otherwise the values are sorted (a permutation) and the top is the least multiple of the width at or above the greatest value |
| Histograms.RoundUpIsLeast | Covid19Analysis/OutputFormatter/CovidDataHistogramGenerator.cs:97-107 | the rounded-up top is the least multiple of the width at or above the value |
| Histograms.RangesFromZero | Covid19Analysis/OutputFormatter/CovidDataHistogramGenerator.cs:109-132 | with a top of k widths (k at least 2), the ranges are `[0, w]`, `[w + 1, 2w]`, up to the top, in ascending order |
| Histograms.RangesAtOneWidth | Covid19Analysis/OutputFormatter/CovidDataHistogramGenerator.cs:109-132 | with the top equal to the width, the one range `[1, w]` leaves zeros uncounted |
| Histograms.CountsAddUpToValues | Covid19Analysis/OutputFormatter/CovidDataHistogramGenerator.cs:109-161 | when the top spans at least two widths, the bin counts add up to the number of values |
| Histograms.GenerateHistogram | Covid19Analysis/OutputFormatter/CovidDataHistogramGenerator.cs:134-156 | a line break, then one line per range in range order |
| Histograms.HistogramExample | Covid19Analysis/OutputFormatter/CovidDataHistogramGenerator.cs:97-161 | values 0, 499, 500, 999, 1000 at width 500 give `[0, 500]: 3` and `[501, 1000]: 2` |
| Lines.LineForValueAndDate | Covid19Analysis/Resources/CovidDataLines.cs:17-20 | the line splits at spaces into the label's words, the value's words, "occurred", "on" and the date's words, whatever the parts hold; a value without spaces is one word |
| Lines.LineForValueAndDaysOfMonth | Covid19Analysis/Resources/CovidDataLines.cs:27-30 | the label's words, the value's words, "occurred on the", the words of the day list, then the terminator, whatever the parts hold |
| Lines.LineForValue | Covid19Analysis/Resources/CovidDataLines.cs:36-39 | the label's words, the value's words, then the terminator, whatever the parts hold |
| Lines.LineForValueWithThreshold | Covid19Analysis/Resources/CovidDataLines.cs:46-49 | the label's words, the threshold's words with a colon, then the count: the threshold comes first, whatever the parts hold |
| DateOrder.SortByDate | Covid19Analysis/OutputFormatter/CovidDataMonthlySummary.cs:239-254 | the result is in date order and is a permutation of the input |
| DateOrder.SortByDateStable | Covid19Analysis/OutputFormatter/CovidDataMonthlySummary.cs:239-254 | records of one date keep their order |
| Months.MonthsWithinDataSpan | Covid19Analysis/OutputFormatter/CovidDataMonthlySummary.cs:84-110 | the months run from the first month to the last, each once, ascending, and none in between is missing |
| Months.DistinctMonths | Covid19Analysis/OutputFormatter/CovidDataMonthlySummary.cs:58-60 | each month of the data once, no other |
| Months.DistinctMonthsAscend | Covid19Analysis/OutputFormatter/CovidDataMonthlySummary.cs:58-60 | over records in date order, the distinct months ascend strictly |
| Months.InMonth | Covid19Analysis/OutputFormatter/CovidDataMonthlySummary.cs:62-64 | a month's group holds exactly the records of that month |
| MonthlySummaries.SortedListByMonth | Covid19Analysis/OutputFormatter/CovidDataMonthlySummary.cs:239-263 | in date order; the records since the first positive test when there is one, else all records |
| MonthlySummaries.HighestFigure | Covid19Analysis/OutputFormatter/CovidDataMonthlySummary.cs:129-141 | the reported figure of the first record ranked highest, with every day of the month on which it occurs |
| MonthlySummaries.LowestFigure | Covid19Analysis/OutputFormatter/CovidDataMonthlySummary.cs:143-165 | present exactly when the month has a record since the first positive test of the whole data; then the least figure of that window, with its days |
| MonthlySummaries.MonthReport | Covid19Analysis/OutputFormatter/CovidDataMonthlySummary.cs:112-127 | the "Month Year (n days of data):" heading, n the group's size, then highest positives (ranked by deaths), lowest positives, highest totals, lowest totals, average positives and average totals, in that order |
| MonthlySummaries.MonthReportOpensWithDeathsRanking | Covid19Analysis/OutputFormatter/CovidDataMonthlySummary.cs:129-141 | after the heading comes the positives of the first record with the most deaths, with the days those positives occurred |
| MonthlySummaries.Section | Covid19Analysis/OutputFormatter/CovidDataMonthlySummary.cs:69-79 | a month without data gets only its heading with 0 days; otherwise the month's report |
| MonthlySummaries.GenerateMonthlySummary | Covid19Analysis/OutputFormatter/CovidDataMonthlySummary.cs:42-82 | raises on no records; otherwise the sections of the months from the first to the last month of the data |
| MonthlySummaries.SummaryMonthsSpan | Covid19Analysis/OutputFormatter/CovidDataMonthlySummary.cs:56-110 | the months walked are consecutive, cover every record's month, and start and end on months with data |
| MonthlySummaries.SummaryCountsEveryRecord | Covid19Analysis/OutputFormatter/CovidDataMonthlySummary.cs:56-127 | the day counts in the headings add up to the number of records summarised |
| MonthlySummaries.LowestFiguresPresent | Covid19Analysis/OutputFormatter/CovidDataMonthlySummary.cs:143-165 | with a positive test in the data, every month shown has its lowest figures |
| MonthlySummaries.HighestPositivesFollowDeaths | Covid19Analysis/OutputFormatter/CovidDataMonthlySummary.cs:129-141 | the "highest positive tests" figure is the positives of the record with the most deaths |
| Summaries.NewSummary | Covid19Analysis/OutputFormatter/CovidDataSummary.cs:37-44 | null arguments raise; the records are exactly what `CreateAFilteredCollection` returns, empty only when the collection is |
| Summaries.FirstDayLine | Covid19Analysis/OutputFormatter/CovidDataSummary.cs:52-69 | the "no positive" text without a positive test; otherwise the line with the "MM/dd/yyyy" date of the earliest positive record |
| Summaries.HighestLine | Covid19Analysis/OutputFormatter/CovidDataSummary.cs:74-124 | raises on no records; otherwise the formatted figure and date of the first record ranked highest |
| Summaries.HighestLines | Covid19Analysis/OutputFormatter/CovidDataSummary.cs:74-124 | the six "highest" lines fail exactly when there are no records |
| Summaries.PercentageLine | Covid19Analysis/OutputFormatter/CovidDataSummary.cs:128-147 | the placeholder without any test; otherwise the share and date of the top-ranked record |
| Summaries.AveragePositiveLine | Covid19Analysis/OutputFormatter/CovidDataSummary.cs:154-168 | the placeholder without a positive test; otherwise the mean positives since the first positive test |
| Summaries.PositivityLine | Covid19Analysis/OutputFormatter/CovidDataSummary.cs:172-186 | the placeholder without a positive test; otherwise the overall positivity rate, in (0, 1] |
| Summaries.ThresholdLine | Covid19Analysis/OutputFormatter/CovidDataSummary.cs:193-231 | the placeholder for a negative threshold or no positive test; otherwise the threshold and the day count beyond it |
| Summaries.ThresholdDaysDisjoint | Covid19Analysis/OutputFormatter/CovidDataSummary.cs:193-231 | for lower at most upper + 1, the days above the upper and below the lower threshold never exceed the window |
| Summaries.HistogramSection | Covid19Analysis/OutputFormatter/CovidDataSummary.cs:240-258 | the placeholder without a positive test or with width 0; otherwise the label and the table of the positives since the first positive test |
| Summaries.HistogramCountsEveryDay | Covid19Analysis/OutputFormatter/CovidDataSummary.cs:240-258 | the histogram counts every day since the first positive test once |
| Savers.NewSaver | Covid19Analysis/DataTier/CsvCovidDataSaver.cs:29-31 | a null file or collection raises ArgumentNullException |
| Savers.CovidDataHeaders | Covid19Analysis/DataTier/CsvCovidDataSaver.cs:50-60 | no names raises ArgumentOutOfRangeException; otherwise the names joined by commas, then the line terminator |
| Savers.CovidDataRecords | Covid19Analysis/DataTier/CsvCovidDataSaver.cs:62-73 | one terminated row per record, in collection order |
| Savers.SavedContents | Covid19Analysis/DataTier/CsvCovidDataSaver.cs:38-44 | the text written is the header line of the column names, then one terminated row per record, in order |
| Savers.SavedRowRejected | Covid19Analysis/DataTier/CsvCovidDataSaver.cs:62-73 | a saved row splits back into its seven fields, and the parser rejects it as malformed |
| Savers.SaveThenLoadKeepsNothing | Covid19Analysis/DataTier/CovidDataSaver.cs:55-75 | loading a saved file keeps no record, raises nothing, and logs every row under its line number |
| Assembling.NewAssembler | Covid19Analysis/OutputFormatter/CovidDataAssembler.cs:71-90 | a new assembler holds the state filter and no data, and meets the invariant |
| Assembling.ErrorText | Covid19Analysis/OutputFormatter/CovidDataAssembler.cs:96-99 | the error log of the last parse, or "" when there is none |
| Assembling.BuildReport | Covid19Analysis/OutputFormatter/CovidDataAssembler.cs:243-295 | a report is built exactly when there is data, a filter and numeric settings; it covers the filtered records, and its text is the state heading, the first positive day, the six highest lines, percentage, average and positivity lines, the upper then the lower threshold line, the histogram and the monthly summary, in that order, with each setting read through `FormatStringToInteger` |
| Assembling.Build | Covid19Analysis/OutputFormatter/CovidDataAssembler.cs:243-278 | a failed rebuild resets the assembler (settings kept); a successful one sets the filtered collection and makes the summary the built report's text, and changes nothing else |
| Assembling.NonNumericSettingResets | Covid19Analysis/OutputFormatter/CovidDataAssembler.cs:243-287 | a bin size "abc" or a threshold "12abc" makes every rebuild reset the assembler |
| Assembling.LoadCovidData | Covid19Analysis/OutputFormatter/CovidDataAssembler.cs:104-113 | null raises; an aborted parse leaves its error log installed and raises; otherwise nothing escapes, and a built report shows exactly the parsed records and their log |
| Assembling.MergeAndLoadCovidData | Covid19Analysis/OutputFormatter/CovidDataAssembler.cs:138-154 | a merge into missing data raises after the log is installed; otherwise the merged target is upserted into the whole collection |
| Assembling.MergeOverwritesOtherStates | Covid19Analysis/OutputFormatter/CovidDataAssembler.cs:297-301 | a record new to the filtered view replaces the whole collection's record for the same day and state, and is not offered as a duplicate |
| Assembling.ReplaceRecord | Covid19Analysis/OutputFormatter/CovidDataAssembler.cs:158-172 | with neither a merge nor a filtered view it raises; a null record raises ArgumentNullException. Without a controller the whole collection becomes `ReplaceDuplicateRecords`' result; with one it becomes the upsert of the controller's replaced target into it. Either way the filtered view is then the filter's result over the new whole collection |
| Assembling.ReplaceRecordRemovesFirstOfKey | Covid19Analysis/OutputFormatter/CovidDataAssembler.cs:160-165 | without a controller, the first record with the chosen key is dropped, the others keep their order, and the chosen record comes last |
| Assembling.ChosenRecordKept | Covid19Analysis/OutputFormatter/CovidDataAssembler.cs:158-172 | the chosen record survives the upsert into the whole collection |
| Assembling.DoesCovidRecordExist | Covid19Analysis/OutputFormatter/CovidDataAssembler.cs:177-186 | false before loading; once loaded, true exactly when the whole collection holds the record's day and state |
| Assembling.AddCovidRecordToCollection | Covid19Analysis/OutputFormatter/CovidDataAssembler.cs:190-205 | null raises; otherwise the record is appended, and the report is rebuilt when the assembler is, or becomes, loaded |
| Assembling.AddedRecordExists | Covid19Analysis/OutputFormatter/CovidDataAssembler.cs:177-205 | after an add that leaves the assembler loaded, the record is reported to exist |
| Assembling.GetDuplicatesFromMergedData | Covid19Analysis/OutputFormatter/CovidDataAssembler.cs:209-213 | raises before any merge; otherwise the records left behind by the last merge |
| Assembling.OnlyArgumentsRaise | Covid19Analysis/OutputFormatter/CovidDataAssembler.cs:104-238 | under the invariant only a null argument, a failed parse or a merge before data escapes, and every call keeps the invariant |
| Assembling.MergeBeforeLoadRaises | Covid19Analysis/OutputFormatter/CovidDataAssembler.cs:138-154 | merging into a fresh assembler raises: NullReferenceException for all states, ArgumentNullException for the filtered view |

## Left out

- **Left out of the source.**
  - Pages, view model, converters, relay command and dialogs (`View/`, `ViewModel/`, `Converter/`, `Utility/`): user interface only.
  - `XmlCovidDataSaver` and `ListExtension`: XML serialisation.
- **File and text I/O.**
  - `WriteCovidDataToFile` in both savers and in the assembler: file I/O. The text written is modelled.
  - The savers' `StorageFile` argument is only tested for null. It is modelled as a flag.
  - `UpdateCollectionFromViewModel`: it copies the view model's list into the collection and rebuilds. It is an editing path of the pages.
- **Hashing.** `GetHashCode` hashes the same (date, state) pair that `Equals` compares. No modelled operation hashes a record, so it is not modelled.
- **List delegations.** `ReplaceAllWithNewCovidCollection`, `Clear`, `CopyTo`, `Remove`, the indexer and the enumerators delegate directly to the list. The model's collection is the sequence itself.
- **Floating point.**
  - `FormatAveragesWithTwoDecimalPlaces`, `FormatNumericValueAsPercentage` and `FormatIntegerToDouble`: their culture-dependent rendering is a host parameter. The values they render are exact reals here.
  - The percentage ranking compares exact ratios, not rounded doubles.
- **Members the code uses but does not define.** `CovidRecord.cs` declares no `HospitalizedCurrently` property, yet the parser (`CovidCsvParser.cs:107`), the statistics (`CovidDataStatistics.cs:119,129`) and the savers read or write one. The model adds it to `Record` as the seventh counter `hospitalizedCurrently`. `Assets.HighestCurrentHospitalizationsLabel` and `Assets.ColumnNumberForHospitalizedCurrently` are parameters. `CovidDataSummary.GetHighestCurrentHospitalizationsWithDate`, which the assembler calls (`CovidDataAssembler.cs:263`), is not defined in `CovidDataSummary.cs`. The model renders that line like the other "highest" lines: `HighestLine` over `HospitalizedCurrently`, with the host's label.
- **Character handling.**
  - `StateAbbreviations`: a display table of state names.
  - `\d` in the numeric pattern is taken as the ASCII digits. .NET also matches other Unicode decimal digits.
  - Ignoring case compares ASCII letters only.
- **Sorting.**
  - `List.Sort` of the histogram ranges is modelled as the reversal it amounts to, since the ranges are collected with falling lower edges. `RangesFromZero` proves that order.
  - The `Sort` of the month list in the monthly summary leaves an ascending list as it is. It is not modelled.
- **Histogram.**
  - A negative bin size is not modelled. The settings parser clamps it to 0, and 0 raises.
  - The range loop's `binSize + 1` special case is modelled, and so is the padding of each line to five and two columns.
- **Unreachable branch.** `buildCovidSummary` chooses the generic header when the state filter is null, but the filter has already raised in the summary constructor by then, so that branch of the conditional cannot be taken and is not modelled.
- **Culture.**
  - Dates are rendered as "MM/dd/yyyy" with `/` as the separator. A culture with another date separator is not modelled.
  - Month names are the English ones. Other cultures' month names are not modelled.
  - The "," group separator of the "##,##0" format is the invariant culture's. A culture with another separator is not modelled.
- **Weaker contracts.**
  - Records.NewRecord: upper-casing the state changes only the ASCII letters a-z and does not depend on culture. The source's `ToUpper()` (`CovidRecord.cs:62`) upper-cases every Unicode letter under the current culture. So states such as "GAé" and "GAÉ" are one key in the source but two here, and the tr-TR upper-casing of "i" to "İ" is not modelled.
  - Statistics.FindRecordWithHighest: counters are unbounded, so 32-bit overflow of a sum or of `TotalTests` is not modelled.
  - MonthlySummaries.GenerateMonthlySummary: the averages are stated as means rendered by the host, not as their decimal text.

=== FILE: assembler.dfy ===
/**
 `CovidDataAssembler`: the facade the pages talk to. It holds the whole
 collection, the collection filtered to one state, the error log of the last
 parse, the merge controller of the last merge and the report text, and
 rebuilds the report after every change.

 The assembler is a state record; each public method is a transition that
 returns the next state and the exception, if any, that escapes to the
 caller. Assignments made before an escaping exception stay made, as they do
 in the C# object. Public property setters (state filter, thresholds, bin
 size) are record updates.

 The merge controller holds the filtered collection by reference; the model
 stores the controller's copy in `filtered` at exactly the points where the
 two are the same object.
 */
module Assembling {
  import opened Outcomes
  import opened Text
  import opened Records
  import opened Format
  import opened Assets
  import opened Host
  import opened Collections
  import opened Merging
  import opened CsvParser
  import opened Summaries
  import opened MonthlySummaries

  datatype Assembler = Assembler(
    loaded: bool,
    stateFilter: Option<string>,
    upperThreshold: Option<string>,
    lowerThreshold: Option<string>,
    binSize: Option<string>,
    summary: string,
    all: Option<seq<Record>>,
    filtered: Option<seq<Record>>,
    errorLog: Option<string>,
    controller: Option<Controller>)

  /** The state after a call, and the exception that escaped it, if any. */
  datatype Step = Step(after: Assembler, raised: Option<Failure>)

  /**
   What every public method keeps: a loaded assembler has both collections;
   a filtered collection or a merge controller is only ever set next to the
   whole collection.
   */
  predicate Invariant(a: Assembler) {
    && (a.loaded ==> a.all.Some? && a.filtered.Some?)
    && (a.filtered.Some? ==> a.all.Some?)
    && (a.controller.Some? ==> a.all.Some?)
  }

  /** Only the report settings survive. */
  predicate Cleared(a: Assembler) {
    && a.summary == ""
    && !a.loaded
    && a.all.None? && a.filtered.None? && a.errorLog.None? && a.controller.None?
  }

  predicate SameSettings(a: Assembler, b: Assembler) {
    && a.stateFilter == b.stateFilter
    && a.upperThreshold == b.upperThreshold
    && a.lowerThreshold == b.lowerThreshold
    && a.binSize == b.binSize
  }

  /** `Reset`: back to the state of a fresh assembler; the settings are kept. */
  function Reset(a: Assembler): (b: Assembler)
    ensures Cleared(b) && SameSettings(a, b)
    ensures Invariant(b)
  {
    a.(summary := "", loaded := false, errorLog := None, filtered := None, all := None, controller := None)
  }

  /** The constructor: the state's name as filter, then `Reset`. */
  function NewAssembler(stateFilter: string): (a: Assembler)
    ensures Cleared(a) && Invariant(a)
    ensures a.stateFilter == Some(stateFilter)
  {
    Reset(Assembler(false, Some(stateFilter), None, None, None, "", None, None, None, None))
  }

  /** `GetCovidDataErrors`: the parser's error text, or "" when there is no logger. */
  function ErrorText(a: Assembler): (text: string)
    ensures a.errorLog.None? ==> text == ""
    ensures a.errorLog.Some? ==> text == a.errorLog.value
  {
    match a.errorLog
    case None => ""
    case Some(log) => log
  }

  /** A finished report: the filtered collection and the summary text. */
  datatype Report = Report(filtered: seq<Record>, text: string)

  /**
   The summary text in the order `buildCovidSummary` appends it: the
   state's heading, the first positive day, the "highest" lines, the
   percentage, average and positivity lines, the upper and then the lower
   threshold line, the histogram and the monthly summary.
   */
  function ReportText(s: Summary, highest: string, upper: int, lower: int, binSize: nat, env: Env): string
    requires |s.records| > 0
  {
    s.stateFilter + " " + StateCovidDataHeadingLabel + FirstDayLine(s, env) + highest
    + PercentageLine(s, env) + AveragePositiveLine(s, env) + PositivityLine(s, env)
    + ThresholdLine(s, upper, true, env) + ThresholdLine(s, lower, false, env)
    + HistogramSection(s, binSize, env)
    + GenerateMonthlySummary(s.records, env).value
  }

  /**
   The body of `buildCovidSummary` up to the first exception. Filtering a
   clone of the whole collection raises for a missing collection or a
   missing filter, the "highest" lines raise on an empty collection, and
   the threshold and bin-size texts raise when `FormatStringToInteger`
   rejects them, in that order. The filter is known not to be `null` by the
   time the header is chosen, so the header without a state never appears.
   */
  function BuildReport(a: Assembler, env: Env): (r: Result<Report>)
    ensures r.Ok? <==>
      && a.all.Some? && a.stateFilter.Some? && |a.all.value| > 0
      && FormatStringToInteger(a.upperThreshold).Ok?
      && FormatStringToInteger(a.lowerThreshold).Ok?
      && FormatStringToInteger(a.binSize).Ok?
    ensures r.Err? && a.all.None? ==> r.failure == Fault
    ensures r.Err? && a.all.Some? && a.stateFilter.None? ==> r.failure == InvalidArgument
    ensures r.Err? && a.all.Some? && a.stateFilter.Some? && |a.all.value| == 0 ==> r.failure == NoData
    ensures r.Ok? ==> r.value.filtered == CreateAFilteredCollection(a.all.value, a.stateFilter).value
    ensures r.Ok? ==> |r.value.filtered| > 0
    ensures r.Ok? ==> var s := Summary(r.value.filtered, a.stateFilter.value);
      r.value.text
        == a.stateFilter.value + " " + StateCovidDataHeadingLabel + FirstDayLine(s, env)
        + HighestLines(s, HighestRows(env), env.nl).value
        + PercentageLine(s, env) + AveragePositiveLine(s, env) + PositivityLine(s, env)
        + ThresholdLine(s, FormatStringToInteger(a.upperThreshold).value, true, env)
        + ThresholdLine(s, FormatStringToInteger(a.lowerThreshold).value, false, env)
        + HistogramSection(s, FormatStringToInteger(a.binSize).value, env)
        + GenerateMonthlySummary(r.value.filtered, env).value
  {
    if a.all.None? then Err(Fault)
    else
      match NewSummary(Some(Clone(a.all.value)), a.stateFilter)
      case Err(f) => Err(f)
      case Ok(s) =>
        match HighestLines(s, HighestRows(env), env.nl)
        case Err(f) => Err(f)
        case Ok(highest) =>
          match FormatStringToInteger(a.upperThreshold)
          case Err(f) => Err(f)
          case Ok(upper) =>
            match FormatStringToInteger(a.lowerThreshold)
            case Err(f) => Err(f)
            case Ok(lower) =>
              match FormatStringToInteger(a.binSize)
              case Err(f) => Err(f)
              case Ok(binSize) =>
                Ok(Report(s.records, ReportText(s, highest, upper, lower, binSize, env)))
  }

  /**
   `buildCovidSummary`: on success the filtered collection and the summary
   are replaced; any exception is caught and resets the assembler.
   */
  function Build(a: Assembler, env: Env): (b: Assembler)
    ensures SameSettings(a, b)
    ensures Invariant(a) ==> Invariant(b)
    ensures b.summary != "" <==> BuildReport(a, env).Ok?
    ensures BuildReport(a, env).Err? ==> Cleared(b)
    ensures BuildReport(a, env).Ok? ==>
      && b.summary != ""
      && b.loaded == a.loaded && b.all == a.all && b.errorLog == a.errorLog && b.controller == a.controller
      && b.filtered == Some(CreateAFilteredCollection(a.all.value, a.stateFilter).value)
    ensures BuildReport(a, env).Ok? ==> b.summary == BuildReport(a, env).value.text
  {
    match BuildReport(a, env)
    case Err(_) => Reset(a)
    case Ok(report) =>
      assert |StateCovidDataHeadingLabel| > 0;
      a.(filtered := Some(report.filtered), summary := report.text)
  }

  /** A bin-size or threshold text that is not a number makes every rebuild reset the assembler. */
  lemma {:induction false} NonNumericSettingResets(a: Assembler, env: Env)
    requires a.binSize == Some("abc") || a.upperThreshold == Some("12abc")
    ensures Cleared(Build(a, env)) && SameSettings(a, Build(a, env))
  {
    FormatStringToIntegerRejects();
  }

  /**
   `LoadCovidData`. A `null` text raises ArgumentNullException. The parser's
   logger is installed before the parse, so a parse that raises leaves its
   partial log behind. Otherwise both collections hold the parsed records,
   the assembler is loaded and the report rebuilt.
   */
  function LoadCovidData(a: Assembler, text: Option<string>, env: Env): (r: Step)
    ensures Invariant(a) ==> Invariant(r.after)
    ensures text.None? ==> r == Step(a, Some(InvalidArgument))
    ensures text.Some? ==> var p := GenerateCovidDataCollection(text.value, env);
      && (p.aborted.Some? ==> r == Step(a.(errorLog := Some(p.log)), p.aborted))
      && (p.aborted.None? ==> r.raised.None? && SameSettings(a, r.after))
      && (p.aborted.None? && |p.records| == 0 ==> Cleared(r.after) && ErrorText(r.after) == "")
      && (p.aborted.None? && r.after.summary != "" ==>
            && r.after.loaded
            && r.after.all == Some(p.records)
            && ErrorText(r.after) == p.log)
      && (p.aborted.None? && r.after.summary != "" && a.stateFilter.Some? ==>
            r.after.filtered == Some(CreateAFilteredCollection(p.records, a.stateFilter).value))
  {
    if text.None? then Step(a, Some(InvalidArgument))
    else
      var p := GenerateCovidDataCollection(text.value, env);
      var withLog := a.(errorLog := Some(p.log));
      if p.aborted.Some? then Step(withLog, p.aborted)
      else Step(Build(withLog.(filtered := Some(p.records), all := Some(Clone(p.records)), loaded := true), env), None)
  }

  /**
   The part of `MergeAndLoadCovidData` after the parse: choose the merge
   target (a clone of the whole collection for "merge all states", the
   filtered collection otherwise), move the non-duplicates into it, and
   upsert the target into the whole collection.
   */
  function MergeStage(a: Assembler, incoming: seq<Record>, mergeAll: bool): (r: Step)
    ensures mergeAll && a.all.None? ==> r == Step(a, Some(Fault))
    ensures !mergeAll && a.filtered.None? ==> r == Step(a, Some(InvalidArgument))
    ensures r.raised.None? <==> (if mergeAll then a.all.Some? else a.filtered.Some? && a.all.Some?)
    ensures r.raised.None? ==>
      var target := if mergeAll then a.all.value else a.filtered.value;
      var c := AddAllNonDuplicates(Controller(target, incoming));
      && r.after == a.(controller := Some(c), filtered := Some(c.merged), all := Some(AddAll(a.all.value, c.merged)))
  {
    if mergeAll && a.all.None? then Step(a, Some(Fault))
    else
      var a1 := if mergeAll then a.(filtered := Some(Clone(a.all.value))) else a;
      match NewController(a1.filtered, Some(incoming))
      case Err(f) => Step(a1, Some(f))
      case Ok(c) =>
        var merged := AddAllNonDuplicates(c);
        var a2 := a1.(controller := Some(merged), filtered := Some(merged.merged));
        if a2.all.None? then Step(a2, Some(Fault))
        else Step(a2.(all := Some(AddAll(a2.all.value, merged.merged))), None)
  }

  /**
   `MergeAndLoadCovidData`. A `null` text raises ArgumentNullException; a
   parse that raises leaves the assembler as it was, since the logger is
   installed only after the parse. The merge itself never marks the
   assembler loaded.
   */
  function MergeAndLoadCovidData(a: Assembler, text: Option<string>, mergeAll: bool, env: Env): (r: Step)
    ensures Invariant(a) ==> Invariant(r.after)
    ensures r.after.loaded ==> a.loaded
    ensures text.None? ==> r == Step(a, Some(InvalidArgument))
    ensures text.Some? ==> var p := GenerateCovidDataCollection(text.value, env);
      && (p.aborted.Some? ==> r == Step(a, p.aborted))
      && (p.aborted.None? ==>
            && (r.raised.None? <==> (if mergeAll then a.all.Some? else a.filtered.Some? && a.all.Some?))
            && (r.raised.Some? ==> r.after.errorLog == Some(p.log)))
      && (p.aborted.None? && r.raised.None? && r.after.summary != "" && a.all.Some? && (mergeAll || a.filtered.Some?) ==>
            var target := if mergeAll then a.all.value else a.filtered.value;
            var c := AddAllNonDuplicates(Controller(target, p.records));
            && r.after.errorLog == Some(p.log)
            && r.after.controller == Some(c)
            && r.after.all == Some(AddAll(a.all.value, c.merged)))
  {
    if text.None? then Step(a, Some(InvalidArgument))
    else
      var p := GenerateCovidDataCollection(text.value, env);
      if p.aborted.Some? then Step(a, p.aborted)
      else
        var stage := MergeStage(a.(errorLog := Some(p.log)), p.records, mergeAll);
        if stage.raised.Some? then stage else Step(Build(stage.after, env), None)
  }

  /**
   Merging into the filtered collection only ("merge all states" off): an
   incoming record whose key the filtered collection lacks, say one of
   another state, is not reported as a duplicate, and it replaces the
   record with its key in the whole collection without asking.
   */
  lemma {:induction false} MergeOverwritesOtherStates(a: Assembler, incoming: seq<Record>, x: Record, y: Record)
    requires a.filtered.Some? && a.all.Some?
    requires KeyUnique(incoming) && KeyUnique(a.all.value)
    requires x in incoming && !ContainsKey(a.filtered.value, x)
    requires SameKey(x, y) && x != y
    ensures var after := MergeStage(a, incoming, false).after;
      && x !in GetDuplicates(after.controller.value)
      && x in after.all.value
      && y !in after.all.value
  {
    var after := MergeStage(a, incoming, false).after;
    DuplicatesAfterMerge(Controller(a.filtered.value, incoming));
    MovedRecordWins(a.filtered.value, incoming, a.all.value, x);
  }

  /**
   `ReplaceRecord`. Without a merge controller the record replaces its
   key's member in the filtered and in the whole collection; a `null`
   record raises ArgumentNullException there. With one, the controller's
   target takes the record and is upserted into the whole collection, and
   the assembler is marked loaded. Either way the report is rebuilt.
   */
  function ReplaceRecord(a: Assembler, r: Option<Record>, env: Env): (s: Step)
    ensures Invariant(a) ==> Invariant(s.after)
    ensures a.controller.None? && a.filtered.None? ==> s == Step(a, Some(Fault))
    ensures r.None? && (a.controller.Some? || a.filtered.Some?) ==> s == Step(a, Some(InvalidArgument))
    ensures Invariant(a) && r.Some? && (a.controller.Some? || a.filtered.Some?) ==> s.raised.None?
    ensures r.Some? && a.controller.None? && a.all.Some? && s.raised.None? && s.after.summary != "" ==>
      && s.after.all.Some?
      && (ContainsKey(a.all.value, r.value) ==> r.value in s.after.all.value && |s.after.all.value| == |a.all.value|)
      && (!ContainsKey(a.all.value, r.value) ==> s.after.all == a.all)
    ensures r.Some? && a.controller.Some? && a.all.Some? && s.raised.None? && s.after.summary != "" ==>
      && s.after.loaded
      && s.after.controller == Some(ReplaceDuplicate(a.controller.value, r).value)
      && s.after.all.Some?
      && (ContainsKey(a.controller.value.merged, r.value) ==> r.value in s.after.all.value)
    ensures r.Some? && a.controller.None? && a.filtered.Some? && a.all.Some? && s.after.summary != "" ==>
      && s.after.all == Some(ReplaceDuplicateRecords(a.all.value, r).value.0)
      && s.after.filtered.Some? && CreateAFilteredCollection(s.after.all.value, a.stateFilter) == Ok(s.after.filtered.value)
    ensures r.Some? && a.controller.Some? && a.all.Some? && s.after.summary != "" ==>
      && s.after.all == Some(AddAll(a.all.value, ReplaceDuplicate(a.controller.value, r).value.merged))
      && s.after.filtered.Some? && CreateAFilteredCollection(s.after.all.value, a.stateFilter) == Ok(s.after.filtered.value)
  {
    if a.controller.None? then
      if a.filtered.None? then Step(a, Some(Fault))
      else ReplaceInFiltered(a, r, env)
    else ReplaceThroughController(a, r, env)
  }

  /** The branch of `ReplaceRecord` without a merge controller. */
  function ReplaceInFiltered(a: Assembler, r: Option<Record>, env: Env): (s: Step)
    requires a.controller.None? && a.filtered.Some?
    ensures Invariant(a) ==> Invariant(s.after)
    ensures r.None? ==> s == Step(a, Some(InvalidArgument))
    ensures Invariant(a) && r.Some? ==> s.raised.None?
    ensures r.Some? && a.all.Some? && s.raised.None? && s.after.summary != "" ==>
      && s.after.all.Some?
      && (ContainsKey(a.all.value, r.value) ==> r.value in s.after.all.value && |s.after.all.value| == |a.all.value|)
      && (!ContainsKey(a.all.value, r.value) ==> s.after.all == a.all)
    ensures r.Some? && a.all.Some? && s.after.summary != "" ==>
      && s.after.all == Some(ReplaceDuplicateRecords(a.all.value, r).value.0)
      && s.after.filtered.Some? && CreateAFilteredCollection(s.after.all.value, a.stateFilter) == Ok(s.after.filtered.value)
  {
    match ReplaceDuplicateRecords(a.filtered.value, r)
    case Err(f) => Step(a, Some(f))
    case Ok(replacedFiltered) =>
      var a1 := a.(filtered := Some(replacedFiltered.0));
      if a1.all.None? then Step(a1, Some(Fault))
      else
        var replacedAll := ReplaceDuplicateRecords(a1.all.value, r).value;
        assert replacedAll.1 ==> replacedAll.0[|a.all.value| - 1] == r.value;
        Step(Rebuild(a1, replacedAll.0, env), None)
  }

  /** The branch of `ReplaceRecord` through the merge controller. */
  function ReplaceThroughController(a: Assembler, r: Option<Record>, env: Env): (s: Step)
    requires a.controller.Some?
    ensures Invariant(a) ==> Invariant(s.after)
    ensures r.None? ==> s == Step(a, Some(InvalidArgument))
    ensures Invariant(a) && r.Some? ==> s.raised.None?
    ensures r.Some? && a.all.Some? && s.raised.None? && s.after.summary != "" ==>
      && s.after.loaded
      && s.after.controller == Some(ReplaceDuplicate(a.controller.value, r).value)
      && s.after.all.Some?
      && (ContainsKey(a.controller.value.merged, r.value) ==> r.value in s.after.all.value)
    ensures r.Some? && a.all.Some? && s.after.summary != "" ==>
      && s.after.all == Some(AddAll(a.all.value, ReplaceDuplicate(a.controller.value, r).value.merged))
      && s.after.filtered.Some? && CreateAFilteredCollection(s.after.all.value, a.stateFilter) == Ok(s.after.filtered.value)
  {
    match ReplaceDuplicate(a.controller.value, r)
    case Err(f) => Step(a, Some(f))
    case Ok(c) =>
      var a1 := a.(controller := Some(c), filtered := Some(c.merged), loaded := true);
      if a1.all.None? then Step(a1, Some(Fault))
      else
        var upserted := AddAll(a1.all.value, c.merged);
        ChosenRecordKept(a1.all.value, a.controller.value, r.value, c);
        Step(Rebuild(a1, upserted, env), None)
  }

  /**
   Without a merge controller, the whole collection loses the first member
   with the chosen record's key, keeps the others in order, and ends with
   the chosen record.
   */
  lemma {:induction false} ReplaceRecordRemovesFirstOfKey(a: Assembler, r: Record, env: Env, i: nat)
    requires a.controller.None? && a.filtered.Some? && a.all.Some?
    requires i < |a.all.value| && SameKey(a.all.value[i], r)
    requires forall j :: 0 <= j < i ==> !SameKey(a.all.value[j], r)
    requires ReplaceRecord(a, Some(r), env).after.summary != ""
    ensures ReplaceRecord(a, Some(r), env).after.all == Some(a.all.value[..i] + a.all.value[i + 1..] + [r])
  {
    ReplaceKeepsOthersInOrder(a.all.value, r, i);
  }

  /** The whole collection replaced by `all`, then the report rebuilt. */
  function Rebuild(a: Assembler, all: seq<Record>, env: Env): (b: Assembler)
    ensures Invariant(a) ==> Invariant(b)
    ensures b.summary != "" ==>
      && b.all == Some(all) && b.loaded == a.loaded && b.controller == a.controller
      && b.filtered.Some? && CreateAFilteredCollection(all, a.stateFilter) == Ok(b.filtered.value)
  {
    Build(a.(all := Some(all)), env)
  }

  /** The record the user chose for a duplicate ends up in the whole collection once the target is upserted. */
  lemma {:induction false} ChosenRecordKept(all: seq<Record>, c: Controller, r: Record, replaced: Controller)
    requires ReplaceDuplicate(c, Some(r)) == Ok(replaced)
    ensures ContainsKey(c.merged, r) ==> r in AddAll(all, replaced.merged)
  {
    if ContainsKey(c.merged, r) {
      AddAllLastWins(all, replaced.merged, |replaced.merged| - 1);
    }
  }

  /**
   `DoesCovidRecordExist`: false while not loaded; otherwise whether the
   whole collection holds the record's key. `Contains(null)` is false.
   */
  function DoesCovidRecordExist(a: Assembler, r: Option<Record>): (found: Result<bool>)
    ensures !a.loaded ==> found == Ok(false)
    ensures Invariant(a) ==> found.Ok?
    ensures found.Ok? && a.loaded && a.all.Some? ==> (found.value <==> r.Some? && ContainsKey(a.all.value, r.value))
  {
    if !a.loaded then Ok(false)
    else if a.all.None? then Err(Fault)
    else Ok(r.Some? && ContainsKey(a.all.value, r.value))
  }

  /**
   `addCovidRecordToExistingCollection` and
   `createAndAddToTheCovidDataCollection`. The state is compared with the
   filter ordinally. A record of the filter's state goes into both
   collections, starting them when nothing is loaded; any other record goes
   into the whole collection only, and while nothing is loaded it replaces
   that collection by itself alone and leaves the assembler unloaded.
   */
  function AddRecordStage(a: Assembler, r: Record): (s: Step)
    ensures Invariant(a) ==> s.raised.None? && Invariant(s.after)
    ensures s.raised.None? ==> s.after.all.Some? && (a.loaded ==> a.all.Some?)
    ensures s.raised.None? ==> SameSettings(a, s.after) && s.after.summary == a.summary && s.after.controller == a.controller
    ensures s.raised.None? && !a.loaded && a.stateFilter != Some(r.state) ==>
      !s.after.loaded && s.after.all == Some([r])
    ensures s.raised.None? ==> (s.after.loaded <==> a.loaded || a.stateFilter == Some(r.state))
    ensures s.raised.None? ==> r in s.after.all.value
    ensures s.raised.None? && a.loaded ==> s.after.all == Some(a.all.value + [r])
  {
    var matches := a.stateFilter == Some(r.state);
    if a.loaded then
      if matches then
        if a.filtered.None? then Step(a, Some(Fault))
        else
          var a1 := a.(filtered := Some(Add(a.filtered.value, r)));
          if a1.all.None? then Step(a1, Some(Fault))
          else Step(a1.(all := Some(Add(a1.all.value, r))), None)
      else if a.all.None? then Step(a, Some(Fault))
      else Step(a.(all := Some(Add(a.all.value, r))), None)
    else if matches then
      Step(a.(filtered := Some([r]), all := Some(Clone([r])), loaded := true), None)
    else
      Step(a.(all := Some([r])), None)
  }

  /**
   `AddCovidRecordToCollection`: a `null` record raises at its `State`;
   otherwise the record is added and, when there is a filtered collection,
   the report is rebuilt.
   */
  function AddCovidRecordToCollection(a: Assembler, r: Option<Record>, env: Env): (s: Step)
    ensures r.None? ==> s == Step(a, Some(Fault))
    ensures Invariant(a) ==> Invariant(s.after)
    ensures Invariant(a) && r.Some? ==> s.raised.None?
    ensures Invariant(a) && r.Some? && s.after.loaded ==>
      && s.after.summary != ""
      && r.value in s.after.all.value
      && (a.loaded ==> s.after.all == Some(a.all.value + [r.value]))
    ensures r.Some? && s.raised.None? && !a.loaded && a.stateFilter != Some(r.value.state) ==>
      && !s.after.loaded
      && (a.filtered.None? ==> s.after.all == Some([r.value]) && s.after.summary == a.summary)
  {
    if r.None? then Step(a, Some(Fault))
    else
      var stage := AddRecordStage(a, r.value);
      if stage.raised.Some? || stage.after.filtered.None? then stage else Step(Build(stage.after, env), None)
  }

  /** Once a record is added and the assembler is loaded, the assembler reports that the record exists. */
  lemma {:induction false} AddedRecordExists(a: Assembler, r: Record, env: Env)
    requires Invariant(a)
    ensures var s := AddCovidRecordToCollection(a, Some(r), env);
      s.after.loaded ==> DoesCovidRecordExist(s.after, Some(r)) == Ok(true)
  {
    var s := AddCovidRecordToCollection(a, Some(r), env);
    if s.after.loaded {
      MemberContainsKey(s.after.all.value, r);
    }
  }

  /** `GetDuplicatesFromMergedData`: a copy of the duplicates left by the last merge; no merge yet raises. */
  function GetDuplicatesFromMergedData(a: Assembler): (r: Result<seq<Record>>)
    ensures r.Err? <==> a.controller.None?
    ensures r.Err? ==> r.failure == Fault
    ensures r.Ok? ==> r.value == a.controller.value.incoming
  {
    match a.controller
    case None => Err(Fault)
    case Some(c) => Ok(GetDuplicates(c))
  }

  /** A call on the assembler, as the pages make them. */
  datatype Command =
    | Load(text: Option<string>)
    | MergeAndLoad(text: Option<string>, mergeAll: bool)
    | Replace(record: Option<Record>)
    | AddRecord(record: Option<Record>)
    | UpdateSummary
    | ResetAll

  function Apply(a: Assembler, cmd: Command, env: Env): (r: Step)
    ensures Invariant(a) ==> Invariant(r.after)
  {
    match cmd
    case Load(text) => LoadCovidData(a, text, env)
    case MergeAndLoad(text, mergeAll) => MergeAndLoadCovidData(a, text, mergeAll, env)
    case Replace(r) => ReplaceRecord(a, r, env)
    case AddRecord(r) => AddCovidRecordToCollection(a, r, env)
    case UpdateSummary => Step(Build(a, env), None)
    case ResetAll => Step(Reset(a), None)
  }

  /** With the invariant, only a `null` argument, a failed parse or a merge before any data escapes. */
  lemma {:induction false} OnlyArgumentsRaise(a: Assembler, cmd: Command, env: Env)
    requires Invariant(a)
    requires cmd.AddRecord? ==> cmd.record.Some?
    requires cmd.Replace? ==> cmd.record.Some? && (a.controller.Some? || a.filtered.Some?)
    ensures cmd.AddRecord? || cmd.Replace? || cmd.UpdateSummary? || cmd.ResetAll? ==> Apply(a, cmd, env).raised.None?
    ensures Invariant(Apply(a, cmd, env).after)
  {
    match cmd
    case Load(text) =>
    case MergeAndLoad(text, mergeAll) =>
    case Replace(r) =>
    case AddRecord(r) =>
    case UpdateSummary =>
    case ResetAll =>
  }

  /**
   Merging before anything is loaded raises: a NullReferenceException at
   the clone of the missing whole collection for "merge all states", an
   ArgumentNullException from the controller for the missing filtered
   collection otherwise.
   */
  lemma {:induction false} MergeBeforeLoadRaises(stateFilter: string, text: string, mergeAll: bool, env: Env)
    requires GenerateCovidDataCollection(text, env).aborted.None?
    ensures var r := MergeAndLoadCovidData(NewAssembler(stateFilter), Some(text), mergeAll, env);
      r.raised == Some(if mergeAll then Fault else InvalidArgument)
  {
  }
}

=== FILE: assets.dfy ===
/** The constant strings and numbers of `Assets`. */
module Assets {

  const CsvDelimiter: char := ','

  /** "No Positive Tests are present in the data set " followed by a line break. */
  function NoPositiveData(nl: string): string {
    "No Positive Tests are present in the data set " + nl
  }

  const StateCovidDataHeadingLabel: string :=
    "Statistics for Covid-19\n-------------------------------------------------------------\n"

  const HistogramLabel: string := "Positive Case Histogram: "
  const DateOfOccurrenceLabel: string := "occurred on"
  const FirstDayOfPositiveTestLabel: string := "First positive case " + DateOfOccurrenceLabel
  const AveragePositiveTestsLabel: string := "Average # positive tests:"
  const AverageTotalTestsLabel: string := "Average # total tests:"
  const OverallPositivityRateLabel: string := "The Overall Positivity Rate:"
  const DaysGreaterThanValueLabel: string := "Days Since First Positive Test for Cases That are Greater Than"
  const DaysLessThanValueLabel: string := "Days Since First Positive Test for Cases That are Less Than"
  const DayOfOccurrenceMonthlyLabel: string := "occurred on the"
  const DaysOfDataLabel: string := "days of data"
  const HighestNegativeTestsLabel: string := "Highest # negative tests"
  const HighestDeathsLabel: string := "Highest # deaths:"
  const HighestHospitalizationsLabel: string := "Highest # Hospitalizations:"
  const HighestPercentageOfPositiveCasesLabel: string := "Highest percentage of positive cases:"
  const HighestPositiveTestsLabel: string := "Highest # positive tests:"
  const HighestTotalTestsLabel: string := "Highest # total tests:"
  const LowestPositiveTestsLabel: string := "Lowest  # positive tests:"
  const LowestTotalTestsLabel: string := "Lowest  # total tests:"

  const HeadersForData: seq<string> :=
    ["date", "state", "positiveIncrease", "negativeIncrease", "deathIncrease", "hospitalizedIncrease"]

  const ColumnNumberForDate: nat := 0
  const ColumnNumberForState: nat := 1
  const ColumnNumberForPositives: nat := 2
  const ColumnNumberForNegatives: nat := 3
  const ColumnNumberForDeaths: nat := 4
  const ColumnNumberForHospitalizations: nat := 5

  const DefaultGreaterThanThreshold: nat := 2500
  const DefaultLessThanThreshold: nat := 1000
  const NumberOfFields: nat := 6
  const BeginningRowNumber: nat := 2
  const ColumnStartOfNumericData: nat := 2
  const RangeWidth: nat := 500
  const NumberOfMonthsInOneYear: nat := 12
}

=== FILE: calendar.dfy ===
/**
 Calendar dates as the engine uses `DateTime`: a date with no time of day,
 ordered lexicographically by (year, month, day), rendered and parsed with the
 custom formats "yyyyMMdd" and "MM/dd/yyyy", and grouped by calendar month.
 */
module Calendar {
  import opened Outcomes
  import opened Text

  datatype YearMonthDay = YearMonthDay(year: int, month: int, day: int)

  predicate IsLeapYear(y: int) {
    y % 4 == 0 && (y % 100 != 0 || y % 400 == 0)
  }

  function DaysInMonth(y: int, m: int): int {
    if m == 2 then (if IsLeapYear(y) then 29 else 28)
    else if m == 4 || m == 6 || m == 9 || m == 11 then 30
    else 31
  }

  /** The dates `DateTime` can hold: Gregorian, years 1 to 9999. */
  predicate IsCalendarDate(d: YearMonthDay) {
    && 1 <= d.year <= 9999
    && 1 <= d.month <= 12
    && 1 <= d.day <= DaysInMonth(d.year, d.month)
  }

  type Date = d: YearMonthDay | IsCalendarDate(d) witness YearMonthDay(2020, 1, 1)

  /** `a >= b` on dates. */
  predicate OnOrAfter(a: Date, b: Date) {
    || a.year > b.year
    || (a.year == b.year && a.month > b.month)
    || (a.year == b.year && a.month == b.month && a.day >= b.day)
  }

  lemma {:induction false} OnOrAfterIsTotalOrder(a: Date, b: Date, c: Date)
    ensures OnOrAfter(a, a)
    ensures OnOrAfter(a, b) || OnOrAfter(b, a)
    ensures OnOrAfter(a, b) && OnOrAfter(b, a) ==> a == b
    ensures OnOrAfter(a, b) && OnOrAfter(b, c) ==> OnOrAfter(a, c)
  {
  }

  /** The first day of a calendar month, as `new DateTime(year, month, 1)`. */
  datatype Month = Month(year: int, month: int)

  function MonthOf(d: Date): Month {
    Month(d.year, d.month)
  }

  /** Months counted from January of year 0, so that consecutive months differ by one. */
  function MonthNumber(m: Month): int {
    12 * m.year + m.month - 1
  }

  /** The digits of `n`, padded with zeros on the left to `width`. */
  function ZeroPad(n: nat, width: nat): string {
    PadLeft(Decimal(n), width, '0')
  }

  lemma {:induction false} ZeroPadValue(n: nat, width: nat)
    requires 1 <= width
    requires n < Pow10(width)
    ensures |ZeroPad(n, width)| == width
    ensures AllDigits(ZeroPad(n, width))
    ensures DigitsValue(ZeroPad(n, width)) == n
  {
    DecimalLength(n, width);
    var dec := Decimal(n);
    assert ZeroPad(n, width) == Repeat('0', width - |dec|) + dec;
    LeadingZeros(width - |dec|, dec);
    DecimalValue(n);
  }

  /** `date.ToString("yyyyMMdd")`. */
  function Compact(d: Date): string {
    ZeroPad(d.year, 4) + ZeroPad(d.month, 2) + ZeroPad(d.day, 2)
  }

  /** `date.ToString("MM/dd/yyyy")`, with "/" as the date separator. */
  function Slashed(d: Date): string {
    ZeroPad(d.month, 2) + "/" + ZeroPad(d.day, 2) + "/" + ZeroPad(d.year, 4)
  }

  /**
   `DateTime.TryParseExact(s, "yyyyMMdd", InvariantCulture, None)`: exactly
   eight ASCII digits that name a real calendar date.
   */
  function ParseCompact(s: string): (r: Option<Date>)
    ensures r.Some? ==> |s| == 8 && AllDigits(s)
    ensures r.Some? ==> r.value.month == DigitsValue(s[4..6]) && r.value.day == DigitsValue(s[6..])
    ensures r.Some? ==> r.value.year == DigitsValue(s[..4])
  {
    if |s| != 8 || !AllDigits(s) then None
    else
      var ymd := YearMonthDay(DigitsValue(s[..4]), DigitsValue(s[4..6]), DigitsValue(s[6..]));
      if IsCalendarDate(ymd) then Some(ymd) else None
  }

  /** Parsing the "yyyyMMdd" rendering of a date gives the date back. */
  lemma {:induction false} CompactRoundTrip(d: Date)
    ensures |Compact(d)| == 8 && AllDigits(Compact(d))
    ensures ParseCompact(Compact(d)) == Some(d)
  {
    assert Pow10(2) == 100;
    assert Pow10(4) == 10000;
    ZeroPadValue(d.year, 4);
    ZeroPadValue(d.month, 2);
    ZeroPadValue(d.day, 2);
    var s := Compact(d);
    assert s[..4] == ZeroPad(d.year, 4);
    assert s[4..6] == ZeroPad(d.month, 2);
    assert s[6..] == ZeroPad(d.day, 2);
  }

  /** ... and every string the parser accepts is the rendering of the date it yields. */
  lemma {:induction false} ParseCompactInverse(s: string)
    requires ParseCompact(s).Some?
    ensures Compact(ParseCompact(s).value) == s
  {
    DigitsRoundTrip(s[..4]);
    DigitsRoundTrip(s[4..6]);
    DigitsRoundTrip(s[6..]);
    assert s == s[..4] + s[4..6] + s[6..];
  }

  /** 30 February 2020 is no date, and separators are not digits. */
  lemma {:induction false} ParseCompactRejects()
    ensures ParseCompact("20200230") == None
    ensures ParseCompact("2020-05-01") == None
    ensures ParseCompact("20200229").Some?
  {
    var s := "20200230";
    assert s[..4] == "2020" && s[4..6] == "02" && s[6..] == "30";
    assert DigitsValue("2020") == 2020 by {
      assert "2020"[..3] == "202" && "202"[..2] == "20" && "20"[..1] == "2";
    }
    assert DigitsValue("02") == 2 by {
      assert "02"[..1] == "0";
    }
    assert DigitsValue("30") == 30 by {
      assert "30"[..1] == "3";
    }
    var t := "20200229";
    assert t[..4] == "2020" && t[4..6] == "02" && t[6..] == "29";
    assert DigitsValue("29") == 29 by {
      assert "29"[..1] == "2";
    }
    assert !IsDigit("2020-05-01"[4]);
  }

  /** English month names, as `ToString("MMMM")` renders them in the en-US culture. */
  function MonthName(m: int): string
    requires 1 <= m <= 12
  {
    ["January", "February", "March", "April", "May", "June", "July",
     "August", "September", "October", "November", "December"][m - 1]
  }
}

=== FILE: collection.dfy ===
/**
 `CovidDataCollection`: an ordered list of records in which "the same
 record" means "the same (date, state) key", because the list operations
 `Contains` and `Remove` call `CovidRecord.Equals`.
 */
module Collections {
  import opened Outcomes
  import opened Text
  import opened Calendar
  import opened FormatValidator
  import opened Records

  /** `Add`: append, whether or not the key is already present. */
  function Add(records: seq<Record>, r: Record): (result: seq<Record>)
    ensures |result| == |records| + 1 && result[..|records|] == records && result[|records|] == r
  {
    records + [r]
  }

  /** `Add` can break key uniqueness: appending a record whose key is present. */
  lemma {:induction false} AddCanDuplicateKey(records: seq<Record>, r: Record)
    requires ContainsKey(records, r)
    ensures !KeyUnique(Add(records, r))
  {
    var i :| 0 <= i < |records| && SameKey(records[i], r);
    assert Add(records, r)[i] == records[i];
  }

  /** `List.Remove(r)`: drop the first member with the key of `r`, if there is one. */
  function RemoveFirstKey(records: seq<Record>, r: Record): (result: seq<Record>)
    ensures ContainsKey(records, r) ==> |result| == |records| - 1
    ensures !ContainsKey(records, r) ==> result == records
  {
    if |records| == 0 then []
    else if SameKey(records[0], r) then records[1..]
    else [records[0]] + RemoveFirstKey(records[1..], r)
  }

  lemma {:induction false} ContainsKeyCons(records: seq<Record>, k: Record)
    requires |records| > 0
    ensures ContainsKey(records, k) <==> SameKey(records[0], k) || ContainsKey(records[1..], k)
  {
    if ContainsKey(records, k) && !SameKey(records[0], k) {
      var i :| 0 <= i < |records| && SameKey(records[i], k);
      assert records[1..][i - 1] == records[i];
    }
    if ContainsKey(records[1..], k) {
      var i :| 0 <= i < |records[1..]| && SameKey(records[1..][i], k);
      assert records[i + 1] == records[1..][i];
    }
  }

  lemma {:induction false} KeyUniqueCons(records: seq<Record>)
    requires |records| > 0
    ensures KeyUnique(records) <==> !ContainsKey(records[1..], records[0]) && KeyUnique(records[1..])
  {
    var t := records[1..];
    if KeyUnique(records) {
      forall i | 0 <= i < |t|
        ensures !SameKey(t[i], records[0])
      {
        assert records[i + 1] == t[i];
      }
      forall i, j | 0 <= i < j < |t|
        ensures !SameKey(t[i], t[j])
      {
        assert records[i + 1] == t[i] && records[j + 1] == t[j];
      }
    }
    if !ContainsKey(t, records[0]) && KeyUnique(t) {
      forall i, j | 0 <= i < j < |records|
        ensures !SameKey(records[i], records[j])
      {
        assert records[j] == t[j - 1];
        if i > 0 {
          assert records[i] == t[i - 1];
        }
      }
    }
  }

  lemma {:induction false} RemoveFirstKeyMembers(records: seq<Record>, r: Record, x: Record)
    ensures x in RemoveFirstKey(records, r) ==> x in records
    ensures x in records && !SameKey(x, r) ==> x in RemoveFirstKey(records, r)
  {
    if |records| > 0 {
      RemoveFirstKeyMembers(records[1..], r, x);
      if x in records && x != records[0] {
        assert x in records[1..];
      }
    }
  }

  lemma {:induction false} RemoveFirstKeyKeys(records: seq<Record>, r: Record, k: Record)
    ensures ContainsKey(RemoveFirstKey(records, r), k) ==> ContainsKey(records, k)
    ensures ContainsKey(records, k) && !SameKey(k, r) ==> ContainsKey(RemoveFirstKey(records, r), k)
  {
    if |records| > 0 {
      ContainsKeyCons(records, k);
      if !SameKey(records[0], r) {
        RemoveFirstKeyKeys(records[1..], r, k);
        var result := RemoveFirstKey(records, r);
        assert result[0] == records[0] && result[1..] == RemoveFirstKey(records[1..], r);
        ContainsKeyCons(result, k);
      }
    }
  }

  lemma {:induction false} RemoveFirstKeyKeyUnique(records: seq<Record>, r: Record)
    requires KeyUnique(records)
    ensures KeyUnique(RemoveFirstKey(records, r))
    ensures !ContainsKey(RemoveFirstKey(records, r), r)
  {
    if |records| > 0 {
      var h, t := records[0], records[1..];
      KeyUniqueCons(records);
      if SameKey(h, r) {
        forall i | 0 <= i < |t|
          ensures !SameKey(t[i], r)
        {
          assert !SameKey(t[i], h);
        }
      } else {
        RemoveFirstKeyKeyUnique(t, r);
        RemoveFirstKeyKeys(t, r, h);
        var result := RemoveFirstKey(records, r);
        assert result[0] == h && result[1..] == RemoveFirstKey(t, r);
        KeyUniqueCons(result);
        ContainsKeyCons(result, r);
      }
    }
  }

  /**
   `ReplaceDuplicateRecords(r)`: a `null` record raises ArgumentNullException.
   If a member has the key of `r`, the first such member is removed, `r` is
   appended, and the answer is true; otherwise nothing changes and the answer
   is false.
   */
  function ReplaceDuplicateRecords(records: seq<Record>, r: Option<Record>): (result: Result<(seq<Record>, bool)>)
    ensures r.None? <==> result.Err?
    ensures result.Err? ==> result.failure == InvalidArgument
    ensures result.Ok? ==> (result.value.1 <==> ContainsKey(records, r.value))
    ensures result.Ok? && !result.value.1 ==> result.value.0 == records
    ensures result.Ok? && result.value.1 ==>
      && |result.value.0| == |records|
      && result.value.0[|records| - 1] == r.value
      && result.value.0[..|records| - 1] == RemoveFirstKey(records, r.value)
  {
    if r.None? then Err(InvalidArgument)
    else
      var remaining := RemoveFirstKey(records, r.value);
      var found := ContainsKey(records, r.value);
      if found then Ok((Add(remaining, r.value), true)) else Ok((records, false))
  }

  /** Which member `List.Remove` drops depends only on the key it is given. */
  lemma {:induction false} RemoveFirstKeyByKey(records: seq<Record>, r: Record, r2: Record)
    requires SameKey(r, r2)
    ensures RemoveFirstKey(records, r) == RemoveFirstKey(records, r2)
    decreases |records|
  {
    if |records| > 0 {
      RemoveFirstKeyByKey(records[1..], r, r2);
    }
  }

  /**
   Replacing with either of two records of one key finds the same member and
   removes it; only the appended record differs.
   */
  lemma {:induction false} ReplaceDependsOnlyOnKey(records: seq<Record>, r: Record, r2: Record)
    requires SameKey(r, r2)
    ensures var x := ReplaceDuplicateRecords(records, Some(r)).value;
      var y := ReplaceDuplicateRecords(records, Some(r2)).value;
      && x.1 == y.1
      && (x.1 ==> y.0 == x.0[..|records| - 1] + [r2])
      && (!x.1 ==> y.0 == x.0)
  {
    if ContainsKey(records, r) {
      var i :| 0 <= i < |records| && SameKey(records[i], r);
      assert SameKey(records[i], r2);
    }
    if ContainsKey(records, r2) {
      var i :| 0 <= i < |records| && SameKey(records[i], r2);
      assert SameKey(records[i], r);
    }
    RemoveFirstKeyByKey(records, r, r2);
  }

  /**
   The members other than the replaced one keep their relative order: the
   result is the list with its first same-key member cut out and `r` appended.
   */
  lemma {:induction false} ReplaceKeepsOthersInOrder(records: seq<Record>, r: Record, i: nat)
    requires i < |records| && SameKey(records[i], r)
    requires forall j :: 0 <= j < i ==> !SameKey(records[j], r)
    ensures ReplaceDuplicateRecords(records, Some(r)) == Ok((records[..i] + records[i + 1..] + [r], true))
  {
    RemoveFirstKeyAt(records, r, i);
  }

  lemma {:induction false} RemoveFirstKeyAt(records: seq<Record>, r: Record, i: nat)
    requires i < |records| && SameKey(records[i], r)
    requires forall j :: 0 <= j < i ==> !SameKey(records[j], r)
    ensures RemoveFirstKey(records, r) == records[..i] + records[i + 1..]
  {
    if i > 0 {
      RemoveFirstKeyAt(records[1..], r, i - 1);
      assert records[1..][..i - 1] == records[1..i];
      assert records[..i] == [records[0]] + records[1..i];
      assert records[1..][i..] == records[i + 1..];
    }
  }

  /** Replacing, or appending when nothing was replaced: one step of `AddAll`. */
  function Upsert(records: seq<Record>, r: Record): (result: seq<Record>)
    ensures result == RemoveFirstKey(records, r) + [r]
  {
    var replaced := ReplaceDuplicateRecords(records, Some(r)).value;
    if !replaced.1 then Add(records, r) else replaced.0
  }

  /**
   `AddAll(incoming)`: each incoming record, in order, replaces the member with
   its key or is appended.
   */
  function AddAll(records: seq<Record>, incoming: seq<Record>): seq<Record>
    decreases |incoming|
  {
    if |incoming| == 0 then records else AddAll(Upsert(records, incoming[0]), incoming[1..])
  }

  lemma {:induction false} UpsertKeyUnique(records: seq<Record>, r: Record)
    requires KeyUnique(records)
    ensures KeyUnique(Upsert(records, r))
  {
    RemoveFirstKeyKeyUnique(records, r);
    var s := RemoveFirstKey(records, r);
    var u := s + [r];
    forall i, j | 0 <= i < j < |u|
      ensures !SameKey(u[i], u[j])
    {
      if j == |s| {
        assert !SameKey(s[i], r);
      } else {
        assert u[i] == s[i] && u[j] == s[j];
      }
    }
  }

  lemma {:induction false} ContainsKeyAppend(records: seq<Record>, r: Record, k: Record)
    ensures ContainsKey(records + [r], k) <==> ContainsKey(records, k) || SameKey(r, k)
  {
    var u := records + [r];
    if ContainsKey(u, k) {
      var i :| 0 <= i < |u| && SameKey(u[i], k);
      if i < |records| {
        assert SameKey(records[i], k);
      }
    }
    if ContainsKey(records, k) {
      var i :| 0 <= i < |records| && SameKey(records[i], k);
      assert u[i] == records[i];
    }
    assert u[|records|] == r;
  }

  lemma {:induction false} UpsertContainsKey(records: seq<Record>, r: Record, k: Record)
    ensures ContainsKey(Upsert(records, r), k) <==> ContainsKey(records, k) || SameKey(r, k)
  {
    RemoveFirstKeyKeys(records, r, k);
    ContainsKeyAppend(RemoveFirstKey(records, r), r, k);
  }

  /** `AddAll` keeps a key-unique collection key-unique. */
  lemma {:induction false} AddAllKeyUnique(records: seq<Record>, incoming: seq<Record>)
    requires KeyUnique(records)
    ensures KeyUnique(AddAll(records, incoming))
    decreases |incoming|
  {
    if |incoming| > 0 {
      UpsertKeyUnique(records, incoming[0]);
      AddAllKeyUnique(Upsert(records, incoming[0]), incoming[1..]);
    }
  }

  /** After `AddAll`, exactly the old keys and the incoming keys are present. */
  lemma {:induction false} AddAllKeys(records: seq<Record>, incoming: seq<Record>, k: Record)
    ensures ContainsKey(AddAll(records, incoming), k) <==> ContainsKey(records, k) || ContainsKey(incoming, k)
    decreases |incoming|
  {
    if |incoming| > 0 {
      AddAllKeys(Upsert(records, incoming[0]), incoming[1..], k);
      UpsertContainsKey(records, incoming[0], k);
      ContainsKeyCons(incoming, k);
    }
  }

  /** A member whose key no incoming record has survives `AddAll` unchanged. */
  lemma {:induction false} AddAllKeepsUntouched(records: seq<Record>, incoming: seq<Record>, x: Record)
    requires x in records && !ContainsKey(incoming, x)
    ensures x in AddAll(records, incoming)
    decreases |incoming|
  {
    if |incoming| > 0 {
      ContainsKeyCons(incoming, x);
      RemoveFirstKeyMembers(records, incoming[0], x);
      AddAllKeepsUntouched(Upsert(records, incoming[0]), incoming[1..], x);
    }
  }

  /** Incoming record `j` is the last incoming record with its key. */
  predicate LastOfKey(incoming: seq<Record>, j: nat)
    requires j < |incoming|
  {
    forall m :: j < m < |incoming| ==> !SameKey(incoming[m], incoming[j])
  }

  /** For every incoming key, the last incoming record with that key ends up in the collection. */
  lemma {:induction false} AddAllLastWins(records: seq<Record>, incoming: seq<Record>, j: nat)
    requires j < |incoming| && LastOfKey(incoming, j)
    ensures incoming[j] in AddAll(records, incoming)
    decreases |incoming|
  {
    var next := Upsert(records, incoming[0]);
    var rest := incoming[1..];
    if j == 0 {
      assert next[|next| - 1] == incoming[0];
      assert !ContainsKey(rest, incoming[0]) by {
        forall i | 0 <= i < |rest|
          ensures !SameKey(rest[i], incoming[0])
        {
          assert rest[i] == incoming[i + 1];
        }
      }
      AddAllKeepsUntouched(next, rest, incoming[0]);
    } else {
      assert rest[j - 1] == incoming[j];
      assert LastOfKey(rest, j - 1) by {
        forall m | j - 1 < m < |rest|
          ensures !SameKey(rest[m], rest[j - 1])
        {
          assert rest[m] == incoming[m + 1];
        }
      }
      AddAllLastWins(next, rest, j - 1);
    }
  }

  /** Every member after `AddAll` was a member before or is an incoming record. */
  lemma {:induction false} AddAllMembers(records: seq<Record>, incoming: seq<Record>, x: Record)
    requires x in AddAll(records, incoming)
    ensures x in records || x in incoming
    decreases |incoming|
  {
    if |incoming| > 0 {
      AddAllMembers(Upsert(records, incoming[0]), incoming[1..], x);
      RemoveFirstKeyMembers(records, incoming[0], x);
      if x in incoming[1..] {
        var i :| 0 <= i < |incoming[1..]| && incoming[1..][i] == x;
        assert incoming[i + 1] == x;
      }
    }
  }

  /** The key of a record, the pair `Equals` compares. */
  function Key(r: Record): (Date, string) {
    (r.date, r.state)
  }

  function Keys(records: seq<Record>): set<(Date, string)> {
    if |records| == 0 then {} else {Key(records[0])} + Keys(records[1..])
  }

  lemma {:induction false} KeysContain(records: seq<Record>, k: Record)
    ensures ContainsKey(records, k) <==> Key(k) in Keys(records)
  {
    if |records| > 0 {
      ContainsKeyCons(records, k);
      KeysContain(records[1..], k);
    }
  }

  lemma {:induction false} KeyUniqueCount(records: seq<Record>)
    requires KeyUnique(records)
    ensures |Keys(records)| == |records|
  {
    if |records| > 0 {
      KeyUniqueCons(records);
      KeyUniqueCount(records[1..]);
      KeysContain(records[1..], records[0]);
    }
  }

  /**
   The size after `AddAll` on a key-unique collection: one member per key of
   either side, so the count grows only by the incoming keys not yet present,
   not by the number of incoming records.
   */
  lemma {:induction false} AddAllCount(records: seq<Record>, incoming: seq<Record>)
    requires KeyUnique(records)
    ensures |AddAll(records, incoming)| == |Keys(records) + Keys(incoming)|
  {
    var result := AddAll(records, incoming);
    AddAllKeyUnique(records, incoming);
    KeyUniqueCount(result);
    assert Keys(result) == Keys(records) + Keys(incoming) by {
      forall k: (Date, string)
        ensures k in Keys(result) <==> k in Keys(records) + Keys(incoming)
      {
        var probe := Record(k.0, k.1, 0, 0, 0, 0, 0);
        KeysContain(records, probe);
        KeysContain(incoming, probe);
        KeysContain(result, probe);
        AddAllKeys(records, incoming, probe);
      }
    }
  }

  /** `String.Equals(a, b, InvariantCultureIgnoreCase)`, for ASCII letters. */
  predicate EqualsIgnoreCase(a: string, b: string) {
    Upper(a) == Upper(b)
  }

  function StatesOf(records: seq<Record>): seq<string>
    ensures |StatesOf(records)| == |records|
  {
    seq(|records|, i requires 0 <= i < |records| => records[i].state)
  }

  function MatchingState(records: seq<Record>, filter: string): (result: seq<Record>)
    ensures forall x :: x in result <==> x in records && EqualsIgnoreCase(x.state, filter)
    ensures |result| <= |records|
  {
    if |records| == 0 then []
    else (if EqualsIgnoreCase(records[0].state, filter) then [records[0]] else []) + MatchingState(records[1..], filter)
  }

  /** Filtering distributes over concatenation: the selected members keep their order. */
  lemma {:induction false} MatchingStateAppend(a: seq<Record>, b: seq<Record>, filter: string)
    ensures MatchingState(a + b, filter) == MatchingState(a, filter) + MatchingState(b, filter)
    decreases |a|
  {
    if |a| == 0 {
      assert a + b == b;
    } else {
      var head := if EqualsIgnoreCase(a[0].state, filter) then [a[0]] else [];
      var x, y := MatchingState(a[1..], filter), MatchingState(b, filter);
      assert (a + b)[1..] == a[1..] + b;
      assert MatchingState(a + b, filter) == head + MatchingState(a[1..] + b, filter);
      MatchingStateAppend(a[1..], b, filter);
      assert head + (x + y) == (head + x) + y;
    }
  }

  /** A single member is selected exactly when its state matches. */
  lemma {:induction false} MatchingStateSingle(x: Record, filter: string)
    ensures MatchingState([x], filter) == if EqualsIgnoreCase(x.state, filter) then [x] else []
  {
    assert [x][1..] == [];
  }

  /**
   `CreateAFilteredCollection(filter)`: a `null` filter raises
   ArgumentNullException. A filter that is not a valid state label, or whose
   upper-case form is no member's state, selects every member (the filter
   fails open); otherwise the members whose state equals the filter ignoring
   case are selected, in order.
   */
  function CreateAFilteredCollection(records: seq<Record>, filter: Option<string>): (result: Result<seq<Record>>)
    ensures filter.None? <==> result.Err?
    ensures result.Err? ==> result.failure == InvalidArgument
    ensures result.Ok? && (!IsStateLabelValid(filter) || Upper(filter.value) !in StatesOf(records)) ==>
      result.value == records
    ensures result.Ok? && IsStateLabelValid(filter) && Upper(filter.value) in StatesOf(records) ==>
      && |result.value| >= 1
      && forall x :: x in result.value <==> x in records && EqualsIgnoreCase(x.state, filter.value)
    ensures result.Ok? && IsStateLabelValid(filter) && Upper(filter.value) in StatesOf(records) ==>
      result.value == MatchingState(records, filter.value)
  {
    if filter.None? then Err(InvalidArgument)
    else
      var isStateNotPresent := Upper(filter.value) !in StatesOf(records);
      var isStateNotValid := !IsStateLabelValid(filter) || isStateNotPresent;
      if isStateNotValid then Ok(records)
      else
        var i :| 0 <= i < |records| && records[i].state == Upper(filter.value);
        UpperIdempotent(filter.value);
        assert records[i].state == Upper(records[i].state) by {
          UpperIdempotent(filter.value);
        }
        assert records[i] in MatchingState(records, filter.value);
        Ok(MatchingState(records, filter.value))
  }

  /** Filtering an already filtered list by the same filter changes nothing. */
  lemma {:induction false} FilterIdempotent(records: seq<Record>, filter: string)
    requires CreateAFilteredCollection(records, Some(filter)).Ok?
    ensures var once := CreateAFilteredCollection(records, Some(filter)).value;
      CreateAFilteredCollection(once, Some(filter)) == Ok(once)
  {
    var once := CreateAFilteredCollection(records, Some(filter)).value;
    if IsStateLabelValid(Some(filter)) && Upper(filter) in StatesOf(records) {
      MatchingStateIdempotent(records, filter);
      var twice := CreateAFilteredCollection(once, Some(filter));
      if Upper(filter) !in StatesOf(once) {
        assert twice == Ok(once);
      }
    }
  }

  lemma {:induction false} MatchingStateIdempotent(records: seq<Record>, filter: string)
    ensures MatchingState(MatchingState(records, filter), filter) == MatchingState(records, filter)
  {
    if |records| > 0 {
      MatchingStateIdempotent(records[1..], filter);
      var rest := MatchingState(records[1..], filter);
      if EqualsIgnoreCase(records[0].state, filter) {
        assert ([records[0]] + rest)[0] == records[0];
        assert ([records[0]] + rest)[1..] == rest;
      } else {
        assert [] + rest == rest;
      }
    }
  }

  /** A label such as "G1" selects everything, and so does "TX" when no record is from Texas. */
  lemma {:induction false} FilterFailsOpen(records: seq<Record>)
    requires forall i :: 0 <= i < |records| ==> records[i].state != "TX"
    ensures CreateAFilteredCollection(records, Some("G1")) == Ok(records)
    ensures CreateAFilteredCollection(records, Some("TX")) == Ok(records)
  {
    StateLabelExamples();
    assert Upper("TX") == "TX";
  }

  /** `Clone`: a new list filled by adding each member in order. */
  function Clone(records: seq<Record>): (copy: seq<Record>)
    ensures copy == records
  {
    if |records| == 0 then []
    else Add(Clone(records[..|records| - 1]), records[|records| - 1])
  }

  /** A member's key is held. */
  lemma {:induction false} MemberContainsKey(records: seq<Record>, r: Record)
    requires r in records
    ensures ContainsKey(records, r)
  {
    var i :| 0 <= i < |records| && records[i] == r;
    assert SameKey(records[i], r);
  }

  /** In a key-unique collection a member is the only record with its key. */
  lemma {:induction false} KeyUniqueMemberIsOnly(records: seq<Record>, r: Record)
    requires KeyUnique(records) && r in records
    ensures forall i :: 0 <= i < |records| && SameKey(records[i], r) ==> records[i] == r
  {
    var p :| 0 <= p < |records| && records[p] == r;
    forall i | 0 <= i < |records| && SameKey(records[i], r)
      ensures records[i] == r
    {
      assert SameKey(records[i], records[p]);
    }
  }

  /** `Contains(r)` asks for the key of `r`, not for the record's figures. */
  lemma {:induction false} ContainsIsByKey(records: seq<Record>, r: Record, other: Record)
    requires SameKey(r, other)
    ensures ContainsKey(records, r) <==> ContainsKey(records, other)
  {
    if ContainsKey(records, r) {
      var i :| 0 <= i < |records| && SameKey(records[i], r);
      assert SameKey(records[i], other);
    }
    if ContainsKey(records, other) {
      var i :| 0 <= i < |records| && SameKey(records[i], other);
      assert SameKey(records[i], r);
    }
  }
}

=== FILE: errorlog.dfy ===
/**
 `CovidDataErrorLogger`: an append-only text with one line per rejected CSV
 row. A fresh logger holds "".
 */
module ErrorLogs {
  import opened Outcomes
  import opened Text

  /** The entry for one rejected row: "Error on Line {n}: {line}" and a line break. */
  function ErrorEntry(lineNumber: int, line: string, nl: string): string {
    "Error on Line " + IntText(lineNumber) + ": " + line + nl
  }

  /**
   `AddErrorLineToErrorLogger(n, line)`: a `null` line raises
   ArgumentNullException and leaves the text as it was; otherwise the entry is
   appended.
   */
  function AddErrorLine(log: string, lineNumber: int, line: Option<string>, nl: string): (r: Result<string>)
    ensures r.Err? <==> line.None?
    ensures r.Err? ==> r.failure == InvalidArgument
    ensures r.Ok? ==> |log| <= |r.value| && r.value[..|log|] == log
    ensures r.Ok? ==> r.value[|log|..] == ErrorEntry(lineNumber, line.value, nl)
  {
    if line.None? then Err(InvalidArgument)
    else Ok(log + ErrorEntry(lineNumber, line.value, nl))
  }

  /** The text after a series of entries, in call order. */
  function Entries(entries: seq<(int, string)>, nl: string): string {
    if |entries| == 0 then ""
    else Entries(entries[..|entries| - 1], nl) + ErrorEntry(entries[|entries| - 1].0, entries[|entries| - 1].1, nl)
  }

  /** Adding entries one by one to a fresh logger yields them in call order. */
  function AddAllErrorLines(log: string, entries: seq<(int, string)>, nl: string): (r: string)
    ensures |log| <= |r| && r[..|log|] == log
    decreases |entries|
  {
    if |entries| == 0 then log
    else AddAllErrorLines(AddErrorLine(log, entries[0].0, Some(entries[0].1), nl).value, entries[1..], nl)
  }

  lemma {:induction false} AddAllErrorLinesInOrder(log: string, entries: seq<(int, string)>, nl: string)
    ensures AddAllErrorLines(log, entries, nl) == log + Entries(entries, nl)
    decreases |entries|
  {
    if |entries| > 0 {
      var next := log + ErrorEntry(entries[0].0, entries[0].1, nl);
      AddAllErrorLinesInOrder(next, entries[1..], nl);
      EntriesCons(entries, nl);
    }
  }

  lemma {:induction false} EntriesSnoc(entries: seq<(int, string)>, e: (int, string), nl: string)
    ensures Entries(entries + [e], nl) == Entries(entries, nl) + ErrorEntry(e.0, e.1, nl)
  {
    assert (entries + [e])[..|entries|] == entries;
  }

  lemma {:induction false} EntriesCons(entries: seq<(int, string)>, nl: string)
    requires |entries| > 0
    ensures Entries(entries, nl) == ErrorEntry(entries[0].0, entries[0].1, nl) + Entries(entries[1..], nl)
    decreases |entries|
  {
    if |entries| > 1 {
      var front := entries[..|entries| - 1];
      EntriesCons(front, nl);
      assert front[1..] == entries[1..][..|entries[1..]| - 1];
      assert front[0] == entries[0];
    } else {
      assert entries[1..] == [];
      assert entries[..0] == [];
    }
  }
}

=== FILE: format.dfy ===
/**
 The formatters of `Format`: parsing of the numeric CSV fields, the
 "yyyyMMdd" date reader, days of the month with English ordinals, the prose
 list of such days, month headings, and integers with thousands separators.
 The two floating-point formatters ("N" and "P") are host parameters, see
 `Host.Env`.
 */
module Format {
  import opened Outcomes
  import opened Text
  import opened Calendar
  import opened FormatValidator

  /**
   `FormatAsDateTime(s)`: `DateTime.ParseExact` with "yyyyMMdd". A `null`
   argument raises ArgumentNullException, any other misfit FormatException.
   */
  function FormatAsDateTime(s: Option<string>): (r: Result<Date>)
    ensures s.None? ==> r == Err(InvalidArgument)
    ensures r.Ok? <==> IsDateStringValid(s)
    ensures s.Some? && r.Err? ==> r.failure == ParseAbort
    ensures r.Ok? ==> Compact(r.value) == s.value
  {
    if s.None? then Err(InvalidArgument)
    else
      match ParseCompact(s.value)
      case Some(d) =>
        ParseCompactInverse(s.value);
        Ok(d)
      case None => Err(ParseAbort)
  }

  /**
   `FormatStringToInteger(s)`: a field that fails `IsNumericStringValid` raises
   ArgumentException; `null` and "" count as zero; anything else goes through
   `int.Parse`, whose failures escape, and negative values are clamped to zero.
   */
  function FormatStringToInteger(s: Option<string>): (r: Result<nat>)
    ensures r == Err(InvalidArgument) <==> !IsNumericStringValid(s)
    ensures s == None || s == Some("") ==> r == Ok(0)
    ensures r.Err? ==> r.failure == InvalidArgument || r.failure == ParseAbort
    ensures s.Some? && s.value != "" && IsNumericStringValid(s) ==>
      (r.Ok? <==> ParseInt32(s.value).Ok?)
    ensures r.Ok? && s.Some? && s.value != "" ==>
      r.value == if ParseInt32(s.value).value < 0 then 0 else ParseInt32(s.value).value
    ensures r.Ok? ==> r.value <= MaxInt32
  {
    if !IsNumericStringValid(s) then Err(InvalidArgument)
    else if s.None? || s.value == "" then Ok(0)
    else
      var number :- ParseInt32(s.value);
      Ok(if number < 0 then 0 else number)
  }

  /** Every count the engine writes as a plain decimal reads back as itself. */
  lemma {:induction false} FormatStringToIntegerRoundTrip(n: nat)
    requires n <= MaxInt32
    ensures FormatStringToInteger(Some(Decimal(n))) == Ok(n)
  {
    ParseDecimal(n);
    NumericValidIffHasDigit(Decimal(n));
    assert IsDigit(Decimal(n)[0]);
  }

  /** A negative count is clamped to zero rather than rejected. */
  lemma {:induction false} FormatStringToIntegerClamps(n: nat)
    requires 1 <= n <= -MinInt32
    ensures FormatStringToInteger(Some("-" + Decimal(n))) == Ok(0)
  {
    ParseNegativeDecimal(n);
    NumericValidIffHasDigit("-" + Decimal(n));
    assert IsDigit(("-" + Decimal(n))[1]);
  }

  /**
   The unanchored pattern lets text with a digit in it through to `int.Parse`,
   which then raises FormatException; text without a digit is rejected up front.
   */
  lemma {:induction false} FormatStringToIntegerRejects()
    ensures FormatStringToInteger(Some("12abc")) == Err(ParseAbort)
    ensures FormatStringToInteger(Some("abc")) == Err(InvalidArgument)
    ensures FormatStringToInteger(Some("-")) == Err(InvalidArgument)
  {
    PartialNumberAborts();
    LettersRejected();
    SignAloneRejected();
  }

  lemma {:induction false} LettersRejected()
    ensures FormatStringToInteger(Some("abc")) == Err(InvalidArgument)
  {
    DigitFreeRejected("abc");
  }

  lemma {:induction false} SignAloneRejected()
    ensures FormatStringToInteger(Some("-")) == Err(InvalidArgument)
  {
    DigitFreeRejected("-");
  }

  lemma {:induction false} DigitFreeRejected(s: string)
    requires s != "" && forall i :: 0 <= i < |s| ==> !IsDigit(s[i])
    ensures FormatStringToInteger(Some(s)) == Err(InvalidArgument)
  {
    NoDigitRejected(s);
    InvalidRejected(s);
  }

  lemma {:induction false} PartialNumberAborts()
    ensures FormatStringToInteger(Some("12abc")) == Err(ParseAbort)
  {
    NumericValidIffHasDigit("12abc");
    assert IsDigit("12abc"[0]);
    ParseRejectsLetters();
    ParseFailureAborts("12abc");
  }

  lemma {:induction false} ParseFailureAborts(s: string)
    requires s != "" && IsNumericStringValid(Some(s)) && ParseInt32(s).Err?
    ensures FormatStringToInteger(Some(s)) == Err(ParseAbort)
  {
  }

  lemma {:induction false} InvalidRejected(s: string)
    requires !IsNumericStringValid(Some(s))
    ensures FormatStringToInteger(Some(s)) == Err(InvalidArgument)
  {
  }

  lemma {:induction false} NoDigitRejected(s: string)
    requires s != "" && forall i :: 0 <= i < |s| ==> !IsDigit(s[i])
    ensures !IsNumericStringValid(Some(s))
  {
    NumericValidIffHasDigit(s);
  }

  lemma {:induction false} ParseRejectsLetters()
    ensures ParseInt32("12abc").Err?
  {
    var s := "12abc";
    assert TrimStart(s) == s;
    assert TrimEnd(s) == s;
    assert !IsDigit(s[2]);
  }

  /** C#'s `%` on `int`, which truncates toward zero. */
  function TruncatedRemainder(a: int, b: int): (r: int)
    requires b > 0
    ensures -b < r < b
    ensures a >= 0 ==> r == a % b
  {
    if a >= 0 then a % b else -((-a) % b)
  }

  /**
   The suffix `determineOrdinalIndicator` picks for an already parsed number:
   "st", "nd", "rd" by the last digit, "th" otherwise and for 11 to 13 modulo 100.
   */
  function OrdinalIndicator(n: int): (r: string)
    ensures r == "st" || r == "nd" || r == "rd" || r == "th"
  {
    var byLastDigit :=
      match TruncatedRemainder(n, 10)
      case 1 => "st"
      case 2 => "nd"
      case 3 => "rd"
      case _ => "th";
    var lastTwo := TruncatedRemainder(n, 100);
    if 11 <= lastTwo <= 13 then "th" else byLastDigit
  }

  /** The English rule for ordinals of positive numbers, stated case by case. */
  lemma {:induction false} OrdinalIndicatorRule(n: nat)
    ensures OrdinalIndicator(n) == "st" <==> n % 10 == 1 && n % 100 != 11
    ensures OrdinalIndicator(n) == "nd" <==> n % 10 == 2 && n % 100 != 12
    ensures OrdinalIndicator(n) == "rd" <==> n % 10 == 3 && n % 100 != 13
    ensures OrdinalIndicator(n) == "th" <==> n % 10 !in {1, 2, 3} || 11 <= n % 100 <= 13
  {
    assert (n % 100) % 10 == n % 10;
  }

  lemma {:induction false} OrdinalIndicatorExamples()
    ensures OrdinalIndicator(1) == "st" && OrdinalIndicator(2) == "nd" && OrdinalIndicator(3) == "rd"
    ensures OrdinalIndicator(4) == "th" && OrdinalIndicator(11) == "th" && OrdinalIndicator(12) == "th"
    ensures OrdinalIndicator(13) == "th" && OrdinalIndicator(21) == "st" && OrdinalIndicator(22) == "nd"
    ensures OrdinalIndicator(23) == "rd" && OrdinalIndicator(31) == "st" && OrdinalIndicator(111) == "th"
  {
  }

  /** `determineOrdinalIndicator(text)`: `int.Parse` first, whose failure escapes. */
  function DetermineOrdinalIndicator(text: string): (r: Result<string>)
    ensures r.Ok? <==> ParseInt32(text).Ok?
    ensures r.Ok? ==> r.value == OrdinalIndicator(ParseInt32(text).value)
  {
    var n :- ParseInt32(text);
    Ok(OrdinalIndicator(n))
  }

  /**
   `GetDayOfMonthWithOrdinalIndicator(date)`: the day rendered as text, then
   parsed back to choose its suffix; the parse cannot fail.
   */
  function DayWithOrdinal(d: Date): (r: string)
    ensures r == Decimal(d.day) + OrdinalIndicator(d.day)
  {
    var dayOfMonth := Decimal(d.day);
    ParseDecimal(d.day);
    dayOfMonth + DetermineOrdinalIndicator(dayOfMonth).value
  }

  /**
   One step of `determineDayListOutput`: a day is followed by nothing when it
   equals the last entry of the whole list (or the list has one entry), by
   ", and " when it equals the entry before last, and by "," otherwise.
   The tests compare strings, not positions.
   */
  function DayListStep(acc: string, day: string, days: seq<string>): string {
    if |days| <= 1 || day == days[|days| - 1] then acc + day
    else if day == days[|days| - 2] then acc + day + ", and "
    else acc + day + ","
  }

  /** `days.Aggregate(string.Empty, ...)` over the first `n` entries. */
  function AggregateDays(days: seq<string>, n: nat): string
    requires n <= |days|
  {
    if n == 0 then "" else DayListStep(AggregateDays(days, n - 1), days[n - 1], days)
  }

  function DaysWithOrdinals(dates: seq<Date>): (days: seq<string>)
    ensures |days| == |dates|
    ensures forall i :: 0 <= i < |dates| ==> days[i] == DayWithOrdinal(dates[i])
  {
    seq(|dates|, i requires 0 <= i < |dates| => DayWithOrdinal(dates[i]))
  }

  /** `GetListOfDaysWithOrdinals(dates)`. */
  function ListOfDaysWithOrdinals(dates: seq<Date>): string {
    var days := DaysWithOrdinals(dates);
    AggregateDays(days, |days|)
  }

  /**
   The list the code aims at: entries separated by ",", with ", and " before
   the last one ("1st", "1st, and 2nd", "1st,2nd, and 3rd").
   */
  function Series(days: seq<string>): string {
    if |days| == 0 then ""
    else if |days| == 1 then days[0]
    else Join(days[..|days| - 1], ',') + ", and " + days[|days| - 1]
  }

  predicate Distinct(days: seq<string>) {
    forall i, j :: 0 <= i < j < |days| ==> days[i] != days[j]
  }

  /** Each entry followed by ",". */
  function Terminated(days: seq<string>): string {
    if |days| == 0 then "" else days[0] + "," + Terminated(days[1..])
  }

  lemma {:induction false} TerminatedSnoc(days: seq<string>, d: string)
    ensures Terminated(days + [d]) == Terminated(days) + d + ","
  {
    if |days| > 0 {
      assert (days + [d])[1..] == days[1..] + [d];
      TerminatedSnoc(days[1..], d);
    } else {
      assert (days + [d])[1..] == [];
    }
  }

  lemma {:induction false} JoinSnoc(days: seq<string>, d: string)
    ensures Join(days + [d], ',') == Terminated(days) + d
  {
    if |days| > 0 {
      assert (days + [d])[1..] == days[1..] + [d];
      JoinSnoc(days[1..], d);
    }
  }

  lemma {:induction false} AggregateDaysPrefix(days: seq<string>, k: nat)
    requires Distinct(days)
    requires 2 <= |days| && k <= |days| - 2
    ensures AggregateDays(days, k) == Terminated(days[..k])
  {
    if k > 0 {
      AggregateDaysPrefix(days, k - 1);
      assert days[..k] == days[..k - 1] + [days[k - 1]];
      TerminatedSnoc(days[..k - 1], days[k - 1]);
    }
  }

  /** For distinct entries, the aggregation yields exactly the intended list. */
  lemma {:induction false} DayListOfDistinctDays(days: seq<string>)
    requires Distinct(days)
    ensures AggregateDays(days, |days|) == Series(days)
  {
    var n := |days|;
    if n >= 2 {
      AggregateDaysPrefix(days, n - 2);
      assert days[..n - 1] == days[..n - 2] + [days[n - 2]];
      JoinSnoc(days[..n - 2], days[n - 2]);
    }
  }

  /**
   When a day repeats (two records of the same date in one month), the test by
   string equality misplaces the separators: the first "1st" is treated as the
   last entry.
   */
  lemma {:induction false} DayListOfRepeatedDay()
    ensures AggregateDays(["1st", "2nd", "1st"], 3) == "1st2nd, and 1st"
    ensures Series(["1st", "2nd", "1st"]) == "1st,2nd, and 1st"
  {
    var days := ["1st", "2nd", "1st"];
    assert days[..2] == ["1st", "2nd"];
    assert days[..2][1..] == ["2nd"];
    assert Join(["1st", "2nd"], ',') == "1st,2nd";
  }

  /** `GetMonthAndYearFromDateTime(date)`: "March 2020". */
  function MonthAndYear(d: Date): (r: string)
    ensures r == MonthName(d.month) + " " + Decimal(d.year)
  {
    MonthName(d.month) + " " + Decimal(d.year)
  }

  lemma {:induction false} MonthNamesDistinct(m1: int, m2: int)
    requires 1 <= m1 <= 12 && 1 <= m2 <= 12
    ensures MonthName(m1) == MonthName(m2) ==> m1 == m2
    ensures ' ' !in MonthName(m1)
  {
  }

  /** A leading word without spaces is told apart from the rest by the first space. */
  lemma {:induction false} FirstWordUnique(a: string, x: string, b: string, y: string)
    requires ' ' !in a && ' ' !in b
    requires a + " " + x == b + " " + y
    ensures a == b && x == y
  {
    var s := a + " " + x;
    assert |a| == |b| by {
      assert s[|a|] == ' ' && s[|b|] == ' ';
    }
    assert a == s[..|a|] == b;
    assert x == s[|a| + 1..] == y;
  }

  /** Different months of the calendar get different headings. */
  lemma {:induction false} MonthAndYearInjective(a: Date, b: Date)
    requires MonthAndYear(a) == MonthAndYear(b)
    ensures a.year == b.year && a.month == b.month
  {
    MonthNamesDistinct(a.month, b.month);
    MonthNamesDistinct(b.month, a.month);
    var na, nb := MonthName(a.month), MonthName(b.month);
    var ya, yb := Decimal(a.year), Decimal(b.year);
    FirstWordUnique(na, ya, nb, yb);
    DecimalValue(a.year);
    DecimalValue(b.year);
  }

  /** The digits of a non-negative value grouped in threes from the right, as "##,##0" does. */
  function GroupThousands(digits: string): string
    decreases |digits|
  {
    if |digits| <= 3 then digits
    else GroupThousands(digits[..|digits| - 3]) + "," + digits[|digits| - 3..]
  }

  /** `FormatIntegerAsFormattedString(n)`: "##,##0", a minus sign before negative values. */
  function FormatIntegerAsFormattedString(n: int): string {
    if n < 0 then "-" + GroupThousands(Decimal(-n)) else GroupThousands(Decimal(n))
  }

  lemma {:induction false} NoSeparatorInDigits(digits: string)
    requires AllDigits(digits)
    ensures ',' !in digits
  {
    assert forall i :: 0 <= i < |digits| ==> IsDigit(digits[i]);
  }

  lemma {:induction false} RemoveAfterSeparator(a: string, b: string, c: char)
    requires c !in b
    ensures Remove(a + [c] + b, c) == Remove(a, c) + b
  {
    var ac := a + [c];
    RemoveAppend(ac, b, c);
    RemoveAppend(a, [c], c);
    RemoveSingle(c);
    RemoveAbsent(b, c);
    assert Remove(a, c) + "" == Remove(a, c);
  }

  /** The grouping only inserts separators. */
  lemma {:induction false} GroupThousandsDigits(digits: string)
    requires AllDigits(digits)
    ensures Remove(GroupThousands(digits), ',') == digits
    decreases |digits|
  {
    NoSeparatorInDigits(digits);
    if |digits| <= 3 {
      RemoveAbsent(digits, ',');
    } else {
      var front, last := digits[..|digits| - 3], digits[|digits| - 3..];
      assert AllDigits(front) && AllDigits(last) by {
        assert forall i :: 0 <= i < |front| ==> front[i] == digits[i];
        assert forall i :: 0 <= i < |last| ==> last[i] == digits[|digits| - 3 + i];
      }
      GroupThousandsDigits(front);
      NoSeparatorInDigits(last);
      RemoveAfterSeparator(GroupThousands(front), last, ',');
      assert digits == front + last;
    }
  }

  /** The first group holds one to three digits, every later group exactly three. */
  lemma {:induction false} GroupThousandsGroups(digits: string)
    requires 1 <= |digits| && AllDigits(digits)
    ensures var groups := Split(GroupThousands(digits), ',');
      && 1 <= |groups[0]| <= 3
      && (forall k :: 1 <= k < |groups| ==> |groups[k]| == 3)
    decreases |digits|
  {
    if |digits| <= 3 {
      NoSeparatorInDigits(digits);
      SplitWithout(digits, ',');
    } else {
      var front, last := digits[..|digits| - 3], digits[|digits| - 3..];
      GroupThousandsGroups(front);
      NoSeparatorInDigits(last);
      SplitSnoc(GroupThousands(front), last, ',');
    }
  }

  /** Removing the separators gives back `n.ToString()`. */
  lemma {:induction false} FormattedIntegerDigits(n: int)
    ensures Remove(FormatIntegerAsFormattedString(n), ',') == IntText(n)
  {
    if n < 0 {
      GroupThousandsDigits(Decimal(-n));
      RemoveAppend("-", GroupThousands(Decimal(-n)), ',');
      assert Remove("-", ',') == "-";
    } else {
      GroupThousandsDigits(Decimal(n));
    }
  }

  lemma {:induction false} FormattedIntegerExamples()
    ensures FormatIntegerAsFormattedString(0) == "0"
    ensures FormatIntegerAsFormattedString(999) == "999"
    ensures FormatIntegerAsFormattedString(-1000) == "-1,000"
  {
    assert Decimal(1000) == "1000" by {
      assert Decimal(100) == "100" by {
        assert Decimal(10) == "10";
      }
    }
    assert Decimal(999) == "999" by {
      assert Decimal(99) == "99";
    }
    assert "1000"[..1] == "1" && "1000"[1..] == "000";
  }
}

=== FILE: histogram.dfy ===
/**
 `CovidDataHistogramGenerator`: a frequency table of integer values in bins
 of a fixed width, from 0 up to the least multiple of the width that is at
 least the greatest value.
 */
module Histograms {
  import opened Outcomes
  import opened Text
  import opened Format

  predicate Ascending(values: seq<int>) {
    forall i, j :: 0 <= i < j < |values| ==> values[i] <= values[j]
  }

  function Insert(x: int, sorted: seq<int>): (result: seq<int>)
    requires Ascending(sorted)
    ensures Ascending(result)
    ensures multiset(result) == multiset(sorted) + multiset{x}
    ensures |result| == |sorted| + 1
    ensures result[0] == x || (|sorted| > 0 && result[0] == sorted[0])
  {
    if |sorted| == 0 then [x]
    else if x <= sorted[0] then [x] + sorted
    else
      var rest := Insert(x, sorted[1..]);
      assert sorted[0] <= rest[0];
      var result := [sorted[0]] + rest;
      assert forall j :: 0 < j < |result| ==> result[j] == rest[j - 1];
      assert sorted == [sorted[0]] + sorted[1..];
      result
  }

  /** `List<int>.Sort()`: the values in ascending order, none lost or added. */
  function SortAscending(values: seq<int>): (sorted: seq<int>)
    ensures Ascending(sorted)
    ensures multiset(sorted) == multiset(values)
    ensures |sorted| == |values|
  {
    if |values| == 0 then []
    else
      assert values == [values[0]] + values[1..];
      Insert(values[0], SortAscending(values[1..]))
  }

  /** Sorting values already in order leaves them as they are. */
  lemma {:induction false} SortSorted(values: seq<int>)
    requires Ascending(values)
    ensures SortAscending(values) == values
  {
    if |values| > 0 {
      SortSorted(values[1..]);
      assert values == [values[0]] + values[1..];
    }
  }

  lemma {:induction false} InPermutation(a: seq<int>, b: seq<int>, v: int)
    requires multiset(a) == multiset(b) && v in a
    ensures v in b
  {
    assert v in multiset(a);
  }

  /** The last of an ascending arrangement of the values is the greatest value. */
  lemma {:induction false} AscendingLastGreatest(sorted: seq<int>, values: seq<int>)
    requires |sorted| > 0 && Ascending(sorted) && multiset(sorted) == multiset(values)
    ensures sorted[|sorted| - 1] in values && forall v :: v in values ==> v <= sorted[|sorted| - 1]
  {
    var last := sorted[|sorted| - 1];
    InPermutation(sorted, values, last);
    forall v | v in values
      ensures v <= last
    {
      InPermutation(values, sorted, v);
      var i :| 0 <= i < |sorted| && sorted[i] == v;
      assert i == |sorted| - 1 || sorted[i] <= last;
    }
  }

  lemma {:induction false} MulAtLeast(x: int, b: nat)
    ensures x >= 1 ==> x * b >= b
  {
  }

  lemma {:induction false} PositiveFactor(x: int, b: nat)
    ensures x * b > 0 ==> x > 0
  {
  }

  /** Euclidean division is unique. */
  lemma {:induction false} DivisionUnique(a: int, b: nat, q: int, r: int)
    requires b > 0 && 0 <= r < b && a == q * b + r
    ensures a % b == r && a / b == q
  {
    var q', r' := a / b, a % b;
    assert a == q' * b + r';
    assert (q - q') * b == r' - r;
    assert (q' - q) * b == r - r';
    MulAtLeast(q - q', b);
    MulAtLeast(q' - q, b);
  }

  lemma {:induction false} RemainderStep(v: int, w: nat)
    requires w > 0
    ensures (v + 1) % w == if v % w == w - 1 then 0 else v % w + 1
  {
    var q, r := v / w, v % w;
    assert v == q * w + r;
    if r == w - 1 {
      DivisionUnique(v + 1, w, q + 1, 0);
    } else {
      DivisionUnique(v + 1, w, q, r + 1);
    }
  }

  /**
   The loop `while (v % w != 0) v++`. C#'s `%` truncates where Dafny's does
   not, but the two agree on whether the remainder is zero.
   */
  function RoundUp(v: int, w: nat): (top: int)
    requires w > 0
    ensures top % w == 0
    ensures top - v == if v % w == 0 then 0 else w - v % w
    decreases if v % w == 0 then 0 else w - v % w
  {
    if v % w == 0 then v
    else
      RemainderStep(v, w);
      RoundUp(v + 1, w)
  }

  /** The result is the least multiple of `w` that is at least `v`. */
  lemma {:induction false} RoundUpIsLeast(v: int, w: nat, m: int)
    requires w > 0 && m % w == 0 && v <= m
    ensures v <= RoundUp(v, w) <= m
  {
    if v % w != 0 {
      var a, q := m / w, v / w;
      assert m == a * w && v == q * w + v % w;
      assert (a - q) * w == m - q * w;
      PositiveFactor(a - q, w);
      MulAtLeast(a - q, w);
    }
  }

  /** An inclusive range of values: one bin. */
  datatype Range = Range(min: int, max: int)

  /**
   The loop of `getCollectionOfRanges` after its first range: step down one
   bin width at a time, with the bin just above `w` widened to start at 0.
   */
  function CollectRanges(minRange: int, maxRange: int, w: nat, ranges: seq<Range>): seq<Range>
    requires w > 0
    decreases if maxRange > 0 then maxRange else 0
  {
    if minRange > 0 && maxRange > w then
      var nextMin := if minRange == w + 1 then 0 else minRange - w;
      var nextMax := maxRange - w;
      CollectRanges(nextMin, nextMax, w, ranges + [Range(nextMin, nextMax)])
    else ranges
  }

  function Reverse(ranges: seq<Range>): (reversed: seq<Range>)
    ensures |reversed| == |ranges|
    ensures forall i :: 0 <= i < |ranges| ==> reversed[i] == ranges[|ranges| - 1 - i]
  {
    if |ranges| == 0 then [] else Reverse(ranges[1..]) + [ranges[0]]
  }

  /**
   `getCollectionOfRanges`: the ranges collected from the top bin down, then
   sorted by their lower edge. The ranges are collected in strictly
   descending order of lower edge (`CollectedDescending`), so sorting them is
   reversing them.
   */
  function GetCollectionOfRanges(top: int, w: nat): seq<Range>
    requires w > 0
  {
    var minRange := top - (w - 1);
    Reverse(CollectRanges(minRange, top, w, [Range(minRange, top)]))
  }

  /** Bin `j` (counting from 1) of width `w`: the first bin also takes 0. */
  function Bin(j: nat, w: nat): Range
    requires j >= 1
  {
    Range(if j == 1 then 0 else (j - 1) * w + 1, j * w)
  }

  /** Bins `q` down to 1. */
  function DescendingBins(q: nat, w: nat): seq<Range> {
    if q == 0 then [] else [Bin(q, w)] + DescendingBins(q - 1, w)
  }

  /** Bins 1 up to `k`. */
  function AscendingBins(k: nat, w: nat): seq<Range> {
    seq(k, i requires 0 <= i < k => Bin(i + 1, w))
  }

  lemma {:induction false} StepDown(q: int, w: nat)
    ensures (q - 1) * w == q * w - w
  {
  }

  lemma {:induction false} CollectFromBin(q: nat, w: nat, ranges: seq<Range>)
    requires q >= 1 && w > 0
    ensures CollectRanges((q - 1) * w + 1, q * w, w, ranges) == ranges + DescendingBins(q - 1, w)
    decreases q
  {
    StepDown(q, w);
    if q == 2 {
      assert CollectRanges(0, w, w, ranges + [Range(0, w)]) == ranges + [Range(0, w)];
      assert DescendingBins(1, w) == [Bin(1, w)];
    } else if q > 2 {
      StepDown(q - 1, w);
      MulAtLeast(q - 2, w);
      CollectFromBin(q - 1, w, ranges + [Bin(q - 1, w)]);
      assert DescendingBins(q - 1, w) == [Bin(q - 1, w)] + DescendingBins(q - 2, w);
    }
  }

  lemma {:induction false} ReverseDescending(k: nat, w: nat)
    ensures Reverse(DescendingBins(k, w)) == AscendingBins(k, w)
  {
    if k > 0 {
      ReverseDescending(k - 1, w);
      var d := DescendingBins(k, w);
      assert d[1..] == DescendingBins(k - 1, w);
      assert Reverse(d) == Reverse(d[1..]) + [d[0]];
    }
  }

  /**
   When the top is at least two bin widths, the bins are [0, w],
   [w + 1, 2w], ..., [top - w + 1, top], in ascending order.
   */
  lemma {:induction false} RangesFromZero(k: nat, w: nat)
    requires k >= 2 && w > 0
    ensures GetCollectionOfRanges(k * w, w) == AscendingBins(k, w)
  {
    assert k * w - (w - 1) == (k - 1) * w + 1;
    CollectFromBin(k, w, [Bin(k, w)]);
    assert [Bin(k, w)] + DescendingBins(k - 1, w) == DescendingBins(k, w);
    ReverseDescending(k, w);
  }

  /** With the top equal to the width there is the one bin [1, w]: zeros are not counted. */
  lemma {:induction false} RangesAtOneWidth(w: nat)
    requires w > 0
    ensures GetCollectionOfRanges(w, w) == [Range(1, w)]
  {
  }

  /** With the top at 0 there is the one bin [1 - w, 0]. */
  lemma {:induction false} RangesAtZero(w: nat)
    requires w > 0
    ensures GetCollectionOfRanges(0, w) == [Range(1 - w, 0)]
  {
  }

  /** The ranges are collected with strictly decreasing lower edges, so the sort reverses them. */
  lemma {:induction false} CollectedDescending(k: nat, w: nat)
    requires k >= 2 && w > 0
    ensures var collected := CollectRanges(k * w - (w - 1), k * w, w, [Range(k * w - (w - 1), k * w)]);
      forall i, j :: 0 <= i < j < |collected| ==> collected[i].min > collected[j].min
  {
    assert k * w - (w - 1) == (k - 1) * w + 1;
    CollectFromBin(k, w, [Bin(k, w)]);
    assert [Bin(k, w)] + DescendingBins(k - 1, w) == DescendingBins(k, w);
    DescendingBinsDescend(k, w);
  }

  lemma {:induction false} DescendingBinsDescend(q: nat, w: nat)
    requires w > 0
    ensures |DescendingBins(q, w)| == q
    ensures forall i :: 0 <= i < q ==> DescendingBins(q, w)[i] == Bin(q - i, w)
    ensures forall i, j :: 0 <= i < j < q ==> DescendingBins(q, w)[i].min > DescendingBins(q, w)[j].min
  {
    if q > 0 {
      DescendingBinsDescend(q - 1, w);
      var d := DescendingBins(q, w);
      forall i | 0 <= i < q
        ensures d[i] == Bin(q - i, w)
      {
        if i > 0 {
          assert d[i] == DescendingBins(q - 1, w)[i - 1];
        }
      }
      forall i, j | 0 <= i < j < q
        ensures d[i].min > d[j].min
      {
        BinMinIncreasing(q - j, q - i, w);
      }
    }
  }

  lemma {:induction false} BinMinIncreasing(a: nat, b: nat, w: nat)
    requires 1 <= a < b && w > 0
    ensures Bin(a, w).min < Bin(b, w).min
  {
    if a > 1 {
      MulIncreasing(a - 1, b - 1, w);
    }
  }

  lemma {:induction false} MulIncreasing(x: nat, y: nat, w: nat)
    requires x < y && w > 0
    ensures x * w < y * w
    decreases y - x
  {
    assert (x + 1) * w == x * w + w;
    if x + 1 < y {
      MulIncreasing(x + 1, y, w);
    }
  }

  /** `getCountOfValuesWithinRange`: the values v with min <= v <= max. */
  function CountInRange(values: seq<int>, r: Range): (count: nat)
    ensures count <= |values|
  {
    if |values| == 0 then 0
    else (if r.min <= values[0] <= r.max then 1 else 0) + CountInRange(values[1..], r)
  }

  lemma {:induction false} CountSplit(values: seq<int>, a: int, b: int, c: int)
    requires a <= b + 1 && b <= c
    ensures CountInRange(values, Range(a, c)) == CountInRange(values, Range(a, b)) + CountInRange(values, Range(b + 1, c))
  {
    if |values| > 0 {
      CountSplit(values[1..], a, b, c);
    }
  }

  lemma {:induction false} CountAllWithin(values: seq<int>, r: Range)
    requires forall i :: 0 <= i < |values| ==> r.min <= values[i] <= r.max
    ensures CountInRange(values, r) == |values|
  {
    if |values| > 0 {
      assert forall i :: 0 <= i < |values| - 1 ==> values[1..][i] == values[i + 1];
      CountAllWithin(values[1..], r);
    }
  }

  /** The counts of a list of bins, added up. */
  function TotalCount(values: seq<int>, bins: seq<Range>): nat {
    if |bins| == 0 then 0
    else TotalCount(values, bins[..|bins| - 1]) + CountInRange(values, bins[|bins| - 1])
  }

  lemma {:induction false} AscendingBinsCount(values: seq<int>, k: nat, w: nat)
    requires k >= 1 && w > 0
    ensures TotalCount(values, AscendingBins(k, w)) == CountInRange(values, Range(0, k * w))
  {
    var bins := AscendingBins(k, w);
    if k > 1 {
      assert bins[..k - 1] == AscendingBins(k - 1, w);
      AscendingBinsCount(values, k - 1, w);
      assert bins[k - 1] == Range((k - 1) * w + 1, k * w);
      assert (k - 1) * w <= k * w;
      CountSplit(values, 0, (k - 1) * w, k * w);
    } else {
      assert bins[..0] == [];
    }
  }

  /** The generator: the values sorted ascending, the bin width, and the top of the table. */
  datatype Histogram = Histogram(values: seq<int>, binSize: nat, highestValue: int)

  /**
   `top` is what the constructor computes from `values`: a multiple of `w`,
   at least every value, and less than some value plus `w`; that is, the
   least multiple of `w` not below the greatest value.
   */
  predicate IsTop(values: seq<int>, w: nat, top: int)
    requires w > 0
  {
    && top % w == 0
    && (forall v :: v in values ==> v <= top)
    && (exists v :: v in values && top < v + w)
  }

  /**
   The constructor: the values are sorted, then the greatest is rounded up
   to a multiple of the bin width. An empty list fails at the index -1
   (ArgumentOutOfRangeException), a width of 0 at the remainder
   (DivideByZeroException).
   */
  function NewHistogram(values: seq<int>, binSize: nat): (h: Result<Histogram>)
    ensures h.Err? <==> |values| == 0 || binSize == 0
    ensures h.Err? ==> h.failure == (if |values| == 0 then InvalidArgument else Fault)
    ensures h.Ok? ==> h.value.binSize == binSize
    ensures h.Ok? ==> multiset(h.value.values) == multiset(values) && Ascending(h.value.values)
    ensures h.Ok? ==> IsTop(values, binSize, h.value.highestValue)
  {
    var sorted := SortAscending(values);
    if |sorted| == 0 then Err(InvalidArgument)
    else if binSize == 0 then Err(Fault)
    else
      var highest := sorted[|sorted| - 1];
      TopOfValues(values, sorted, binSize);
      Ok(Histogram(sorted, binSize, RoundUp(highest, binSize)))
  }

  /** Every value of a histogram over non-negative values lies between 0 and the top. */
  lemma {:induction false} HistogramValuesBounded(values: seq<int>, binSize: nat)
    requires |values| > 0 && binSize > 0
    requires forall v :: v in values ==> v >= 0
    ensures var h := NewHistogram(values, binSize).value;
      forall i :: 0 <= i < |h.values| ==> 0 <= h.values[i] <= h.highestValue
  {
    var h := NewHistogram(values, binSize).value;
    forall i | 0 <= i < |h.values|
      ensures 0 <= h.values[i] <= h.highestValue
    {
      assert h.values[i] in multiset(h.values);
      assert h.values[i] in values;
    }
  }

  /** Rounding up the last of the sorted values gives the top of the values. */
  lemma {:induction false} TopOfValues(values: seq<int>, sorted: seq<int>, w: nat)
    requires |sorted| > 0 && Ascending(sorted) && multiset(sorted) == multiset(values) && w > 0
    ensures IsTop(values, w, RoundUp(sorted[|sorted| - 1], w))
  {
    var highest := sorted[|sorted| - 1];
    AscendingLastGreatest(sorted, values);
    var top := RoundUp(highest, w);
    assert highest in values && top < highest + w;
  }

  /**
   For non-negative values and a top of at least two widths, the bins
   partition [0, top]: every value is counted exactly once.
   */
  lemma {:induction false} CountsAddUpToValues(h: Histogram)
    requires h.binSize > 0 && h.highestValue >= 2 * h.binSize && h.highestValue % h.binSize == 0
    requires forall i :: 0 <= i < |h.values| ==> 0 <= h.values[i] <= h.highestValue
    ensures TotalCount(h.values, GetCollectionOfRanges(h.highestValue, h.binSize)) == |h.values|
  {
    var k := h.highestValue / h.binSize;
    assert k * h.binSize == h.highestValue;
    assert k >= 2;
    RangesFromZero(k, h.binSize);
    AscendingBinsCount(h.values, k, h.binSize);
    CountAllWithin(h.values, Range(0, k * h.binSize));
  }

  /** `generateHistogramLine`: "{min,5} - {max,5}: {count,2}" and a line break. */
  function HistogramLine(r: Range, count: nat, nl: string): string {
    PadLeft(FormatIntegerAsFormattedString(r.min), 5, ' ') + " - "
    + PadLeft(FormatIntegerAsFormattedString(r.max), 5, ' ') + ": "
    + PadLeft(FormatIntegerAsFormattedString(count), 2, ' ') + nl
  }

  /** `createAlignedHistogram`: the lines appended one range at a time. */
  function AlignedLines(values: seq<int>, ranges: seq<Range>, nl: string, acc: string): string
    decreases |ranges|
  {
    if |ranges| == 0 then acc
    else AlignedLines(values, ranges[1..], nl, acc + HistogramLine(ranges[0], CountInRange(values, ranges[0]), nl))
  }

  /** The table: one line per range, in the order of the ranges. */
  function Table(values: seq<int>, ranges: seq<Range>, nl: string): string {
    if |ranges| == 0 then ""
    else HistogramLine(ranges[0], CountInRange(values, ranges[0]), nl) + Table(values, ranges[1..], nl)
  }

  lemma {:induction false} AlignedLinesTable(values: seq<int>, ranges: seq<Range>, nl: string, acc: string)
    ensures AlignedLines(values, ranges, nl, acc) == acc + Table(values, ranges, nl)
    decreases |ranges|
  {
    if |ranges| > 0 {
      var line := HistogramLine(ranges[0], CountInRange(values, ranges[0]), nl);
      var rest := Table(values, ranges[1..], nl);
      assert AlignedLines(values, ranges, nl, acc) == AlignedLines(values, ranges[1..], nl, acc + line);
      assert Table(values, ranges, nl) == line + rest;
      AlignedLinesTable(values, ranges[1..], nl, acc + line);
      assert acc + line + rest == acc + (line + rest);
    }
  }

  /**
   `GenerateHistogram`: a line break, then one line per range in ascending
   order of lower edge, each with the count of values in the range.
   */
  function GenerateHistogram(h: Histogram, nl: string): (text: string)
    requires h.binSize > 0
    ensures text == nl + Table(h.values, GetCollectionOfRanges(h.highestValue, h.binSize), nl)
  {
    var ranges := GetCollectionOfRanges(h.highestValue, h.binSize);
    AlignedLinesTable(h.values, ranges, nl, "");
    assert "" + Table(h.values, ranges, nl) == Table(h.values, ranges, nl);
    nl + AlignedLines(h.values, ranges, nl, "")
  }

  lemma {:induction false} CountInsert(x: int, sorted: seq<int>, r: Range)
    requires Ascending(sorted)
    ensures CountInRange(Insert(x, sorted), r) == (if r.min <= x <= r.max then 1 else 0) + CountInRange(sorted, r)
    decreases |sorted|
  {
    if |sorted| > 0 && x > sorted[0] {
      var rest := Insert(x, sorted[1..]);
      CountInsert(x, sorted[1..], r);
      assert ([sorted[0]] + rest)[1..] == rest;
    }
  }

  /** Sorting does not change how many values fall in a range. */
  lemma {:induction false} CountSorted(values: seq<int>, r: Range)
    ensures CountInRange(SortAscending(values), r) == CountInRange(values, r)
  {
    if |values| > 0 {
      CountSorted(values[1..], r);
      CountInsert(values[0], SortAscending(values[1..]), r);
    }
  }

  /** The top computed for a list is pinned down by its greatest value. */
  lemma {:induction false} TopOfGreatest(values: seq<int>, w: nat, top: int, greatest: int)
    requires w > 0 && IsTop(values, w, top)
    requires greatest in values && greatest % w == 0
    requires forall v :: v in values ==> v <= greatest
    ensures top == greatest
  {
    var v :| v in values && top < v + w;
    assert greatest <= top < greatest + w;
    var d := top / w - greatest / w;
    assert top - greatest == d * w;
    MulAtLeast(d, w);
    PositiveFactor(d, w);
  }

  /** For values already in order the constructor keeps them and rounds up the last. */
  lemma {:induction false} NewHistogramOfSorted(values: seq<int>, w: nat)
    requires Ascending(values) && |values| > 0 && w > 0
    ensures NewHistogram(values, w) == Ok(Histogram(values, w, RoundUp(values[|values| - 1], w)))
  {
    SortSorted(values);
  }

  /**
   Bins of 500 over {0, 499, 500, 999, 1000}: with the top at 1000 the table
   is [0, 500] holding three values and [501, 1000] holding two.
   */
  lemma {:induction false} HistogramExample()
    ensures RoundUp(1000, 500) == 1000
    ensures GetCollectionOfRanges(1000, 500) == [Range(0, 500), Range(501, 1000)]
    ensures CountInRange([0, 499, 500, 999, 1000], Range(0, 500)) == 3
    ensures CountInRange([0, 499, 500, 999, 1000], Range(501, 1000)) == 2
  {
    RangesFromZero(2, 500);
    assert AscendingBins(2, 500) == [Range(0, 500), Range(501, 1000)];
    ExampleCounts([0, 499, 500, 999, 1000]);
  }

  lemma {:induction false} ExampleCounts(values: seq<int>)
    requires values == [0, 499, 500, 999, 1000]
    ensures CountInRange(values, Range(0, 500)) == 3
    ensures CountInRange(values, Range(501, 1000)) == 2
  {
    var low, high := Range(0, 500), Range(501, 1000);
    assert [1000][1..] == [];
    assert [999, 1000][1..] == [1000];
    assert CountInRange([999, 1000], low) == 0 && CountInRange([999, 1000], high) == 2;
    assert [500, 999, 1000][1..] == [999, 1000];
    assert [499, 500, 999, 1000][1..] == [500, 999, 1000];
    assert CountInRange([499, 500, 999, 1000], low) == 2 && CountInRange([499, 500, 999, 1000], high) == 2;
    assert values[1..] == [499, 500, 999, 1000];
  }
}

=== FILE: host.dfy ===
/**
 What the engine takes from its host and the .NET runtime rather than
 computing itself. Each is a parameter of the model:
 - `nl` is `Environment.NewLine`;
 - `averageText` and `percentText` render a double with the "N" and "P"
   standard numeric formats of the current culture;
 - `currentHospitalizationsLabel` and `hospitalizedCurrentlyColumn` are the
   label `Assets.HighestCurrentHospitalizationsLabel` and the column constant
   `Assets.ColumnNumberForHospitalizedCurrently`, which the code uses but
   `Assets.cs` does not define.
 */
module Host {

  datatype Env = Env(
    nl: string,
    averageText: real -> string,
    percentText: real -> string,
    currentHospitalizationsLabel: string,
    hospitalizedCurrentlyColumn: nat)

  /** The two line terminators a .NET runtime uses. */
  predicate StandardNewline(nl: string) {
    nl == "\n" || nl == "\r\n"
  }
}

=== FILE: lines.dfy ===
/**
 `CovidDataLines`: the four shapes of a report line. Each is a label, a
 value and a line break, with words in between. Split at spaces, a line
 gives the words of each part in turn, whatever the parts hold; when the
 value holds no space it comes back as one word. (`label` is a Dafny
 keyword, so the parameter is called `title`.)
 */
module Lines {
  import opened Text
  import opened Assets

  /** "{label} {value} occurred on {date}{nl}". */
  function LineForValueAndDate(title: string, value: string, date: string, nl: string): (line: string)
    ensures Split(line, ' ') == Split(title, ' ') + Split(value, ' ') + ["occurred", "on"] + Split(date + nl, ' ')
    ensures ' ' !in value && ' ' !in date + nl ==>
      Split(line, ' ') == Split(title, ' ') + [value, "occurred", "on", date + nl]
  {
    var line := title + " " + value + " " + DateOfOccurrenceLabel + " " + date + nl;
    ValueAndDateWords(title, value, date, nl);
    if ' ' !in value && ' ' !in date + nl then
      ValueAndDateFields(title, value, date, nl);
      line
    else line
  }

  /** "{label} {value} occurred on the {days} {nl}": the days may hold spaces. */
  function LineForValueAndDaysOfMonth(title: string, value: string, days: string, nl: string): (line: string)
    ensures Split(line, ' ') == Split(title, ' ') + Split(value, ' ') + ["occurred", "on", "the"] + Split(days, ' ') + Split(nl, ' ')
    ensures ' ' !in value && ' ' !in nl ==>
      Split(line, ' ') == Split(title, ' ') + [value, "occurred", "on", "the"] + Split(days, ' ') + [nl]
  {
    var line := title + " " + value + " " + DayOfOccurrenceMonthlyLabel + " " + days + " " + nl;
    ValueAndDaysWords(title, value, days, nl);
    if ' ' !in value && ' ' !in nl then
      ValueAndDaysFields(title, value, days, nl);
      line
    else line
  }

  /** "{label} {value} {nl}". */
  function LineForValue(title: string, value: string, nl: string): (line: string)
    ensures Split(line, ' ') == Split(title, ' ') + Split(value, ' ') + Split(nl, ' ')
    ensures ' ' !in value && ' ' !in nl ==> Split(line, ' ') == Split(title, ' ') + [value, nl]
  {
    var line := title + " " + value + " " + nl;
    ValueWords(title, value, nl);
    if ' ' !in value && ' ' !in nl then
      ValueFields(title, value, nl);
      line
    else line
  }

  /** "{label} {threshold}: {value}{nl}": the threshold comes before the count. */
  function LineForValueWithThreshold(title: string, value: string, threshold: string, nl: string): (line: string)
    ensures Split(line, ' ') == Split(title, ' ') + Split(threshold + ":", ' ') + Split(value + nl, ' ')
    ensures ' ' !in threshold && ' ' !in value + nl ==>
      Split(line, ' ') == Split(title, ' ') + [threshold + ":", value + nl]
  {
    var line := title + " " + threshold + ": " + value + nl;
    ThresholdWords(title, threshold, value, nl);
    if ' ' !in threshold && ' ' !in value + nl then
      ThresholdFields(title, threshold, value, nl);
      line
    else line
  }

  // Reading a line back, one space-separated word at a time.

  /** A single space splits a text into the words before it and the words after it. */
  lemma {:induction false} Spaced(a: string, b: string)
    ensures Split(a + " " + b, ' ') == Split(a, ' ') + Split(b, ' ')
  {
    SplitConcat(a, b, ' ');
  }

  /** A label of three space-free words split back into those words. */
  lemma {:induction false} ThreeWordLabel(lbl: string, a: string, b: string, c: string)
    requires ' ' !in a && ' ' !in b && ' ' !in c
    requires lbl == a + " " + (b + " " + c)
    ensures Split(lbl, ' ') == [a, b, c]
  {
    ThreeWords(a, b, c);
  }

  lemma {:induction false} TwoWordLabel(lbl: string, a: string, b: string)
    requires ' ' !in a && ' ' !in b
    requires lbl == a + " " + b
    ensures Split(lbl, ' ') == [a, b]
  {
    TwoWords(a, b);
  }

  lemma {:induction false} OccurredOnWords()
    ensures Split(DateOfOccurrenceLabel, ' ') == ["occurred", "on"]
  {
    TwoWordLabel(DateOfOccurrenceLabel, "occurred", "on");
  }

  lemma {:induction false} OccurredOnTheWords()
    ensures Split(DayOfOccurrenceMonthlyLabel, ' ') == ["occurred", "on", "the"]
  {
    ThreeWordLabel(DayOfOccurrenceMonthlyLabel, "occurred", "on", "the");
  }

  /** Four texts joined by single spaces split into the words of each, in turn. */
  lemma {:induction false} FourParts(a: string, b: string, c: string, d: string)
    ensures Split(a + " " + b + " " + c + " " + d, ' ') == Split(a, ' ') + Split(b, ' ') + Split(c, ' ') + Split(d, ' ')
  {
    Spaced(a + " " + b + " " + c, d);
    Spaced(a + " " + b, c);
    Spaced(a, b);
  }

  lemma {:induction false} ValueAndDateWords(title: string, value: string, date: string, nl: string)
    ensures Split(title + " " + value + " " + DateOfOccurrenceLabel + " " + date + nl, ' ')
      == Split(title, ' ') + Split(value, ' ') + ["occurred", "on"] + Split(date + nl, ' ')
  {
    var lbl := DateOfOccurrenceLabel;
    var tail := date + nl;
    assert title + " " + value + " " + lbl + " " + date + nl == title + " " + value + " " + lbl + " " + tail;
    FourParts(title, value, lbl, tail);
    OccurredOnWords();
  }

  lemma {:induction false} ValueAndDaysWords(title: string, value: string, days: string, nl: string)
    ensures Split(title + " " + value + " " + DayOfOccurrenceMonthlyLabel + " " + days + " " + nl, ' ')
      == Split(title, ' ') + Split(value, ' ') + ["occurred", "on", "the"] + Split(days, ' ') + Split(nl, ' ')
  {
    var lbl := DayOfOccurrenceMonthlyLabel;
    var a4 := title + " " + value + " " + lbl + " " + days;
    Spaced(a4, nl);
    FourParts(title, value, lbl, days);
    OccurredOnTheWords();
  }

  lemma {:induction false} ValueWords(title: string, value: string, nl: string)
    ensures Split(title + " " + value + " " + nl, ' ') == Split(title, ' ') + Split(value, ' ') + Split(nl, ' ')
  {
    Spaced(title + " " + value, nl);
    Spaced(title, value);
  }

  lemma {:induction false} ThresholdWords(title: string, threshold: string, value: string, nl: string)
    ensures Split(title + " " + threshold + ": " + value + nl, ' ')
      == Split(title, ' ') + Split(threshold + ":", ' ') + Split(value + nl, ' ')
  {
    var a1 := title + " " + (threshold + ":");
    assert title + " " + threshold + ": " + value + nl == a1 + " " + (value + nl);
    Spaced(a1, value + nl);
    Spaced(title, threshold + ":");
  }

  lemma {:induction false} WordThen(w: string, r: string, rs: seq<string>)
    requires ' ' !in w && Split(r, ' ') == rs
    ensures Split(w + " " + r, ' ') == [w] + rs
  {
    SplitCons(w, r, ' ');
  }

  lemma {:induction false} TwoWords(a: string, b: string)
    requires ' ' !in a && ' ' !in b
    ensures Split(a + " " + b, ' ') == [a, b]
  {
    SplitWithout(b, ' ');
    WordThen(a, b, [b]);
  }

  lemma {:induction false} ThreeWords(a: string, b: string, c: string)
    requires ' ' !in a && ' ' !in b && ' ' !in c
    ensures Split(a + " " + (b + " " + c), ' ') == [a, b, c]
  {
    TwoWords(b, c);
    WordThen(a, b + " " + c, [b, c]);
  }

  lemma {:induction false} ValueAndDateFields(title: string, value: string, date: string, nl: string)
    requires ' ' !in value && ' ' !in date + nl
    ensures Split(title + " " + value + " " + DateOfOccurrenceLabel + " " + date + nl, ' ')
      == Split(title, ' ') + [value, "occurred", "on", date + nl]
  {
    ValueAndDateWords(title, value, date, nl);
    SplitWithout(value, ' ');
    SplitWithout(date + nl, ' ');
    assert Split(title, ' ') + [value] + ["occurred", "on"] + [date + nl] == Split(title, ' ') + [value, "occurred", "on", date + nl];
  }


  lemma {:induction false} ValueAndDaysFields(title: string, value: string, days: string, nl: string)
    requires ' ' !in value && ' ' !in nl
    ensures Split(title + " " + value + " " + DayOfOccurrenceMonthlyLabel + " " + days + " " + nl, ' ')
      == Split(title, ' ') + [value, "occurred", "on", "the"] + Split(days, ' ') + [nl]
  {
    ValueAndDaysWords(title, value, days, nl);
    SplitWithout(value, ' ');
    SplitWithout(nl, ' ');
    assert Split(title, ' ') + [value] + ["occurred", "on", "the"] == Split(title, ' ') + [value, "occurred", "on", "the"];
  }


  lemma {:induction false} ValueFields(title: string, value: string, nl: string)
    requires ' ' !in value && ' ' !in nl
    ensures Split(title + " " + value + " " + nl, ' ') == Split(title, ' ') + [value, nl]
  {
    ValueWords(title, value, nl);
    SplitWithout(value, ' ');
    SplitWithout(nl, ' ');
    assert Split(title, ' ') + [value] + [nl] == Split(title, ' ') + [value, nl];
  }


  lemma {:induction false} ThresholdFields(title: string, threshold: string, value: string, nl: string)
    requires ' ' !in threshold && ' ' !in value + nl
    ensures Split(title + " " + threshold + ": " + value + nl, ' ') == Split(title, ' ') + [threshold + ":", value + nl]
  {
    ThresholdWords(title, threshold, value, nl);
    SplitWithout(threshold + ":", ' ');
    SplitWithout(value + nl, ' ');
    assert Split(title, ' ') + [threshold + ":"] + [value + nl] == Split(title, ' ') + [threshold + ":", value + nl];
  }

}

=== FILE: merge.dfy ===
/**
 `CovidDataMergeController`: merges a newly loaded collection into an
 existing one. Records whose key the existing collection lacks move across;
 the others stay behind as the duplicates the user must decide about.
 */
module Merging {
  import opened Outcomes
  import opened Records
  import opened Collections

  /** The two collections the controller holds: the merge target and the incoming records. */
  datatype Controller = Controller(merged: seq<Record>, incoming: seq<Record>)

  /** The constructor rejects a `null` collection with ArgumentNullException. */
  function NewController(merged: Option<seq<Record>>, incoming: Option<seq<Record>>): (result: Result<Controller>)
    ensures result.Err? <==> merged.None? || incoming.None?
    ensures result.Err? ==> result.failure == InvalidArgument
    ensures result.Ok? ==> result.value.merged == merged.value && result.value.incoming == incoming.value
  {
    if merged.None? || incoming.None? then Err(InvalidArgument)
    else Ok(Controller(merged.value, incoming.value))
  }

  /** `isDuplicate`: the merge target already holds the record's key. */
  predicate IsDuplicate(merged: seq<Record>, r: Record) {
    ContainsKey(merged, r)
  }

  /** The incoming records whose key the target already holds, in order. */
  function Duplicates(merged: seq<Record>, incoming: seq<Record>): (result: seq<Record>)
    ensures forall x :: x in result <==> x in incoming && IsDuplicate(merged, x)
  {
    if |incoming| == 0 then []
    else (if IsDuplicate(merged, incoming[0]) then [incoming[0]] else []) + Duplicates(merged, incoming[1..])
  }

  /** The incoming records whose key the target lacks, in order. */
  function NonDuplicates(merged: seq<Record>, incoming: seq<Record>): (result: seq<Record>)
    ensures forall x :: x in result <==> x in incoming && !IsDuplicate(merged, x)
  {
    if |incoming| == 0 then []
    else (if IsDuplicate(merged, incoming[0]) then [] else [incoming[0]]) + NonDuplicates(merged, incoming[1..])
  }

  /**
   The loop of `AddAllNonDuplicates`: each record of `todo` is added to the
   target and then removed, by key, from the incoming collection.
   */
  function MoveEach(merged: seq<Record>, incoming: seq<Record>, todo: seq<Record>): Controller
    decreases |todo|
  {
    if |todo| == 0 then Controller(merged, incoming)
    else MoveEach(Add(merged, todo[0]), RemoveFirstKey(incoming, todo[0]), todo[1..])
  }

  /**
   `AddAllNonDuplicates`: the non-duplicates are chosen before the loop
   starts, then moved one by one. The target ends with the non-duplicates
   appended in order; the incoming collection keeps exactly its duplicates,
   in order.
   */
  function AddAllNonDuplicates(c: Controller): (result: Controller)
    ensures result.merged == c.merged + NonDuplicates(c.merged, c.incoming)
    ensures result.incoming == Duplicates(c.merged, c.incoming)
  {
    var nonDuplicates := NonDuplicates(c.merged, c.incoming);
    MoveEachAppends(c.merged, c.incoming, nonDuplicates);
    MoveEachLeavesDuplicates(c.merged, c.merged, c.incoming);
    MoveEach(c.merged, c.incoming, nonDuplicates)
  }

  lemma {:induction false} MoveEachAppends(merged: seq<Record>, incoming: seq<Record>, todo: seq<Record>)
    ensures MoveEach(merged, incoming, todo).merged == merged + todo
    decreases |todo|
  {
    if |todo| > 0 {
      MoveEachAppends(Add(merged, todo[0]), RemoveFirstKey(incoming, todo[0]), todo[1..]);
      assert Add(merged, todo[0]) + todo[1..] == merged + todo;
    }
  }

  /** Removing records by key leaves a leading record alone when none of them has its key. */
  lemma {:induction false} MoveEachKeepsHead(merged: seq<Record>, x: Record, rest: seq<Record>, todo: seq<Record>)
    requires forall i :: 0 <= i < |todo| ==> !SameKey(x, todo[i])
    ensures MoveEach(merged, [x] + rest, todo).incoming == [x] + MoveEach(merged, rest, todo).incoming
    decreases |todo|
  {
    if |todo| > 0 {
      assert ([x] + rest)[1..] == rest;
      assert RemoveFirstKey([x] + rest, todo[0]) == [x] + RemoveFirstKey(rest, todo[0]);
      MoveEachKeepsHead(Add(merged, todo[0]), x, RemoveFirstKey(rest, todo[0]), todo[1..]);
    }
  }

  /**
   Removing the non-duplicates by key removes exactly them: because a key is
   either held by the target or not, no duplicate shares a key with a
   non-duplicate, and the first record with a non-duplicate's key is that
   non-duplicate itself.
   */
  lemma {:induction false} MoveEachLeavesDuplicates(target: seq<Record>, merged: seq<Record>, incoming: seq<Record>)
    ensures MoveEach(merged, incoming, NonDuplicates(target, incoming)).incoming == Duplicates(target, incoming)
    decreases |incoming|
  {
    if |incoming| > 0 {
      var x, rest := incoming[0], incoming[1..];
      assert incoming == [x] + rest;
      var todo := NonDuplicates(target, rest);
      if IsDuplicate(target, x) {
        assert NonDuplicates(target, incoming) == todo;
        var j :| 0 <= j < |target| && SameKey(target[j], x);
        forall i | 0 <= i < |todo|
          ensures !SameKey(x, todo[i])
        {
          assert todo[i] in todo;
          assert !SameKey(target[j], todo[i]);
        }
        MoveEachKeepsHead(merged, x, rest, todo);
        MoveEachLeavesDuplicates(target, merged, rest);
      } else {
        assert NonDuplicates(target, incoming) == [x] + todo;
        assert RemoveFirstKey(incoming, x) == rest;
        MoveEachLeavesDuplicates(target, Add(merged, x), rest);
      }
    }
  }

  lemma {:induction false} SplitCount(merged: seq<Record>, incoming: seq<Record>)
    ensures |Duplicates(merged, incoming)| + |NonDuplicates(merged, incoming)| == |incoming|
    decreases |incoming|
  {
    if |incoming| > 0 {
      SplitCount(merged, incoming[1..]);
    }
  }

  /** No record is lost or invented: the two collections hold as many records as before. */
  lemma {:induction false} MergePreservesCount(c: Controller)
    ensures var r := AddAllNonDuplicates(c); |r.merged| + |r.incoming| == |c.merged| + |c.incoming|
  {
    SplitCount(c.merged, c.incoming);
  }

  /** After the merge every incoming key is in the target, and every record left behind is a duplicate of it. */
  lemma {:induction false} MergeCoversIncomingKeys(c: Controller)
    ensures var r := AddAllNonDuplicates(c);
      && (forall x :: x in c.incoming ==> ContainsKey(r.merged, x))
      && (forall x :: x in r.incoming ==> IsDuplicate(r.merged, x))
  {
    var r := AddAllNonDuplicates(c);
    var moved := NonDuplicates(c.merged, c.incoming);
    forall x | x in c.incoming || x in r.incoming
      ensures ContainsKey(r.merged, x)
    {
      if IsDuplicate(c.merged, x) {
        var i :| 0 <= i < |c.merged| && SameKey(c.merged[i], x);
        assert r.merged[i] == c.merged[i];
      } else {
        var i :| 0 <= i < |moved| && moved[i] == x;
        assert r.merged[|c.merged| + i] == x;
      }
    }
  }

  /** A second merge finds nothing left to move. */
  lemma {:induction false} MergeIdempotent(c: Controller)
    ensures AddAllNonDuplicates(AddAllNonDuplicates(c)) == AddAllNonDuplicates(c)
  {
    var r := AddAllNonDuplicates(c);
    MergeCoversIncomingKeys(c);
    NothingToMove(r.merged, r.incoming);
    AllDuplicates(r.merged, r.incoming);
  }

  lemma {:induction false} NothingToMove(merged: seq<Record>, incoming: seq<Record>)
    requires forall x :: x in incoming ==> IsDuplicate(merged, x)
    ensures NonDuplicates(merged, incoming) == []
    decreases |incoming|
  {
    if |incoming| > 0 {
      assert incoming[0] in incoming;
      NothingToMove(merged, incoming[1..]);
    }
  }

  lemma {:induction false} AllDuplicates(merged: seq<Record>, incoming: seq<Record>)
    requires forall x :: x in incoming ==> IsDuplicate(merged, x)
    ensures Duplicates(merged, incoming) == incoming
    decreases |incoming|
  {
    if |incoming| > 0 {
      assert incoming[0] in incoming;
      AllDuplicates(merged, incoming[1..]);
      assert [incoming[0]] + incoming[1..] == incoming;
    }
  }

  lemma {:induction false} NonDuplicatesKeyUnique(merged: seq<Record>, incoming: seq<Record>)
    requires KeyUnique(incoming)
    ensures KeyUnique(NonDuplicates(merged, incoming))
    decreases |incoming|
  {
    if |incoming| > 0 {
      var x, rest := incoming[0], incoming[1..];
      KeyUniqueCons(incoming);
      NonDuplicatesKeyUnique(merged, rest);
      var tail := NonDuplicates(merged, rest);
      if !IsDuplicate(merged, x) {
        var all := [x] + tail;
        assert all[1..] == tail;
        forall i | 0 <= i < |tail|
          ensures !SameKey(tail[i], x)
        {
          assert tail[i] in rest;
          var j :| 0 <= j < |rest| && rest[j] == tail[i];
        }
        KeyUniqueCons(all);
      }
    }
  }

  /**
   When the target and the incoming collection are each key-unique, so is
   the target after the merge.
   */
  lemma {:induction false} MergeKeepsKeyUnique(c: Controller)
    requires KeyUnique(c.merged) && KeyUnique(c.incoming)
    ensures KeyUnique(AddAllNonDuplicates(c).merged)
  {
    var moved := NonDuplicates(c.merged, c.incoming);
    NonDuplicatesKeyUnique(c.merged, c.incoming);
    var all := c.merged + moved;
    forall i, j | 0 <= i < j < |all|
      ensures !SameKey(all[i], all[j])
    {
      if j < |c.merged| {
        assert all[i] == c.merged[i] && all[j] == c.merged[j];
      } else if i >= |c.merged| {
        assert all[i] == moved[i - |c.merged|] && all[j] == moved[j - |c.merged|];
      } else {
        assert all[j] in moved;
        assert all[i] == c.merged[i];
      }
    }
  }

  /**
   A record moved across by the merge, once the merge target is upserted
   into a key-unique collection, is that collection's only record with its
   key: whatever the collection held for the same day and state is gone.
   */
  lemma {:induction false} MovedRecordWins(target: seq<Record>, incoming: seq<Record>, all: seq<Record>, x: Record)
    requires KeyUnique(incoming) && KeyUnique(all)
    requires x in incoming && !IsDuplicate(target, x)
    ensures var result := AddAll(all, AddAllNonDuplicates(Controller(target, incoming)).merged);
      && x in result
      && forall i :: 0 <= i < |result| && SameKey(result[i], x) ==> result[i] == x
  {
    var moved := NonDuplicates(target, incoming);
    var merged := target + moved;
    assert x in moved;
    var k :| 0 <= k < |moved| && moved[k] == x;
    NonDuplicatesKeyUnique(target, incoming);
    assert merged[|target| + k] == x;
    assert LastOfKey(merged, |target| + k) by {
      forall m | |target| + k < m < |merged|
        ensures !SameKey(merged[m], merged[|target| + k])
      {
        assert merged[m] == moved[m - |target|];
      }
    }
    AddAllLastWins(all, merged, |target| + k);
    AddAllKeyUnique(all, merged);
    KeyUniqueMemberIsOnly(AddAll(all, merged), x);
  }

  /**
   Without key-uniqueness of the incoming collection the merge can create a
   duplicate key: two incoming records for the same day and state, neither
   held by the target, are both moved.
   */
  lemma {:induction false} MergeCanDuplicateKey(a: Record, b: Record)
    requires SameKey(a, b)
    ensures AddAllNonDuplicates(Controller([], [a, b])).merged == [a, b]
    ensures !KeyUnique(AddAllNonDuplicates(Controller([], [a, b])).merged)
  {
    assert [a, b][1..] == [b];
    assert !IsDuplicate([], a) && !IsDuplicate([], b);
    assert NonDuplicates([], [b]) == [b];
    assert NonDuplicates([], [a, b]) == [a, b];
    var r := AddAllNonDuplicates(Controller([], [a, b])).merged;
    assert r[0] == a && r[1] == b;
  }

  /** `GetDuplicates`: a copy of what is left of the incoming collection. */
  function GetDuplicates(c: Controller): (result: seq<Record>)
    ensures |result| == |c.incoming|
    ensures forall i :: 0 <= i < |result| ==> result[i] == c.incoming[i]
  {
    Clone(c.incoming)
  }

  /** After a merge, the duplicates reported are exactly the incoming records the target already held. */
  lemma {:induction false} DuplicatesAfterMerge(c: Controller)
    ensures GetDuplicates(AddAllNonDuplicates(c)) == Duplicates(c.merged, c.incoming)
    ensures forall x :: x in GetDuplicates(AddAllNonDuplicates(c)) <==> x in c.incoming && IsDuplicate(c.merged, x)
  {
  }

  /** `ReplaceDuplicate`: the user's chosen record replaces the target's record with its key. */
  function ReplaceDuplicate(c: Controller, r: Option<Record>): (result: Result<Controller>)
    ensures result.Err? <==> r.None?
    ensures result.Err? ==> result.failure == InvalidArgument
    ensures result.Ok? ==> result.value.incoming == c.incoming
    ensures result.Ok? ==> result.value.merged == ReplaceDuplicateRecords(c.merged, r).value.0
    ensures result.Ok? && ContainsKey(c.merged, r.value) ==>
      && |result.value.merged| == |c.merged|
      && result.value.merged[|c.merged| - 1] == r.value
      && result.value.merged[..|c.merged| - 1] == RemoveFirstKey(c.merged, r.value)
    ensures result.Ok? && !ContainsKey(c.merged, r.value) ==> result.value.merged == c.merged
  {
    var replaced :- ReplaceDuplicateRecords(c.merged, r);
    Ok(Controller(replaced.0, c.incoming))
  }

  /** Replacing keeps the target's keys and its key-uniqueness. */
  lemma {:induction false} ReplaceDuplicateKeepsKeys(c: Controller, r: Record, k: Record)
    requires KeyUnique(c.merged)
    ensures KeyUnique(ReplaceDuplicate(c, Some(r)).value.merged)
    ensures ContainsKey(ReplaceDuplicate(c, Some(r)).value.merged, k) <==> ContainsKey(c.merged, k)
  {
    if ContainsKey(c.merged, r) {
      assert ReplaceDuplicate(c, Some(r)).value.merged == Upsert(c.merged, r);
      UpsertKeyUnique(c.merged, r);
      UpsertContainsKey(c.merged, r, k);
      if SameKey(r, k) {
        ContainsIsByKey(c.merged, r, k);
      }
    }
  }
}

=== FILE: monthly.dfy ===
/**
 `CovidDataMonthlySummary`: one section per calendar month, from the month
 of the first record summarised to the month of the last. A month without
 data gets a heading reporting 0 days; a month with data gets a heading
 with its number of records and six lines of figures.

 The records summarised are those dated on or after the first positive test
 of the collection (all of them when there is none), in date order.
 */
module MonthlySummaries {
  import opened Outcomes
  import opened Text
  import opened Calendar
  import opened Records
  import opened Format
  import opened Assets
  import opened Host
  import opened Lines
  import opened Statistics
  import opened DateOrder
  import opened Months

  /**
   `getSortedListByMonth`: the records on or after the first positive test,
   in date order. When there is no positive test the query raises, and the
   handler orders the whole collection instead.
   */
  function SortedListByMonth(records: seq<Record>): (sorted: seq<Record>)
    ensures ByDate(sorted)
    ensures HasPositive(records) ==> multiset(sorted) == multiset(SinceFirstPositive(records).value)
    ensures !HasPositive(records) ==> multiset(sorted) == multiset(records)
    ensures |sorted| == 0 <==> |records| == 0
  {
    match SinceFirstPositive(records)
    case Ok(window) => SortByDate(window)
    case Err(_) => SortByDate(records)
  }

  /** `GetMonthAndYearFromDateTime` on the first day of month `m`: "June 2020". */
  function MonthTitle(m: Month): string
    requires ValidMonth(m)
  {
    MonthName(m.month) + " " + Decimal(m.year)
  }

  lemma {:induction false} MonthTitleOfDate(d: Date)
    ensures MonthTitle(MonthOf(d)) == MonthAndYear(d)
  {
  }

  /** "{nl}{Month Year} ({days} days of data):{nl}". */
  function MonthHeading(m: Month, days: nat, nl: string): string
    requires ValidMonth(m)
  {
    nl + MonthTitle(m) + " (" + Decimal(days) + " " + DaysOfDataLabel + "):" + nl
  }

  /** The dates of the records whose `m` equals `v`, in record order. */
  function DatesWith(records: seq<Record>, m: Metric, v: nat): (dates: seq<Date>)
    ensures |dates| <= |records|
    ensures forall d :: d in dates <==> exists x :: x in records && Value(x, m) == v && x.date == d
  {
    if |records| == 0 then []
    else
      var rest := DatesWith(records[1..], m, v);
      assert records == [records[0]] + records[1..];
      (if Value(records[0], m) == v then [records[0].date] else []) + rest
  }

  /** A figure of a month and the days on which it occurred. */
  datatype Figure = Figure(value: nat, days: seq<Date>)

  /**
   The figure of the "highest" lines: the record that ranks first by
   `rankBy`, then the value of `reported` on it and the days with that value.
   */
  function HighestFigure(group: seq<Record>, rankBy: Metric, reported: Metric): (f: Figure)
    requires |group| > 0
    ensures exists i :: IsFirstMax(group, rankBy, i) && f.value == Value(group[i], reported)
    ensures f.days == DatesWith(group, reported, f.value) && |f.days| > 0
  {
    var top := FindRecordWithHighest(group, rankBy).value;
    var days := DatesWith(group, reported, Value(top, reported));
    assert top.date in days;
    Figure(Value(top, reported), days)
  }

  /**
   The figure of the "lowest" lines: the least value of `m` among the
   month's records dated on or after the first positive test of the whole
   collection. None when the collection has no positive test or the month
   no record from that date on; the handler then prints the placeholder.
   */
  function LowestFigure(records: seq<Record>, group: seq<Record>, m: Metric): (f: Option<Figure>)
    ensures f.Some? <==> (HasPositive(records)
      && exists x :: x in group && OnOrAfter(x.date, FindDayOfFirstPositiveTest(records).value))
    ensures f.Some? ==> var since := FindDayOfFirstPositiveTest(records).value;
      && (exists x :: x in group && OnOrAfter(x.date, since) && Value(x, m) == f.value.value)
      && (forall x :: x in group && OnOrAfter(x.date, since) ==> f.value.value <= Value(x, m))
    ensures f.Some? ==> f.value.days == DatesWith(group, m, f.value.value)
  {
    match FindDayOfFirstPositiveTest(records)
    case Err(_) => None
    case Ok(since) =>
      match FindRecordWithLowest(group, m, since)
      case Err(_) => None
      case Ok(low) => Some(Figure(Value(low, m), DatesWith(group, m, Value(low, m))))
  }

  /** A figure line, or the placeholder with no days when there is no figure. */
  function FigureLine(title: string, f: Option<Figure>, nl: string): string {
    match f
    case Some(Figure(v, days)) =>
      LineForValueAndDaysOfMonth(title, FormatIntegerAsFormattedString(v), ListOfDaysWithOrdinals(days), nl)
    case None => LineForValueAndDaysOfMonth(title, NoPositiveData(nl), "", nl)
  }

  /**
   `getAveragePositiveTests` / `getAverageTotalTests`: the average over the
   month's records from the month's own first positive test on (the date
   passed in is ignored by the statistics), or the placeholder.
   */
  function AverageText(group: seq<Record>, m: Metric, env: Env): (text: string)
    ensures !HasPositive(group) ==> text == NoPositiveData(env.nl)
    ensures HasPositive(group) ==> exists avg ::
      IsMean(avg, Sum(SinceFirstPositive(group).value, m), |SinceFirstPositive(group).value|)
      && text == env.averageText(avg)
  {
    match FindAverageSinceFirstPositiveTest(group, m)
    case Ok(avg) => env.averageText(avg)
    case Err(_) => NoPositiveData(env.nl)
  }

  /**
   `getDataForTheMonthGroup`: the heading with the number of records, then
   highest and lowest positives, highest and lowest totals, and the two
   averages. The highest-positives line ranks the month's records by deaths
   (`FindRecordWithHighestDeaths`) and reports that record's positives.
   */
  function MonthReport(records: seq<Record>, group: seq<Record>, m: Month, env: Env): (text: string)
    requires |group| > 0 && ValidMonth(m)
    ensures MonthHeading(m, |group|, env.nl) <= text
    ensures text == MonthHeading(m, |group|, env.nl)
      + FigureLine(HighestPositiveTestsLabel, Some(HighestFigure(group, Deaths, PositiveTests)), env.nl)
      + FigureLine(LowestPositiveTestsLabel, LowestFigure(records, group, PositiveTests), env.nl)
      + FigureLine(HighestTotalTestsLabel, Some(HighestFigure(group, TotalTests, TotalTests)), env.nl)
      + FigureLine(LowestTotalTestsLabel, LowestFigure(records, group, TotalTests), env.nl)
      + LineForValue(AveragePositiveTestsLabel, AverageText(group, PositiveTests, env), env.nl)
      + LineForValue(AverageTotalTestsLabel, AverageText(group, TotalTests, env), env.nl)
  {
    var nl := env.nl;
    var heading := MonthHeading(m, |group|, nl);
    var highestPositives := FigureLine(HighestPositiveTestsLabel, Some(HighestFigure(group, Deaths, PositiveTests)), nl);
    var lowestPositives := FigureLine(LowestPositiveTestsLabel, LowestFigure(records, group, PositiveTests), nl);
    var highestTotals := FigureLine(HighestTotalTestsLabel, Some(HighestFigure(group, TotalTests, TotalTests)), nl);
    var lowestTotals := FigureLine(LowestTotalTestsLabel, LowestFigure(records, group, TotalTests), nl);
    var averagePositives := LineForValue(AveragePositiveTestsLabel, AverageText(group, PositiveTests, env), nl);
    var averageTotals := LineForValue(AverageTotalTestsLabel, AverageText(group, TotalTests, env), nl);
    HeadingFirst(heading, highestPositives, lowestPositives, highestTotals, lowestTotals, averagePositives, averageTotals);
    heading + highestPositives + lowestPositives + highestTotals + lowestTotals + averagePositives + averageTotals
  }

  lemma {:induction false} HeadingFirst(h: string, x1: string, x2: string, x3: string, x4: string, x5: string, x6: string)
    ensures h <= h + x1 + x2 + x3 + x4 + x5 + x6
    ensures h + x1 <= h + x1 + x2 + x3 + x4 + x5 + x6
  {
    var text := h + x1 + x2 + x3 + x4 + x5 + x6;
    assert text[..|h|] == h;
    assert text[..|h + x1|] == h + x1;
  }

  /**
   A month's report opens with its heading and then the positives of the
   first record with the most deaths, with the days those positives occurred.
   */
  lemma {:induction false} MonthReportOpensWithDeathsRanking(records: seq<Record>, group: seq<Record>, m: Month, env: Env)
      returns (i: nat)
    requires |group| > 0 && ValidMonth(m)
    ensures IsFirstMax(group, Deaths, i)
    ensures var v := Value(group[i], PositiveTests);
      MonthHeading(m, |group|, env.nl)
      + FigureLine(HighestPositiveTestsLabel, Some(Figure(v, DatesWith(group, PositiveTests, v))), env.nl)
      <= MonthReport(records, group, m, env)
  {
    var nl := env.nl;
    var f := HighestFigure(group, Deaths, PositiveTests);
    i :| IsFirstMax(group, Deaths, i) && f.value == Value(group[i], PositiveTests);
    assert f == Figure(Value(group[i], PositiveTests), DatesWith(group, PositiveTests, Value(group[i], PositiveTests)));
    HeadingFirst(MonthHeading(m, |group|, nl),
      FigureLine(HighestPositiveTestsLabel, Some(f), nl),
      FigureLine(LowestPositiveTestsLabel, LowestFigure(records, group, PositiveTests), nl),
      FigureLine(HighestTotalTestsLabel, Some(HighestFigure(group, TotalTests, TotalTests)), nl),
      FigureLine(LowestTotalTestsLabel, LowestFigure(records, group, TotalTests), nl),
      LineForValue(AveragePositiveTestsLabel, AverageText(group, PositiveTests, env), nl),
      LineForValue(AverageTotalTestsLabel, AverageText(group, TotalTests, env), nl));
  }

  /** One pass of the loop in `getTotalMonthData`: a month without data gets only a heading. */
  function Section(records: seq<Record>, sorted: seq<Record>, m: Month, env: Env): (text: string)
    requires ValidMonth(m)
    ensures var group := InMonth(sorted, m);
      |group| > 0 ==> text == MonthReport(records, group, m, env)
    ensures |InMonth(sorted, m)| == 0 ==> text == MonthHeading(m, 0, env.nl)
    ensures MonthHeading(m, |InMonth(sorted, m)|, env.nl) <= text
  {
    var months := DistinctMonths(sorted);
    if m !in months then MonthHeading(m, 0, env.nl)
    else
      var x :| x in sorted && MonthOf(x.date) == m;
      assert x in InMonth(sorted, m);
      MonthReport(records, InMonth(sorted, m), m, env)
  }

  /** The sections of the months in `range`, concatenated. */
  function Sections(records: seq<Record>, sorted: seq<Record>, range: seq<Month>, env: Env): string
    requires forall k :: 0 <= k < |range| ==> ValidMonth(range[k])
  {
    if |range| == 0 then ""
    else Section(records, sorted, range[0], env) + Sections(records, sorted, range[1..], env)
  }

  /** Every month of the data is a valid month. */
  lemma {:induction false} DistinctMonthValid(records: seq<Record>, k: nat)
    requires k < |DistinctMonths(records)|
    ensures ValidMonth(DistinctMonths(records)[k])
  {
    var m := DistinctMonths(records)[k];
    assert m in DistinctMonths(records);
    var a :| a in records && MonthOf(a.date) == m;
    MonthOfValid(a.date);
  }

  /** The position of a record's month among the months of the data. */
  lemma {:induction false} DistinctMonthIndex(records: seq<Record>, x: Record) returns (k: nat)
    requires x in records
    ensures k < |DistinctMonths(records)| && DistinctMonths(records)[k] == MonthOf(x.date)
  {
    assert MonthOf(x.date) in DistinctMonths(records);
    k :| k < |DistinctMonths(records)| && DistinctMonths(records)[k] == MonthOf(x.date);
  }

  lemma {:induction false} AscendingBetween(months: seq<Month>, k: nat)
    requires StrictlyAscending(months) && k < |months|
    ensures MonthNumber(months[0]) <= MonthNumber(months[k]) <= MonthNumber(months[|months| - 1])
  {
    if 0 < k {
      assert MonthNumber(months[0]) < MonthNumber(months[k]);
    }
    if k < |months| - 1 {
      assert MonthNumber(months[k]) < MonthNumber(months[|months| - 1]);
    }
  }

  /** The first and last month of records in date order. */
  lemma {:induction false} MonthBounds(sorted: seq<Record>)
    requires ByDate(sorted) && |DistinctMonths(sorted)| > 0
    ensures var months := DistinctMonths(sorted);
      && ValidMonth(months[0]) && ValidMonth(months[|months| - 1])
      && MonthNumber(months[0]) <= MonthNumber(months[|months| - 1])
      && forall x :: x in sorted ==>
           MonthNumber(months[0]) <= MonthNumber(MonthOf(x.date)) <= MonthNumber(months[|months| - 1])
  {
    var months := DistinctMonths(sorted);
    DistinctMonthsAscend(sorted);
    DistinctMonthValid(sorted, 0);
    DistinctMonthValid(sorted, |months| - 1);
    AscendingBetween(months, |months| - 1);
    forall x | x in sorted
      ensures MonthNumber(months[0]) <= MonthNumber(MonthOf(x.date)) <= MonthNumber(months[|months| - 1])
    {
      var k := DistinctMonthIndex(sorted, x);
      AscendingBetween(months, k);
    }
  }

  lemma {:induction false} SomeRecordSomeMonth(records: seq<Record>)
    ensures |records| > 0 ==> |DistinctMonths(records)| > 0
  {
    if |records| > 0 {
      assert records[0] in records;
    }
  }

  /** The months the summary walks: from the first month of the data to the last. */
  function SummaryMonths(sorted: seq<Record>): (range: seq<Month>)
    requires ByDate(sorted) && |sorted| > 0
    ensures forall k :: 0 <= k < |range| ==> ValidMonth(range[k])
  {
    var months := DistinctMonths(sorted);
    SomeRecordSomeMonth(sorted);
    MonthBounds(sorted);
    MonthsWithinData(months[0], months[|months| - 1])
  }

  /**
   `getTotalMonthData`: a section for every month from the first month of
   the data to the last. With no records `First()` raises.
   */
  function TotalMonthData(records: seq<Record>, sorted: seq<Record>, env: Env): (r: Result<string>)
    requires ByDate(sorted)
    ensures r.Err? <==> |sorted| == 0
    ensures r.Err? ==> r.failure == NoData
    ensures r.Ok? ==> r.value == Sections(records, sorted, SummaryMonths(sorted), env)
  {
    var months := DistinctMonths(sorted);
    if |months| == 0 then
      SomeRecordSomeMonth(sorted);
      Err(NoData)
    else
      Ok(Sections(records, sorted, SummaryMonths(sorted), env))
  }

  /** `GenerateMonthlySummary`. */
  function GenerateMonthlySummary(records: seq<Record>, env: Env): (r: Result<string>)
    ensures r.Err? <==> |records| == 0
    ensures r.Err? ==> r.failure == NoData
    ensures r.Ok? ==> var sorted := SortedListByMonth(records);
      r.value == Sections(records, sorted, SummaryMonths(sorted), env)
  {
    TotalMonthData(records, SortedListByMonth(records), env)
  }

  /** The months of the summary: consecutive, from the first month of the data to the last. */
  lemma {:induction false} SummaryMonthsSpan(sorted: seq<Record>)
    requires ByDate(sorted) && |sorted| > 0
    ensures var range := SummaryMonths(sorted);
      && StrictlyAscending(range)
      && (forall k :: 0 <= k < |range| - 1 ==> MonthNumber(range[k + 1]) == MonthNumber(range[k]) + 1)
      && (forall x :: x in sorted ==> MonthOf(x.date) in range)
      && (exists x :: x in sorted && MonthOf(x.date) == range[0])
      && (exists x :: x in sorted && MonthOf(x.date) == range[|range| - 1])
  {
    var months := DistinctMonths(sorted);
    SomeRecordSomeMonth(sorted);
    MonthBounds(sorted);
    var first, last := months[0], months[|months| - 1];
    var range := SummaryMonths(sorted);
    MonthsWithinDataSpan(first, last);
    forall x | x in sorted
      ensures MonthOf(x.date) in range
    {
      MonthOfValid(x.date);
    }
    assert first in months && last in months;
  }

  /** The day counts of the headings of `range`, added up. */
  function DaysInHeadings(sorted: seq<Record>, range: seq<Month>): nat {
    if |range| == 0 then 0 else |InMonth(sorted, range[0])| + DaysInHeadings(sorted, range[1..])
  }

  /** How many times `m` occurs in `range`. */
  function Occurrences(range: seq<Month>, m: Month): nat {
    if |range| == 0 then 0 else (if range[0] == m then 1 else 0) + Occurrences(range[1..], m)
  }

  lemma {:induction false} DaysInHeadingsCons(x: Record, rest: seq<Record>, range: seq<Month>)
    ensures DaysInHeadings([x] + rest, range) == Occurrences(range, MonthOf(x.date)) + DaysInHeadings(rest, range)
  {
    if |range| > 0 {
      assert ([x] + rest)[1..] == rest;
      DaysInHeadingsCons(x, rest, range[1..]);
    }
  }

  lemma {:induction false} OccursOnce(range: seq<Month>, m: Month)
    requires StrictlyAscending(range) && m in range
    ensures Occurrences(range, m) == 1
  {
    if range[0] == m {
      OccursNever(range[1..], m);
    } else {
      OccursOnce(range[1..], m);
    }
  }

  lemma {:induction false} OccursNever(range: seq<Month>, m: Month)
    requires m !in range
    ensures Occurrences(range, m) == 0
  {
    if |range| > 0 {
      OccursNever(range[1..], m);
    }
  }

  /** When every record's month appears once in `range`, the headings count every record once. */
  lemma {:induction false} DaysAddUp(sorted: seq<Record>, range: seq<Month>)
    requires StrictlyAscending(range)
    requires forall x :: x in sorted ==> MonthOf(x.date) in range
    ensures DaysInHeadings(sorted, range) == |sorted|
  {
    if |sorted| == 0 {
      NoDays(range);
    } else {
      var x, rest := sorted[0], sorted[1..];
      assert sorted == [x] + rest;
      DaysAddUp(rest, range);
      DaysInHeadingsCons(x, rest, range);
      OccursOnce(range, MonthOf(x.date));
    }
  }

  lemma {:induction false} NoDays(range: seq<Month>)
    ensures DaysInHeadings([], range) == 0
  {
    if |range| > 0 {
      NoDays(range[1..]);
    }
  }

  /** The headings of the monthly summary account for every record it summarises, once. */
  lemma {:induction false} SummaryCountsEveryRecord(records: seq<Record>)
    requires |records| > 0
    ensures var sorted := SortedListByMonth(records);
      DaysInHeadings(sorted, SummaryMonths(sorted)) == |sorted|
  {
    var sorted := SortedListByMonth(records);
    SummaryMonthsSpan(sorted);
    DaysAddUp(sorted, SummaryMonths(sorted));
  }

  /**
   Every month section of a collection with a positive test reports real
   lowest figures: the records summarised all date from the first positive
   test on, so the placeholder never appears on those lines.
   */
  lemma {:induction false} LowestFiguresPresent(records: seq<Record>, m: Month, metric: Metric)
    requires HasPositive(records)
    requires |InMonth(SortedListByMonth(records), m)| > 0
    ensures LowestFigure(records, InMonth(SortedListByMonth(records), m), metric).Some?
  {
    var sorted := SortedListByMonth(records);
    var group := InMonth(sorted, m);
    var first := FindDayOfFirstPositiveTest(records).value;
    var x := group[0];
    assert x in group;
    assert x in multiset(sorted);
    assert x in SinceFirstPositive(records).value;
    assert SinceFirstPositive(records).value == Since(records, first);
  }

  /**
   The highest-positives line reports the positives of the record with the
   most deaths: a month of {1 positive, 5 deaths} and {9 positives, 0
   deaths} reports 1, not 9.
   */
  lemma {:induction false} HighestPositivesFollowDeaths()
    ensures var a := Record(YearMonthDay(2020, 6, 1), "GA", 1, 0, 5, 0, 0);
      var b := Record(YearMonthDay(2020, 6, 2), "GA", 9, 0, 0, 0, 0);
      HighestFigure([a, b], Deaths, PositiveTests).value == 1
  {
    var a := Record(YearMonthDay(2020, 6, 1), "GA", 1, 0, 5, 0, 0);
    var b := Record(YearMonthDay(2020, 6, 2), "GA", 9, 0, 0, 0, 0);
    var f := HighestFigure([a, b], Deaths, PositiveTests);
    var i :| IsFirstMax([a, b], Deaths, i) && f.value == Value([a, b][i], PositiveTests);
    assert i == 0;
  }
}

=== FILE: months.dfy ===
/**
 Calendar months as the monthly summary walks them: the months present in
 the data, and every month from the first of them to the last, gaps
 included (`getMonthYearsWithinCovidData`).
 */
module Months {
  import opened Calendar
  import opened Records
  import opened DateOrder

  predicate ValidMonth(m: Month) {
    m.year >= 0 && 1 <= m.month <= 12
  }

  /** The month `n` months after January of year 0. */
  function MonthFromNumber(n: nat): (m: Month)
    ensures ValidMonth(m) && MonthNumber(m) == n
  {
    Month(n / 12, n % 12 + 1)
  }

  lemma {:induction false} MonthNumberInjective(a: Month, b: Month)
    requires ValidMonth(a) && ValidMonth(b)
    ensures MonthNumber(a) == MonthNumber(b) ==> a == b
  {
  }

  lemma {:induction false} MonthOfValid(d: Date)
    ensures ValidMonth(MonthOf(d))
  {
  }

  /** A later date never falls in an earlier month. */
  lemma {:induction false} MonthOfMonotone(a: Date, b: Date)
    requires OnOrAfter(a, b)
    ensures MonthNumber(MonthOf(a)) >= MonthNumber(MonthOf(b))
  {
  }

  /**
   The loop of `getMonthYearsWithinCovidData`: the counter runs from `c` up
   to `monthsToCover`; a counter divisible by 12 stands for December and
   moves on to the next year.
   */
  function MonthsLoop(c: int, monthsToCover: int, year: int): seq<Month>
    decreases if monthsToCover - c + 1 > 0 then monthsToCover - c + 1 else 0
  {
    if c > monthsToCover then []
    else if c % 12 == 0 then [Month(year, 12)] + MonthsLoop(c + 1, monthsToCover, year + 1)
    else [Month(year, c % 12)] + MonthsLoop(c + 1, monthsToCover, year)
  }

  /** The year the loop continues with after counter `c`. */
  function NextYear(c: int, year: nat): nat {
    if c % 12 == 0 then year + 1 else year
  }

  /** The month counter `c` yields, and where the following counter starts. */
  lemma {:induction false} LoopHead(c: int, year: nat)
    requires c >= 1
    ensures (if c % 12 == 0 then Month(year, 12) else Month(year, c % 12)) == MonthFromNumber(12 * year + (c - 1) % 12)
    ensures 12 * NextYear(c, year) + c % 12 == 12 * year + (c - 1) % 12 + 1
  {
    var base := 12 * year + (c - 1) % 12;
    if c % 12 == 0 {
      assert (c - 1) % 12 == 11;
      MonthNumberInjective(Month(year, 12), MonthFromNumber(base));
    } else {
      assert (c - 1) % 12 == c % 12 - 1;
      MonthNumberInjective(Month(year, c % 12), MonthFromNumber(base));
    }
  }

  /** Each step of the loop yields the month after the previous one. */
  lemma {:induction false} MonthsLoopConsecutive(c: int, monthsToCover: int, year: nat)
    requires c >= 1
    ensures var months := MonthsLoop(c, monthsToCover, year);
      && |months| == (if monthsToCover - c + 1 > 0 then monthsToCover - c + 1 else 0)
      && forall k :: 0 <= k < |months| ==> months[k] == MonthFromNumber(12 * year + (c - 1) % 12 + k)
    decreases if monthsToCover - c + 1 > 0 then monthsToCover - c + 1 else 0
  {
    if c <= monthsToCover {
      var months := MonthsLoop(c, monthsToCover, year);
      var base := 12 * year + (c - 1) % 12;
      var rest := MonthsLoop(c + 1, monthsToCover, NextYear(c, year));
      MonthsLoopConsecutive(c + 1, monthsToCover, NextYear(c, year));
      LoopHead(c, year);
      assert months == [months[0]] + rest;
      forall k | 0 <= k < |months|
        ensures months[k] == MonthFromNumber(base + k)
      {
        if k > 0 {
          assert months[k] == rest[k - 1];
        }
      }
    }
  }

  /**
   `getMonthYearsWithinCovidData(months)` for a first month `first` and a
   last month `last`. The list is already ascending, so the closing
   `Sort()` leaves it as it is.
   */
  function MonthsWithinData(first: Month, last: Month): (range: seq<Month>)
    requires ValidMonth(first) && ValidMonth(last)
    requires MonthNumber(first) <= MonthNumber(last)
    ensures |range| == 12 * (last.year - first.year) + last.month - first.month + 1
    ensures forall k :: 0 <= k < |range| ==> range[k] == MonthFromNumber(MonthNumber(first) + k)
  {
    MonthsLoopConsecutive(first.month, last.month + 12 * (last.year - first.year), first.year);
    MonthsLoop(first.month, last.month + 12 * (last.year - first.year), first.year)
  }

  /** The range runs from the first month to the last, each month once and in order. */
  lemma {:induction false} MonthsWithinDataSpan(first: Month, last: Month)
    requires ValidMonth(first) && ValidMonth(last)
    requires MonthNumber(first) <= MonthNumber(last)
    ensures var range := MonthsWithinData(first, last);
      && range[0] == first && range[|range| - 1] == last
      && StrictlyAscending(range)
      && (forall m :: ValidMonth(m) && MonthNumber(first) <= MonthNumber(m) <= MonthNumber(last) ==> m in range)
  {
    var range := MonthsWithinData(first, last);
    MonthNumberInjective(range[0], first);
    MonthNumberInjective(range[|range| - 1], last);
    forall m | ValidMonth(m) && MonthNumber(first) <= MonthNumber(m) <= MonthNumber(last)
      ensures m in range
    {
      var k := MonthNumber(m) - MonthNumber(first);
      MonthNumberInjective(range[k], m);
    }
  }

  /** `Select(month).Distinct()`: each month once, in order of first appearance. */
  function DistinctMonths(records: seq<Record>): (months: seq<Month>)
    ensures forall m :: m in months <==> exists x :: x in records && MonthOf(x.date) == m
    ensures forall i, j :: 0 <= i < j < |months| ==> months[i] != months[j]
  {
    if |records| == 0 then []
    else
      var init := records[..|records| - 1];
      var last := records[|records| - 1];
      var earlier := DistinctMonths(init);
      assert records == init + [last];
      if MonthOf(last.date) in earlier then earlier else earlier + [MonthOf(last.date)]
  }

  predicate StrictlyAscending(months: seq<Month>) {
    forall i, j :: 0 <= i < j < |months| ==> MonthNumber(months[i]) < MonthNumber(months[j])
  }

  lemma {:induction false} AppendAscending(months: seq<Month>, m: Month)
    requires StrictlyAscending(months)
    requires forall i :: 0 <= i < |months| ==> MonthNumber(months[i]) < MonthNumber(m)
    ensures StrictlyAscending(months + [m])
  {
    var longer := months + [m];
    forall i, j | 0 <= i < j < |longer|
      ensures MonthNumber(longer[i]) < MonthNumber(longer[j])
    {
      if j < |months| {
        assert longer[i] == months[i] && longer[j] == months[j];
      }
    }
  }

  /** Over records in date order the distinct months ascend strictly. */
  lemma {:induction false} DistinctMonthsAscend(records: seq<Record>)
    requires ByDate(records)
    ensures StrictlyAscending(DistinctMonths(records))
  {
    if |records| > 0 {
      var init := records[..|records| - 1];
      var last := records[|records| - 1];
      DistinctMonthsAscend(init);
      var earlier := DistinctMonths(init);
      if MonthOf(last.date) !in earlier {
        forall i | 0 <= i < |earlier|
          ensures MonthNumber(earlier[i]) < MonthNumber(MonthOf(last.date))
        {
          assert earlier[i] in earlier;
          var x :| x in init && MonthOf(x.date) == earlier[i];
          var j :| 0 <= j < |init| && init[j] == x;
          assert records[j] == x;
          MonthOfMonotone(last.date, x.date);
          MonthOfValid(x.date);
          MonthOfValid(last.date);
          MonthNumberInjective(earlier[i], MonthOf(last.date));
        }
        AppendAscending(earlier, MonthOf(last.date));
        assert DistinctMonths(records) == earlier + [MonthOf(last.date)];
      } else {
        assert DistinctMonths(records) == earlier;
      }
    }
  }

  /** The records of month `m`, in their order: one group of `GroupBy(month)`. */
  function InMonth(records: seq<Record>, m: Month): (group: seq<Record>)
    ensures forall x :: x in group <==> x in records && MonthOf(x.date) == m
    ensures |group| <= |records|
  {
    if |records| == 0 then []
    else (if MonthOf(records[0].date) == m then [records[0]] else []) + InMonth(records[1..], m)
  }
}

=== FILE: outcomes.dfy ===
/**
 Failure-carrying datatypes shared by the whole model.

 The C# code signals failure with exceptions; the model returns them as values.
 The four `Failure` kinds group the .NET exception types the core can raise by
 what a caller can tell apart:
 - NoData:          InvalidOperationException, raised by LINQ `First()` or
                    `Average()` over an empty sequence;
 - InvalidArgument: ArgumentException and its subtypes (ArgumentNullException,
                    ArgumentOutOfRangeException);
 - ParseAbort:      FormatException / OverflowException raised by `int.Parse`;
 - Fault:           NullReferenceException, DivideByZeroException and
                    IndexOutOfRangeException, i.e. programming faults.
 */
module Outcomes {

  datatype Failure = NoData | InvalidArgument | ParseAbort | Fault

  /** A nullable value: `None` stands for a C# `null` reference. */
  datatype Option<+T> = None | Some(value: T)

  /** The value of a call, or the exception it raised. */
  datatype Result<+T> = Ok(value: T) | Err(failure: Failure) {

    predicate IsFailure() {
      Err?
    }

    function PropagateFailure<U>(): Result<U>
      requires Err?
    {
      Err(failure)
    }

    function Extract(): T
      requires Ok?
    {
      value
    }
  }
}

=== FILE: parser.dfy ===
/**
 `CovidCsvParser`: turns the text of a CSV file into a key-unique sequence of
 records and an error log with one entry per rejected data line.

 The parse of one batch is modelled as a left fold over the data lines. Its
 result is characterised, in `ProcessedLinesCharacterised`, against a
 definition that looks at each line on its own: a line is kept exactly when it
 yields a record and no earlier line yielded a record with the same key.
 */
module CsvParser {
  import opened Outcomes
  import opened Text
  import opened Calendar
  import opened Host
  import opened Assets
  import opened FormatValidator
  import opened Format
  import opened Records
  import opened ErrorLogs

  /**
   `breakDownTextContent`: remove every '\r', split on '\n', drop the last
   piece once if it is empty, then drop the first piece as the header. When
   no piece is left, removing the header raises ArgumentOutOfRangeException.
   */
  function BreakDownTextContent(text: string): (r: Result<seq<string>>)
    ensures r.Err? <==> Remove(text, '\r') == ""
    ensures r.Err? ==> r.failure == InvalidArgument
    ensures r.Ok? ==> forall k :: 0 <= k < |r.value| ==> '\n' !in r.value[k]
  {
    var pieces := Split(Remove(text, '\r'), '\n');
    var kept := if pieces[|pieces| - 1] == "" then pieces[..|pieces| - 1] else pieces;
    if |kept| == 0 then Err(InvalidArgument) else Ok(kept[1..])
  }

  /**
   A header and data lines, each ended by a standard line break, break down
   into exactly the data lines; an empty text has no header to drop.
   */
  lemma {:induction false} BreakDownTerminatedLines(header: string, lines: seq<string>, nl: string)
    requires StandardNewline(nl)
    requires '\r' !in header && '\n' !in header
    requires forall k :: 0 <= k < |lines| ==> '\r' !in lines[k] && '\n' !in lines[k]
    ensures BreakDownTextContent(TerminatedLines([header] + lines, nl)) == Ok(lines)
    ensures BreakDownTextContent("") == Err(InvalidArgument)
  {
    var all := [header] + lines;
    assert all[1..] == lines;
    RemoveTerminatedLines(all, nl);
    SplitTerminatedLines(all);
    assert (all + [""])[..|all|] == all;
  }

  predicate NumericFieldsValid(fields: seq<string>) {
    forall k :: ColumnStartOfNumericData <= k < |fields| ==> IsNumericStringValid(Some(fields[k]))
  }

  /** The fields of a line that `doesRecordHaveNoErrors` accepts. */
  predicate WellFormedFields(fields: seq<string>) {
    && |fields| == NumberOfFields
    && IsDateStringValid(Some(fields[ColumnNumberForDate]))
    && IsStateLabelValid(Some(fields[ColumnNumberForState]))
    && NumericFieldsValid(fields)
  }

  /**
   `doesRecordHaveNoErrors`, with its loop over the numeric columns that
   stops at the first invalid field.
   */
  method DoesRecordHaveNoErrors(fields: seq<string>) returns (ok: bool)
    ensures ok <==> WellFormedFields(fields)
  {
    if |fields| != NumberOfFields {
      return false;
    }
    var isDateValid := IsDateStringValid(Some(fields[ColumnNumberForDate]));
    var isStateValid := IsStateLabelValid(Some(fields[ColumnNumberForState]));
    var areNumericFieldsValid := true;
    var index := ColumnStartOfNumericData;
    while index < |fields|
      invariant ColumnStartOfNumericData <= index <= |fields|
      invariant areNumericFieldsValid
      invariant forall k :: ColumnStartOfNumericData <= k < index ==> IsNumericStringValid(Some(fields[k]))
    {
      areNumericFieldsValid := IsNumericStringValid(Some(fields[index]));
      if !areNumericFieldsValid {
        break;
      }
      index := index + 1;
    }
    ok := isDateValid && isStateValid && areNumericFieldsValid;
  }

  /**
   The counter read from column `column`, where a column past the sixth
   raises IndexOutOfRangeException.
   */
  function ReadCounter(fields: seq<string>, column: nat): (r: Result<nat>)
    requires |fields| == NumberOfFields
    ensures column >= NumberOfFields ==> r == Err(Fault)
    ensures column < NumberOfFields ==> r == FormatStringToInteger(Some(fields[column]))
  {
    if column < |fields| then FormatStringToInteger(Some(fields[column])) else Err(Fault)
  }

  /**
   The record a well-formed line yields, its fields read in the order the
   object initialiser of `createCovidRecord` evaluates them.
   */
  function BuildRecord(fields: seq<string>, env: Env): (r: Result<Record>)
    requires WellFormedFields(fields)
    ensures r.Err? && 2 <= env.hospitalizedCurrentlyColumn < NumberOfFields ==> r.failure == ParseAbort
    ensures r.Err? ==> r.failure != NoData
    ensures r.Ok? ==>
      && Compact(r.value.date) == fields[ColumnNumberForDate]
      && r.value.state == Upper(fields[ColumnNumberForState])
      && FormatStringToInteger(Some(fields[ColumnNumberForPositives])) == Ok(r.value.positive)
      && FormatStringToInteger(Some(fields[ColumnNumberForNegatives])) == Ok(r.value.negative)
      && FormatStringToInteger(Some(fields[ColumnNumberForDeaths])) == Ok(r.value.deaths)
      && FormatStringToInteger(Some(fields[ColumnNumberForHospitalizations])) == Ok(r.value.hospitalizations)
      && ReadCounter(fields, env.hospitalizedCurrentlyColumn) == Ok(r.value.hospitalizedCurrently)
  {
    var date := FormatAsDateTime(Some(fields[ColumnNumberForDate])).value;
    var blank := NewRecord(date, Some(fields[ColumnNumberForState])).value;
    var positive :- FormatStringToInteger(Some(fields[ColumnNumberForPositives]));
    var negative :- FormatStringToInteger(Some(fields[ColumnNumberForNegatives]));
    var current :- ReadCounter(fields, env.hospitalizedCurrentlyColumn);
    var hospitalizations :- FormatStringToInteger(Some(fields[ColumnNumberForHospitalizations]));
    var deaths :- FormatStringToInteger(Some(fields[ColumnNumberForDeaths]));
    Ok(blank.(positive := positive, negative := negative, hospitalizedCurrently := current,
              hospitalizations := hospitalizations, deaths := deaths))
  }

  /**
   `createCovidRecord`: `None` (the C# `null`) for a malformed line, otherwise
   the record the line's fields make. A field that passes validation but not
   `int.Parse` raises out of the whole batch.
   */
  function CreateCovidRecord(line: string, env: Env): (r: Result<Option<Record>>)
    ensures r == Ok(None) <==> !WellFormedFields(Split(line, ','))
    ensures WellFormedFields(Split(line, ',')) ==>
      r == match BuildRecord(Split(line, ','), env) case Ok(rec) => Ok(Some(rec)) case Err(f) => Err(f)
  {
    var fields := Split(line, ',');
    if !WellFormedFields(fields) then Ok(None)
    else
      var rec :- BuildRecord(fields, env);
      Ok(Some(rec))
  }

  /** How a batch turns one data line into a record, a rejection (`None`) or an exception. */
  type Converter = string -> Result<Option<Record>>

  /** The state of one batch: records so far, the error text, and the exception that ended it, if any. */
  datatype Parsed = Parsed(records: seq<Record>, log: string, aborted: Option<Failure>)

  /**
   `setCovidDataCollection`: a malformed line, or one whose key is already in
   the batch, is logged under its line number; any other record is appended.
   */
  function SetCovidDataCollection(p: Parsed, line: string, lineNumber: int, nl: string, convert: Converter): (q: Parsed)
    requires p.aborted.None?
    ensures KeyUnique(p.records) ==> KeyUnique(q.records)
    ensures q.aborted.None? ==> |q.records| + |q.log| > |p.records| + |p.log|
  {
    match convert(line)
    case Err(f) => p.(aborted := Some(f))
    case Ok(None) => p.(log := p.log + ErrorEntry(lineNumber, line, nl))
    case Ok(Some(r)) =>
      if ContainsKey(p.records, r) then p.(log := p.log + ErrorEntry(lineNumber, line, nl))
      else
        KeyUniqueAppendIfUnique(p.records, r);
        p.(records := p.records + [r])
  }

  /** The line number `GenerateCovidDataCollection` gives the data line at index `i`. */
  function LineNumber(i: nat): nat {
    BeginningRowNumber + i
  }

  /**
   The loop of `GenerateCovidDataCollection` over the first `n` data lines;
   an exception ends it and leaves what was gathered so far.
   */
  function ProcessLines(lines: seq<string>, n: nat, nl: string, convert: Converter): (p: Parsed)
    requires n <= |lines|
    ensures KeyUnique(p.records)
  {
    if n == 0 then Parsed([], "", None)
    else
      var p := ProcessLines(lines, n - 1, nl, convert);
      if p.aborted.Some? then p
      else SetCovidDataCollection(p, lines[n - 1], LineNumber(n - 1), nl, convert)
  }

  lemma {:induction false} KeyUniqueAppendIfUnique(records: seq<Record>, r: Record)
    requires !ContainsKey(records, r)
    ensures KeyUnique(records) ==> KeyUnique(records + [r])
  {
    var s := records + [r];
    if KeyUnique(records) {
      forall i, j | 0 <= i < j < |s|
        ensures !SameKey(s[i], s[j])
      {
        if j == |records| {
          assert !SameKey(records[i], r);
        }
      }
    }
  }

  /** The conversion the parser applies to each line. */
  function LineConverter(env: Env): Converter {
    line => CreateCovidRecord(line, env)
  }

  /** `GenerateCovidDataCollection` on the whole text. */
  function GenerateCovidDataCollection(text: string, env: Env): (p: Parsed)
    ensures KeyUnique(p.records)
    ensures Remove(text, '\r') == "" ==> p == Parsed([], "", Some(InvalidArgument))
  {
    match BreakDownTextContent(text)
    case Err(f) => Parsed([], "", Some(f))
    case Ok(lines) => ProcessLines(lines, |lines|, env.nl, LineConverter(env))
  }

  // ----- An independent description of the batch -----

  /** The record a line yields on its own, if it yields one. */
  function Candidate(line: string, convert: Converter): Option<Record> {
    match convert(line)
    case Ok(Some(r)) => Some(r)
    case _ => None
  }

  /** Line `i` yields a record and no earlier line yields one with the same key. */
  predicate FirstOfKey(lines: seq<string>, i: nat, convert: Converter)
    requires i < |lines|
  {
    && Candidate(lines[i], convert).Some?
    && forall j :: 0 <= j < i && Candidate(lines[j], convert).Some? ==>
         !SameKey(Candidate(lines[j], convert).value, Candidate(lines[i], convert).value)
  }

  /** The records of the lines among the first `n` that are first of their key, in order. */
  function Kept(lines: seq<string>, n: nat, convert: Converter): seq<Record>
    requires n <= |lines|
  {
    if n == 0 then []
    else Kept(lines, n - 1, convert) + (if FirstOfKey(lines, n - 1, convert) then [Candidate(lines[n - 1], convert).value] else [])
  }

  /** The numbered lines among the first `n` that are not first of their key, in order. */
  function Logged(lines: seq<string>, n: nat, convert: Converter): seq<(int, string)>
    requires n <= |lines|
  {
    if n == 0 then []
    else Logged(lines, n - 1, convert) + (if FirstOfKey(lines, n - 1, convert) then [] else [(LineNumber(n - 1), lines[n - 1])])
  }

  /** The index of the first of the first `n` lines whose conversion raises, or `n`. */
  function FirstAbort(lines: seq<string>, n: nat, convert: Converter): (f: nat)
    requires n <= |lines|
    ensures f <= n
    ensures forall i :: 0 <= i < f ==> convert(lines[i]).Ok?
    ensures f < n ==> convert(lines[f]).Err?
  {
    if n == 0 then 0
    else
      var f := FirstAbort(lines, n - 1, convert);
      if f < n - 1 || convert(lines[n - 1]).Err? then f else n
  }

  lemma {:induction false} KeptContainsKey(lines: seq<string>, n: nat, convert: Converter, r: Record)
    requires n <= |lines|
    ensures ContainsKey(Kept(lines, n, convert), r) <==>
      exists j :: 0 <= j < n && Candidate(lines[j], convert).Some? && SameKey(Candidate(lines[j], convert).value, r)
  {
    if n > 0 {
      KeptContainsKey(lines, n - 1, convert, r);
      var before := Kept(lines, n - 1, convert);
      var c := Candidate(lines[n - 1], convert);
      if ContainsKey(Kept(lines, n, convert), r) {
        var i :| 0 <= i < |Kept(lines, n, convert)| && SameKey(Kept(lines, n, convert)[i], r);
        if i < |before| {
          assert SameKey(before[i], r);
        }
      }
      if c.Some? && SameKey(c.value, r) && !FirstOfKey(lines, n - 1, convert) {
        var j :| 0 <= j < n - 1 && Candidate(lines[j], convert).Some? && SameKey(Candidate(lines[j], convert).value, c.value);
        assert SameKey(Candidate(lines[j], convert).value, r);
      }
      if c.Some? && SameKey(c.value, r) && FirstOfKey(lines, n - 1, convert) {
        assert Kept(lines, n, convert)[|before|] == c.value;
      }
      if ContainsKey(before, r) {
        var i :| 0 <= i < |before| && SameKey(before[i], r);
        assert Kept(lines, n, convert)[i] == before[i];
      }
    }
  }

  /**
   The batch over the first `n` lines, described line by line: up to the first
   line whose conversion raises (all `n` if none does), the kept records are
   those of the lines that come first with their key, and the log holds every
   other line, numbered from 2, in order. The exception, if any, is that line's.
   */
  function Described(lines: seq<string>, n: nat, nl: string, convert: Converter): Parsed
    requires n <= |lines|
  {
    var f := FirstAbort(lines, n, convert);
    Parsed(Kept(lines, f, convert), Entries(Logged(lines, f, convert), nl),
      if f < n then Some(convert(lines[f]).failure) else None)
  }

  lemma {:induction false} ProcessedLinesCharacterised(lines: seq<string>, n: nat, nl: string, convert: Converter)
    requires n <= |lines|
    ensures ProcessLines(lines, n, nl, convert) == Described(lines, n, nl, convert)
  {
    if n > 0 {
      ProcessedLinesCharacterised(lines, n - 1, nl, convert);
      CharacterisedStep(lines, n, nl, convert);
    }
  }

  lemma {:induction false} CharacterisedStep(lines: seq<string>, n: nat, nl: string, convert: Converter)
    requires 0 < n <= |lines|
    requires ProcessLines(lines, n - 1, nl, convert) == Described(lines, n - 1, nl, convert)
    ensures ProcessLines(lines, n, nl, convert) == Described(lines, n, nl, convert)
  {
    if ProcessLines(lines, n - 1, nl, convert).aborted.None? {
      ProcessedLineStep(lines, n, nl, convert);
    } else {
      AbortedBatchStaysAborted(lines, n, nl, convert);
    }
  }

  lemma {:induction false} AbortedBatchStaysAborted(lines: seq<string>, n: nat, nl: string, convert: Converter)
    requires 0 < n <= |lines|
    requires ProcessLines(lines, n - 1, nl, convert) == Described(lines, n - 1, nl, convert)
    requires ProcessLines(lines, n - 1, nl, convert).aborted.Some?
    ensures ProcessLines(lines, n, nl, convert) == Described(lines, n, nl, convert)
  {
    assert ProcessLines(lines, n, nl, convert) == ProcessLines(lines, n - 1, nl, convert);
    assert FirstAbort(lines, n, convert) == FirstAbort(lines, n - 1, convert);
  }

  /** One more line after a batch that has not been aborted. */
  lemma {:induction false} ProcessedLineStep(lines: seq<string>, n: nat, nl: string, convert: Converter)
    requires 0 < n <= |lines|
    requires ProcessLines(lines, n - 1, nl, convert) == Described(lines, n - 1, nl, convert)
    requires ProcessLines(lines, n - 1, nl, convert).aborted.None?
    ensures ProcessLines(lines, n, nl, convert) == Described(lines, n, nl, convert)
  {
    assert FirstAbort(lines, n - 1, convert) == n - 1;
    match convert(lines[n - 1])
    case Err(_) =>
      RaisingLineStep(lines, n, nl, convert);
    case Ok(None) =>
      LoggedLineStep(lines, n, nl, convert);
    case Ok(Some(r)) =>
      KeptContainsKey(lines, n - 1, convert, r);
      if ContainsKey(ProcessLines(lines, n - 1, nl, convert).records, r) {
        LoggedLineStep(lines, n, nl, convert);
      } else {
        KeptLineStep(lines, n, nl, convert, r);
      }
  }

  /** A line whose conversion raises ends the batch with that exception. */
  lemma {:induction false} RaisingLineStep(lines: seq<string>, n: nat, nl: string, convert: Converter)
    requires 0 < n <= |lines| && FirstAbort(lines, n - 1, convert) == n - 1
    requires ProcessLines(lines, n - 1, nl, convert) == Described(lines, n - 1, nl, convert)
    requires convert(lines[n - 1]).Err?
    ensures ProcessLines(lines, n, nl, convert) == Described(lines, n, nl, convert)
  {
    assert FirstAbort(lines, n, convert) == n - 1;
  }

  /** A line that is not first of its key is logged under its number. */
  lemma {:induction false} LoggedLineStep(lines: seq<string>, n: nat, nl: string, convert: Converter)
    requires 0 < n <= |lines| && FirstAbort(lines, n - 1, convert) == n - 1
    requires ProcessLines(lines, n - 1, nl, convert) == Described(lines, n - 1, nl, convert)
    requires convert(lines[n - 1]).Ok? && !FirstOfKey(lines, n - 1, convert)
    requires convert(lines[n - 1]).value.Some? ==>
      ContainsKey(ProcessLines(lines, n - 1, nl, convert).records, convert(lines[n - 1]).value.value)
    ensures ProcessLines(lines, n, nl, convert) == Described(lines, n, nl, convert)
  {
    var p := ProcessLines(lines, n - 1, nl, convert);
    var before := Logged(lines, n - 1, convert);
    var entry := (LineNumber(n - 1), lines[n - 1]);
    DescribedUnaborted(lines, n - 1, nl, convert);
    ProcessLinesStep(lines, n, nl, convert);
    SetCollectionLogs(p, lines[n - 1], LineNumber(n - 1), nl, convert);
    NotFirstOfKeyStep(lines, n, convert);
    EntriesSnoc(before, entry, nl);
    DescribedUnaborted(lines, n, nl, convert);
  }

  /** The description of a batch in which no line raised. */
  lemma {:induction false} DescribedUnaborted(lines: seq<string>, n: nat, nl: string, convert: Converter)
    requires n <= |lines| && FirstAbort(lines, n, convert) == n
    ensures Described(lines, n, nl, convert) == Parsed(Kept(lines, n, convert), Entries(Logged(lines, n, convert), nl), None)
  {
  }

  /** One more line of a batch that has not been aborted. */
  lemma {:induction false} ProcessLinesStep(lines: seq<string>, n: nat, nl: string, convert: Converter)
    requires 0 < n <= |lines| && ProcessLines(lines, n - 1, nl, convert).aborted.None?
    ensures ProcessLines(lines, n, nl, convert)
      == SetCovidDataCollection(ProcessLines(lines, n - 1, nl, convert), lines[n - 1], LineNumber(n - 1), nl, convert)
  {
  }

  /** A malformed line, or one whose key is present, only extends the log. */
  lemma {:induction false} SetCollectionLogs(p: Parsed, line: string, lineNumber: int, nl: string, convert: Converter)
    requires p.aborted.None? && convert(line).Ok?
    requires convert(line).value.Some? ==> ContainsKey(p.records, convert(line).value.value)
    ensures SetCovidDataCollection(p, line, lineNumber, nl, convert) == p.(log := p.log + ErrorEntry(lineNumber, line, nl))
  {
  }

  /** The description after a line that converts but is not first of its key. */
  lemma {:induction false} NotFirstOfKeyStep(lines: seq<string>, n: nat, convert: Converter)
    requires 0 < n <= |lines| && FirstAbort(lines, n - 1, convert) == n - 1
    requires convert(lines[n - 1]).Ok? && !FirstOfKey(lines, n - 1, convert)
    ensures FirstAbort(lines, n, convert) == n
    ensures Kept(lines, n, convert) == Kept(lines, n - 1, convert)
    ensures Logged(lines, n, convert) == Logged(lines, n - 1, convert) + [(LineNumber(n - 1), lines[n - 1])]
  {
    assert Kept(lines, n - 1, convert) + [] == Kept(lines, n - 1, convert);
  }

  /** A line that is first of its key adds its record to the batch. */
  lemma {:induction false} KeptLineStep(lines: seq<string>, n: nat, nl: string, convert: Converter, r: Record)
    requires 0 < n <= |lines| && FirstAbort(lines, n - 1, convert) == n - 1
    requires ProcessLines(lines, n - 1, nl, convert) == Described(lines, n - 1, nl, convert)
    requires convert(lines[n - 1]) == Ok(Some(r)) && FirstOfKey(lines, n - 1, convert)
    requires !ContainsKey(ProcessLines(lines, n - 1, nl, convert).records, r)
    ensures ProcessLines(lines, n, nl, convert) == Described(lines, n, nl, convert)
  {
    assert FirstAbort(lines, n, convert) == n;
    assert Kept(lines, n, convert) == Kept(lines, n - 1, convert) + [r];
    assert Logged(lines, n, convert) == Logged(lines, n - 1, convert);
  }

  /** Every data line before an abort becomes exactly one record or one log entry. */
  lemma {:induction false} OneOutcomePerLine(lines: seq<string>, n: nat, convert: Converter)
    requires n <= |lines|
    ensures |Kept(lines, n, convert)| + |Logged(lines, n, convert)| == n
  {
    if n > 0 {
      OneOutcomePerLine(lines, n - 1, convert);
    }
  }

  /**
   A batch without an abort: every data line is accounted for once, and the
   records form a key-unique sequence in which each key's first line wins.
   */
  lemma {:induction false} CompletedBatch(text: string, env: Env)
    requires BreakDownTextContent(text).Ok?
    requires GenerateCovidDataCollection(text, env).aborted.None?
    ensures var lines, p := BreakDownTextContent(text).value, GenerateCovidDataCollection(text, env);
      && p.records == Kept(lines, |lines|, LineConverter(env))
      && p.log == Entries(Logged(lines, |lines|, LineConverter(env)), env.nl)
      && |p.records| + |Logged(lines, |lines|, LineConverter(env))| == |lines|
  {
    var lines := BreakDownTextContent(text).value;
    ProcessedLinesCharacterised(lines, |lines|, env.nl, LineConverter(env));
    assert FirstAbort(lines, |lines|, LineConverter(env)) == |lines|;
    OneOutcomePerLine(lines, |lines|, LineConverter(env));
  }
}

=== FILE: record.dfy ===
/**
 One day of COVID-19 figures for one state, as `CovidRecord` holds it.

 The record's identity is the pair (date, state): `Equals` and `GetHashCode`
 look at nothing else (only `Equals` is modelled), so every collection operation that "finds" a record
 finds it by key. The state is stored upper-cased.

 The record in the repository has no `HospitalizedCurrently` property, yet the
 parser, the statistics and the savers read and write one; the model carries
 it as a seventh counter.
 */
module Records {
  import opened Outcomes
  import opened Text
  import opened Calendar

  datatype Record = Record(
    date: Date,
    state: string,
    positive: nat,
    negative: nat,
    deaths: nat,
    hospitalizations: nat,
    hospitalizedCurrently: nat)
  {
    /** `TotalTests`, derived rather than stored. */
    function Total(): nat {
      positive + negative
    }
  }

  /**
   `new CovidRecord(date, state)`: a `null` state raises ArgumentNullException;
   otherwise the state is upper-cased and every counter starts at zero.
   */
  function NewRecord(date: Date, state: Option<string>): (r: Result<Record>)
    ensures r.Err? <==> state.None?
    ensures r.Err? ==> r.failure == InvalidArgument
    ensures r.Ok? ==> r.value.date == date && r.value.state == Upper(state.value)
    ensures r.Ok? ==> r.value.Total() == 0 && r.value.deaths == 0
    ensures r.Ok? ==> r.value.hospitalizations == 0 && r.value.hospitalizedCurrently == 0
  {
    if state.None? then Err(InvalidArgument)
    else Ok(Record(date, Upper(state.value), 0, 0, 0, 0, 0))
  }

  /** `a.Equals(b)`: same date and same state; the counters play no part. */
  predicate SameKey(a: Record, b: Record) {
    a.date == b.date && a.state == b.state
  }

  /** Two constructed records share a key exactly when dates agree and states agree ignoring case. */
  lemma {:induction false} NewRecordKeyIgnoresCase(d1: Date, s1: string, d2: Date, s2: string)
    ensures NewRecord(d1, Some(s1)).Ok? && NewRecord(d2, Some(s2)).Ok?
    ensures SameKey(NewRecord(d1, Some(s1)).value, NewRecord(d2, Some(s2)).value)
      <==> d1 == d2 && Upper(s1) == Upper(s2)
    ensures Upper(NewRecord(d1, Some(s1)).value.state) == NewRecord(d1, Some(s1)).value.state
  {
    UpperIdempotent(s1);
  }

  /** `ToString`: "Date: MM/dd/yyyy, State: XX", without any counter. */
  function ToString(r: Record): string {
    "Date: " + Slashed(r.date) + ", State: " + r.state
  }

  lemma {:induction false} SlashedLength(d: Date)
    ensures |Slashed(d)| == 10
  {
    assert Pow10(2) == 100;
    assert Pow10(4) == 10000;
    ZeroPadValue(d.year, 4);
    ZeroPadValue(d.month, 2);
    ZeroPadValue(d.day, 2);
  }

  lemma {:induction false} ZeroPadInjective(x: nat, y: nat, width: nat)
    requires 1 <= width && x < Pow10(width) && y < Pow10(width)
    requires ZeroPad(x, width) == ZeroPad(y, width)
    ensures x == y
  {
    ZeroPadValue(x, width);
    ZeroPadValue(y, width);
  }

  lemma {:induction false} SlashedParts(m1: string, d1: string, y1: string, m2: string, d2: string, y2: string)
    requires |m1| == |m2| == 2 && |d1| == |d2| == 2
    requires m1 + "/" + d1 + "/" + y1 == m2 + "/" + d2 + "/" + y2
    ensures m1 == m2 && d1 == d2 && y1 == y2
  {
    var s := m1 + "/" + d1 + "/" + y1;
    assert s[..2] == m1;
    assert s[3..5] == d1;
    assert s[6..] == y1;
    var t := m2 + "/" + d2 + "/" + y2;
    assert t[..2] == m2;
    assert t[3..5] == d2;
    assert t[6..] == y2;
  }

  /** The "MM/dd/yyyy" rendering tells dates apart. */
  lemma {:induction false} SlashedInjective(a: Date, b: Date)
    requires Slashed(a) == Slashed(b)
    ensures a == b
  {
    assert Pow10(2) == 100;
    assert Pow10(4) == 10000;
    ZeroPadValue(a.month, 2);
    ZeroPadValue(b.month, 2);
    ZeroPadValue(a.day, 2);
    ZeroPadValue(b.day, 2);
    SlashedParts(ZeroPad(a.month, 2), ZeroPad(a.day, 2), ZeroPad(a.year, 4),
                 ZeroPad(b.month, 2), ZeroPad(b.day, 2), ZeroPad(b.year, 4));
    ZeroPadInjective(a.month, b.month, 2);
    ZeroPadInjective(a.day, b.day, 2);
    ZeroPadInjective(a.year, b.year, 4);
  }

  /**
   The text of a record names its key and nothing else: two records print
   alike exactly when they are equal in the sense of `Equals`.
   */
  lemma {:induction false} ToStringIdentifiesKey(a: Record, b: Record)
    ensures ToString(a) == ToString(b) <==> SameKey(a, b)
  {
    if ToString(a) == ToString(b) {
      SlashedLength(a.date);
      SlashedLength(b.date);
      FramedParts("Date: ", Slashed(a.date), ", State: ", a.state, Slashed(b.date), b.state);
      SlashedInjective(a.date, b.date);
    }
  }

  /** Two texts built on the same frame, with middles of one length, agree part by part. */
  lemma {:induction false} FramedParts(p: string, x1: string, q: string, y1: string, x2: string, y2: string)
    requires |x1| == |x2|
    requires p + x1 + q + y1 == p + x2 + q + y2
    ensures x1 == x2 && y1 == y2
  {
    var s, t := p + x1 + q + y1, p + x2 + q + y2;
    assert x1 == s[|p|..|p| + |x1|];
    assert x2 == t[|p|..|p| + |x2|];
    assert y1 == s[|p| + |x1| + |q|..];
    assert y2 == t[|p| + |x2| + |q|..];
  }

  /** `collection.Contains(r)`: some member has the key of `r`. */
  predicate ContainsKey(records: seq<Record>, r: Record) {
    exists i :: 0 <= i < |records| && SameKey(records[i], r)
  }

  /** No two members share a key. */
  predicate KeyUnique(records: seq<Record>) {
    forall i, j :: 0 <= i < j < |records| ==> !SameKey(records[i], records[j])
  }
}

=== FILE: saver.dfy ===
/**
 `CsvCovidDataSaver` and `CovidDataSaver`: the text both savers write, a
 header line and one line per record. The two classes encode identically;
 only the file writing, which is left out, differs.

 A saved row carries seven fields, the current hospitalizations among them,
 while the parser accepts exactly six, so loading a saved file logs every
 row as an error and keeps nothing.
 */
module Savers {
  import opened Outcomes
  import opened Text
  import opened Calendar
  import opened Records
  import opened Assets
  import opened Host
  import opened ErrorLogs
  import opened CsvParser

  /** A saver holds the collection to write; the file itself is not modelled. */
  datatype Saver = Saver(data: seq<Record>)

  /** The constructor rejects a `null` file or a `null` collection with ArgumentNullException. */
  function NewSaver(fileGiven: bool, data: Option<seq<Record>>): (r: Result<Saver>)
    ensures r.Err? <==> !fileGiven || data.None?
    ensures r.Err? ==> r.failure == InvalidArgument
    ensures r.Ok? ==> r.value.data == data.value
  {
    if !fileGiven || data.None? then Err(InvalidArgument) else Ok(Saver(data.value))
  }

  // ----- The header line -----

  /** Each name followed by a comma, as the header loop appends them. */
  function CommaTerminated(names: seq<string>): string {
    if |names| == 0 then "" else CommaTerminated(names[..|names| - 1]) + names[|names| - 1] + ","
  }

  /** The comma-terminated names are the comma-joined names with one comma more. */
  lemma {:induction false} CommaTerminatedJoin(names: seq<string>)
    requires |names| > 0
    ensures CommaTerminated(names) == Join(names, ',') + ","
    decreases |names|
  {
    var init, last := names[..|names| - 1], names[|names| - 1];
    if |init| == 0 {
      assert names == [last];
    } else {
      CommaTerminatedJoin(init);
      JoinAppend(init, last, ',');
      assert init + [last] == names;
    }
  }

  /**
   `getCovidDataHeaders`: every name followed by a comma, then the last
   character dropped and the line terminator added. With no names the
   `Remove` at index -1 raises ArgumentOutOfRangeException.
   */
  method CovidDataHeaders(names: seq<string>, nl: string) returns (r: Result<string>)
    ensures r.Err? <==> |names| == 0
    ensures r.Err? ==> r.failure == InvalidArgument
    ensures r.Ok? ==> r.value == Join(names, ',') + nl
  {
    var headers := "";
    var i := 0;
    while i < |names|
      invariant 0 <= i <= |names|
      invariant headers == CommaTerminated(names[..i])
    {
      assert names[..i + 1][..i] == names[..i];
      headers := headers + names[i] + ",";
      i := i + 1;
    }
    assert names[..|names|] == names;
    if |headers| == 0 {
      assert |names| == 0 by {
        if |names| > 0 {
          CommaTerminatedJoin(names);
        }
      }
      return Err(InvalidArgument);
    }
    CommaTerminatedJoin(names);
    r := Ok(headers[..|headers| - 1] + nl);
  }

  // ----- The record lines -----

  /**
   The seven fields of a saved row: the date as "yyyyMMdd", the state, then
   positive, negative, current hospitalizations, hospitalizations and
   deaths.
   */
  function RowFields(r: Record): (fields: seq<string>)
    ensures |fields| == 7
  {
    [Compact(r.date), r.state, Decimal(r.positive), Decimal(r.negative),
     Decimal(r.hospitalizedCurrently), Decimal(r.hospitalizations), Decimal(r.deaths)]
  }

  /** One record as a CSV row, without its terminator. */
  function Row(r: Record): string {
    Join(RowFields(r), ',')
  }

  /** `f` applied to each record, in order. */
  function MapRecords(records: seq<Record>, f: Record -> string): (texts: seq<string>)
    ensures |texts| == |records|
    ensures forall i :: 0 <= i < |records| ==> texts[i] == f(records[i])
  {
    if |records| == 0 then []
    else MapRecords(records[..|records| - 1], f) + [f(records[|records| - 1])]
  }

  lemma {:induction false} MapRecordsSnoc(records: seq<Record>, i: nat, f: Record -> string)
    requires i < |records|
    ensures MapRecords(records[..i + 1], f) == MapRecords(records[..i], f) + [f(records[i])]
  {
    assert records[..i + 1][..i] == records[..i];
  }

  function Rows(records: seq<Record>): (rows: seq<string>)
    ensures |rows| == |records|
    ensures forall i :: 0 <= i < |records| ==> rows[i] == Row(records[i])
  {
    MapRecords(records, Row)
  }

  /** `getCovidDataRecords`: one terminated row per record, in collection order. */
  method CovidDataRecords(records: seq<Record>, nl: string) returns (text: string)
    ensures text == TerminatedLines(Rows(records), nl)
  {
    text := "";
    var i := 0;
    while i < |records|
      invariant 0 <= i <= |records|
      invariant text == TerminatedLines(Rows(records[..i]), nl)
    {
      MapRecordsSnoc(records, i, Row);
      TerminatedLinesSnoc(Rows(records[..i]), Row(records[i]), nl);
      text := text + Row(records[i]) + nl;
      i := i + 1;
    }
    assert records[..i] == records;
  }

  /** The whole file: the header line for the six column names, then the rows. */
  method SavedContents(s: Saver, nl: string) returns (text: string)
    ensures text == TerminatedLines([Join(HeadersForData, ',')] + Rows(s.data), nl)
  {
    var header := CovidDataHeaders(HeadersForData, nl);
    var rows := CovidDataRecords(s.data, nl);
    text := header.value + rows;
    assert ([Join(HeadersForData, ',')] + Rows(s.data))[1..] == Rows(s.data);
  }

  // ----- What the parser makes of a saved file -----

  lemma {:induction false} ZeroPadDigits(n: nat, width: nat)
    ensures AllDigits(ZeroPad(n, width))
  {
    var s := Decimal(n);
    var r := PadLeft(s, width, '0');
    PadLeftShape(s, width, '0');
    forall i | 0 <= i < |r|
      ensures IsDigit(r[i])
    {
      if i >= |r| - |s| {
        assert r[i] == r[|r| - |s|..][i - (|r| - |s|)];
      }
    }
  }

  lemma {:induction false} CompactDigits(d: Date)
    ensures AllDigits(Compact(d))
  {
    ZeroPadDigits(d.year, 4);
    ZeroPadDigits(d.month, 2);
    ZeroPadDigits(d.day, 2);
  }

  /** The state, the one free-text field, carries no comma and no line break. */
  predicate PlainState(r: Record) {
    ',' !in r.state && '\r' !in r.state && '\n' !in r.state
  }

  /** A field holds none of the characters `c` of a plain state. */
  lemma {:induction false} RowFieldsAvoid(r: Record, c: char)
    requires PlainState(r)
    requires c == ',' || c == '\r' || c == '\n'
    ensures forall k :: 0 <= k < 7 ==> c !in RowFields(r)[k]
  {
    CompactDigits(r.date);
    forall k | 0 <= k < 7
      ensures c !in RowFields(r)[k]
    {
      if k != 1 {
        assert AllDigits(RowFields(r)[k]);
      }
    }
  }

  /**
   A saved row splits back into its seven fields, one more than the parser
   accepts, so the parser rejects it as malformed.
   */
  lemma {:induction false} SavedRowRejected(r: Record, env: Env)
    requires PlainState(r)
    ensures Split(Row(r), ',') == RowFields(r)
    ensures CreateCovidRecord(Row(r), env) == Ok(None)
  {
    RowFieldsAvoid(r, ',');
    SplitOfJoin(RowFields(r), ',');
  }

  /** The numbered lines of a batch, numbered as the error log numbers them. */
  function Numbered(lines: seq<string>, n: nat): (entries: seq<(int, string)>)
    requires n <= |lines|
    ensures |entries| == n
    ensures forall i :: 0 <= i < n ==> entries[i] == (LineNumber(i), lines[i])
  {
    seq(n, i requires 0 <= i < n => (LineNumber(i), lines[i]))
  }

  /** A batch in which the converter rejects every line keeps nothing and logs every line. */
  lemma {:induction false} AllLinesRejected(lines: seq<string>, n: nat, nl: string, convert: Converter)
    requires n <= |lines|
    requires forall i :: 0 <= i < n ==> convert(lines[i]) == Ok(None)
    ensures ProcessLines(lines, n, nl, convert) == Parsed([], Entries(Numbered(lines, n), nl), None)
  {
    if n > 0 {
      AllLinesRejected(lines, n - 1, nl, convert);
      assert Numbered(lines, n)[..n - 1] == Numbered(lines, n - 1);
    }
  }

  /** Only ASCII letters. */
  predicate Letters(s: string) {
    forall i :: 0 <= i < |s| ==> 'a' <= s[i] <= 'z' || 'A' <= s[i] <= 'Z'
  }

  /** The header line and every saved row are single lines. */
  lemma {:induction false} HeaderIsOneLine()
    ensures '\r' !in Join(HeadersForData, ',') && '\n' !in Join(HeadersForData, ',')
  {
    forall k | 0 <= k < |HeadersForData|
      ensures '\r' !in HeadersForData[k] && '\n' !in HeadersForData[k]
    {
      assert Letters(HeadersForData[k]);
    }
    JoinAvoids(HeadersForData, ',', '\r');
    JoinAvoids(HeadersForData, ',', '\n');
  }

  lemma {:induction false} RowIsOneLine(r: Record)
    requires PlainState(r)
    ensures '\r' !in Row(r) && '\n' !in Row(r)
  {
    RowFieldsAvoid(r, '\r');
    RowFieldsAvoid(r, '\n');
    JoinAvoids(RowFields(r), ',', '\r');
    JoinAvoids(RowFields(r), ',', '\n');
  }

  /** A saved file breaks down into its data rows: the header line is dropped. */
  lemma {:induction false} SavedTextBreaksDown(records: seq<Record>, nl: string)
    requires StandardNewline(nl)
    requires forall i :: 0 <= i < |records| ==> PlainState(records[i])
    ensures BreakDownTextContent(TerminatedLines([Join(HeadersForData, ',')] + Rows(records), nl)) == Ok(Rows(records))
  {
    var rows := Rows(records);
    HeaderIsOneLine();
    forall k | 0 <= k < |rows|
      ensures '\r' !in rows[k] && '\n' !in rows[k]
    {
      RowIsOneLine(records[k]);
    }
    BreakDownTerminatedLines(Join(HeadersForData, ','), rows, nl);
  }

  /**
   Saving and loading again is not a round trip: for a well-formed
   collection the header is skipped, every saved row is logged as an error
   under its line number, no record is kept and no exception escapes.
   */
  lemma {:induction false} SaveThenLoadKeepsNothing(records: seq<Record>, env: Env)
    requires StandardNewline(env.nl)
    requires forall i :: 0 <= i < |records| ==> PlainState(records[i])
    ensures var rows := Rows(records);
      var p := GenerateCovidDataCollection(TerminatedLines([Join(HeadersForData, ',')] + rows, env.nl), env);
      && p.records == []
      && p.aborted.None?
      && p.log == Entries(Numbered(rows, |rows|), env.nl)
  {
    var rows := Rows(records);
    SavedTextBreaksDown(records, env.nl);
    forall i | 0 <= i < |rows|
      ensures LineConverter(env)(rows[i]) == Ok(None)
    {
      SavedRowRejected(records[i], env);
    }
    AllLinesRejected(rows, |rows|, env.nl, LineConverter(env));
  }
}

=== FILE: sorting.dfy ===
/**
 `OrderBy(record => record.Date)`: LINQ's ordering is stable, so records
 come out by ascending date, and records of the same date keep the order
 they had. The model is an insertion sort; `SortByDateStable` shows that
 it keeps the order within each date, which with `ByDate` and the
 permutation property pins the result down completely.
 */
module DateOrder {
  import opened Calendar
  import opened Records

  /** Ascending by date. */
  predicate ByDate(records: seq<Record>) {
    forall i, j :: 0 <= i < j < |records| ==> OnOrAfter(records[j].date, records[i].date)
  }

  /** The records of date `d`, in their order. */
  function OnDate(records: seq<Record>, d: Date): (same: seq<Record>)
    ensures forall x :: x in same ==> x in records && x.date == d
  {
    if |records| == 0 then []
    else (if records[0].date == d then [records[0]] else []) + OnDate(records[1..], d)
  }

  /** `r` goes before the first record not dated before it. */
  function InsertByDate(r: Record, sorted: seq<Record>): (result: seq<Record>)
    requires ByDate(sorted)
    ensures ByDate(result)
    ensures multiset(result) == multiset(sorted) + multiset{r}
    ensures |result| == |sorted| + 1
    ensures result[0] == r || (|sorted| > 0 && result[0] == sorted[0])
  {
    if |sorted| == 0 then [r]
    else if OnOrAfter(sorted[0].date, r.date) then
      assert forall j :: 0 < j < |sorted| ==> OnOrAfter(sorted[j].date, sorted[0].date);
      forall j | 0 < j < |sorted|
        ensures OnOrAfter(sorted[j].date, r.date)
      {
        OnOrAfterIsTotalOrder(sorted[j].date, sorted[0].date, r.date);
      }
      [r] + sorted
    else
      var rest := InsertByDate(r, sorted[1..]);
      OnOrAfterIsTotalOrder(sorted[0].date, r.date, r.date);
      assert OnOrAfter(rest[0].date, sorted[0].date);
      var result := [sorted[0]] + rest;
      forall j | 0 < j < |result|
        ensures OnOrAfter(result[j].date, sorted[0].date)
      {
        OnOrAfterIsTotalOrder(rest[j - 1].date, rest[0].date, sorted[0].date);
      }
      assert sorted == [sorted[0]] + sorted[1..];
      result
  }

  /** `records.OrderBy(record => record.Date)`. */
  function SortByDate(records: seq<Record>): (sorted: seq<Record>)
    ensures ByDate(sorted)
    ensures multiset(sorted) == multiset(records)
    ensures |sorted| == |records|
  {
    if |records| == 0 then []
    else
      assert records == [records[0]] + records[1..];
      InsertByDate(records[0], SortByDate(records[1..]))
  }

  lemma {:induction false} InsertByDateOnDate(r: Record, sorted: seq<Record>, d: Date)
    requires ByDate(sorted)
    ensures OnDate(InsertByDate(r, sorted), d) == (if r.date == d then [r] else []) + OnDate(sorted, d)
    decreases |sorted|
  {
    if |sorted| > 0 {
      if OnOrAfter(sorted[0].date, r.date) {
        OnDateCons(r, sorted, d);
      } else {
        var rest := InsertByDate(r, sorted[1..]);
        InsertByDateOnDate(r, sorted[1..], d);
        OnDateCons(sorted[0], rest, d);
        OnDateCons(sorted[0], sorted[1..], d);
        assert sorted == [sorted[0]] + sorted[1..];
        assert sorted[0].date != r.date;
      }
    }
  }

  lemma {:induction false} OnDateCons(x: Record, records: seq<Record>, d: Date)
    ensures OnDate([x] + records, d) == (if x.date == d then [x] else []) + OnDate(records, d)
  {
    assert ([x] + records)[1..] == records;
  }

  /** Records of the same date come out in the order they went in. */
  lemma {:induction false} SortByDateStable(records: seq<Record>, d: Date)
    ensures OnDate(SortByDate(records), d) == OnDate(records, d)
  {
    if |records| > 0 {
      SortByDateStable(records[1..], d);
      InsertByDateOnDate(records[0], SortByDate(records[1..]), d);
    }
  }

  /** Sorting records already in date order changes nothing. */
  lemma {:induction false} SortByDateSorted(records: seq<Record>)
    requires ByDate(records)
    ensures SortByDate(records) == records
  {
    if |records| > 0 {
      SortByDateSorted(records[1..]);
      assert records == [records[0]] + records[1..];
    }
  }
}

=== FILE: statistics.dfy ===
/**
 `CovidDataStatistics`: queries over a sequence of records. LINQ's
 `OrderBy`/`OrderByDescending` are stable, so "sort, then take the first"
 picks the first record in input order among those ranked best; each query
 below is specified by that characterisation rather than by a sort.
 */
module Statistics {
  import opened Outcomes
  import opened Calendar
  import opened Records

  /** The counters a query can rank by. */
  datatype Metric = PositiveTests | NegativeTests | TotalTests | Deaths | Hospitalizations | HospitalizedCurrently

  function Value(r: Record, m: Metric): nat {
    match m
    case PositiveTests => r.positive
    case NegativeTests => r.negative
    case TotalTests => r.Total()
    case Deaths => r.deaths
    case Hospitalizations => r.hospitalizations
    case HospitalizedCurrently => r.hospitalizedCurrently
  }

  predicate HasPositive(records: seq<Record>) {
    exists i :: 0 <= i < |records| && records[i].positive > 0
  }

  /**
   `FindDayOfFirstPositiveTest`: the earliest date of a record with a
   positive test. `First` raises InvalidOperationException when no record
   has one, the empty sequence included.
   */
  function FindDayOfFirstPositiveTest(records: seq<Record>): (r: Result<Date>)
    ensures r.Err? <==> !HasPositive(records)
    ensures r.Err? ==> r.failure == NoData
    ensures r.Ok? ==> exists i :: 0 <= i < |records| && records[i].positive > 0 && records[i].date == r.value
    ensures r.Ok? ==> forall i :: 0 <= i < |records| && records[i].positive > 0 ==> OnOrAfter(records[i].date, r.value)
    decreases |records|
  {
    if |records| == 0 then Err(NoData)
    else
      var head, rest := records[0], records[1..];
      var later := FindDayOfFirstPositiveTest(rest);
      assert forall i :: 1 <= i < |records| ==> records[i] == rest[i - 1];
      if head.positive == 0 then
        assert forall i :: 0 <= i < |rest| ==> rest[i] == records[i + 1];
        later
      else if later.Ok? && !OnOrAfter(later.value, head.date) then
        assert forall i :: 0 <= i < |rest| ==> rest[i] == records[i + 1];
        later
      else
        assert later.Ok? ==> OnOrAfter(later.value, head.date);
        Ok(head.date)
  }

  /** The records dated on or after `since`, in their original order. */
  function Since(records: seq<Record>, since: Date): (window: seq<Record>)
    ensures forall x :: x in window <==> x in records && OnOrAfter(x.date, since)
    ensures |window| <= |records|
  {
    if |records| == 0 then []
    else (if OnOrAfter(records[0].date, since) then [records[0]] else []) + Since(records[1..], since)
  }

  /** Record `i` holds the greatest value of `m`, and every earlier record a smaller one. */
  predicate IsFirstMax(records: seq<Record>, m: Metric, i: int) {
    && 0 <= i < |records|
    && (forall j :: 0 <= j < |records| ==> Value(records[j], m) <= Value(records[i], m))
    && (forall j :: 0 <= j < i ==> Value(records[j], m) < Value(records[i], m))
  }

  /** Record `i` holds the least value of `m`, and every earlier record a greater one. */
  predicate IsFirstMin(records: seq<Record>, m: Metric, i: int) {
    && 0 <= i < |records|
    && (forall j :: 0 <= j < |records| ==> Value(records[i], m) <= Value(records[j], m))
    && (forall j :: 0 <= j < i ==> Value(records[i], m) < Value(records[j], m))
  }

  function FirstMaxIndex(records: seq<Record>, m: Metric): (i: nat)
    requires |records| > 0
    ensures IsFirstMax(records, m, i)
    decreases |records|
  {
    if |records| == 1 then 0
    else
      var rest := records[1..];
      var k := FirstMaxIndex(rest, m);
      assert forall j :: 1 <= j < |records| ==> records[j] == rest[j - 1];
      if Value(records[0], m) >= Value(rest[k], m) then 0 else k + 1
  }

  function FirstMinIndex(records: seq<Record>, m: Metric): (i: nat)
    requires |records| > 0
    ensures IsFirstMin(records, m, i)
    decreases |records|
  {
    if |records| == 1 then 0
    else
      var rest := records[1..];
      var k := FirstMinIndex(rest, m);
      assert forall j :: 1 <= j < |records| ==> records[j] == rest[j - 1];
      if Value(records[0], m) <= Value(rest[k], m) then 0 else k + 1
  }

  /**
   `FindRecordWithHighest...`: `OrderByDescending(m).First()`. The first
   record, in input order, with the greatest value; NoData when there is none.
   */
  function FindRecordWithHighest(records: seq<Record>, m: Metric): (r: Result<Record>)
    ensures r.Err? <==> |records| == 0
    ensures r.Err? ==> r.failure == NoData
    ensures r.Ok? ==> r.value in records && forall x :: x in records ==> Value(x, m) <= Value(r.value, m)
    ensures r.Ok? ==> exists i :: IsFirstMax(records, m, i) && records[i] == r.value
  {
    if |records| == 0 then Err(NoData)
    else
      var i := FirstMaxIndex(records, m);
      Ok(records[i])
  }

  /**
   `FindRecordWithLowest...(sinceDate)`: among the records dated on or after
   `since`, the first with the least value; NoData when there is none.
   */
  function FindRecordWithLowest(records: seq<Record>, m: Metric, since: Date): (r: Result<Record>)
    ensures r.Err? <==> forall x :: x in records ==> !OnOrAfter(x.date, since)
    ensures r.Err? ==> r.failure == NoData
    ensures r.Ok? ==> r.value in records && OnOrAfter(r.value.date, since)
    ensures r.Ok? ==> forall x :: x in records && OnOrAfter(x.date, since) ==> Value(r.value, m) <= Value(x, m)
    ensures r.Ok? ==> exists i :: IsFirstMin(Since(records, since), m, i) && Since(records, since)[i] == r.value
  {
    var window := Since(records, since);
    if |window| == 0 then Err(NoData)
    else
      var i := FirstMinIndex(window, m);
      assert window[i] in window;
      Ok(window[i])
  }

  /** The share of positive tests in a record with at least one test. */
  function Percentage(r: Record): real
    requires r.Total() > 0
  {
    r.positive as real / r.Total() as real
  }

  lemma {:induction false} PercentageBounds(r: Record)
    requires r.Total() > 0
    ensures 0.0 <= Percentage(r) <= 1.0
    ensures Percentage(r) * r.Total() as real == r.positive as real
  {
  }

  /**
   `FindPositivePercentageForRecord`: positives over total tests; NaN
   (here `None`) for a record without tests; ArgumentNullException for `null`.
   */
  function FindPositivePercentageForRecord(r: Option<Record>): (p: Result<Option<real>>)
    ensures r.None? <==> p.Err?
    ensures p.Err? ==> p.failure == InvalidArgument
    ensures p.Ok? ==> (p.value.None? <==> r.value.Total() == 0)
    ensures p.Ok? && p.value.Some? ==>
      && 0.0 <= p.value.value <= 1.0
      && p.value.value * r.value.Total() as real == r.value.positive as real
  {
    if r.None? then Err(InvalidArgument)
    else if r.value.Total() == 0 then Ok(None)
    else
      PercentageBounds(r.value);
      Ok(Some(Percentage(r.value)))
  }

  /** `a` sorts strictly before `b`: a greater share, or the same share and more positives. */
  predicate RanksAbove(a: Record, b: Record)
    requires a.Total() > 0 && b.Total() > 0
  {
    Percentage(a) > Percentage(b) || (Percentage(a) == Percentage(b) && a.positive > b.positive)
  }

  predicate HasTests(records: seq<Record>) {
    exists i :: 0 <= i < |records| && records[i].Total() > 0
  }

  /**
   Record `i` has tests, no record with tests ranks above it, and it ranks
   above every earlier record with tests.
   */
  predicate IsTopPercentage(records: seq<Record>, i: int) {
    && 0 <= i < |records|
    && records[i].Total() > 0
    && (forall j :: 0 <= j < |records| && records[j].Total() > 0 ==> !RanksAbove(records[j], records[i]))
    && (forall j :: 0 <= j < i && records[j].Total() > 0 ==> RanksAbove(records[i], records[j]))
  }

  function TopPercentageIndex(records: seq<Record>): (i: nat)
    requires HasTests(records)
    ensures IsTopPercentage(records, i)
    decreases |records|
  {
    var rest := records[1..];
    assert forall j :: 1 <= j < |records| ==> records[j] == rest[j - 1];
    if records[0].Total() == 0 then
      assert HasTests(rest) by {
        var j :| 0 <= j < |records| && records[j].Total() > 0;
        assert rest[j - 1] == records[j];
      }
      TopPercentageIndex(rest) + 1
    else if !HasTests(rest) then
      0
    else
      var k := TopPercentageIndex(rest);
      if !RanksAbove(rest[k], records[0]) then 0 else k + 1
  }

  /**
   `FindRecordWithHighestPercentageOfPositiveTests`: ranked by share of
   positive tests, then by positives, both descending, then by input order;
   records without tests are skipped, and NoData when every record lacks them.
   */
  function FindRecordWithHighestPercentageOfPositiveTests(records: seq<Record>): (r: Result<Record>)
    ensures r.Err? <==> !HasTests(records)
    ensures r.Err? ==> r.failure == NoData
    ensures r.Ok? ==> r.value.Total() > 0 && exists i :: IsTopPercentage(records, i) && records[i] == r.value
  {
    if !HasTests(records) then Err(NoData)
    else
      var i := TopPercentageIndex(records);
      Ok(records[i])
  }

  function Sum(records: seq<Record>, m: Metric): nat {
    if |records| == 0 then 0 else Value(records[0], m) + Sum(records[1..], m)
  }

  /** The records dated on or after the first positive test, a non-empty window holding a positive test. */
  function SinceFirstPositive(records: seq<Record>): (window: Result<seq<Record>>)
    ensures window.Err? <==> !HasPositive(records)
    ensures window.Err? ==> window.failure == NoData
    ensures window.Ok? ==> |window.value| > 0 && HasPositive(window.value)
    ensures window.Ok? ==> forall x :: x in window.value ==> x in records
  {
    var first :- FindDayOfFirstPositiveTest(records);
    var i :| 0 <= i < |records| && records[i].positive > 0 && records[i].date == first;
    var window := Since(records, first);
    assert records[i] in window;
    var j :| 0 <= j < |window| && window[j] == records[i];
    Ok(window)
  }

  lemma {:induction false} SumBounds(records: seq<Record>, m: Metric, low: nat, high: nat)
    requires forall x :: x in records ==> low <= Value(x, m) <= high
    ensures |records| * low <= Sum(records, m) <= |records| * high
  {
    if |records| > 0 {
      assert records[0] in records;
      assert forall x :: x in records[1..] ==> x in records;
      SumBounds(records[1..], m, low, high);
      MulSucc(|records| - 1, low);
      MulSucc(|records| - 1, high);
    }
  }

  lemma {:induction false} MulSucc(n: nat, k: nat)
    ensures (n + 1) * k == n * k + k
  {
  }

  /** `avg` is the mean of `n` values summing to `total`. */
  predicate IsMean(avg: real, total: nat, n: nat) {
    avg * n as real == total as real
  }

  function Mean(total: nat, n: nat): (avg: real)
    requires n > 0
    ensures IsMean(avg, total, n)
    ensures total > 0 ==> avg > 0.0
  {
    total as real / n as real
  }

  lemma {:induction false} SignOfQuotient(x: real, y: real)
    requires y > 0.0
    ensures x * y > 0.0 ==> x > 0.0
    ensures x * y >= 0.0 ==> x >= 0.0
  {
  }

  lemma {:induction false} MeanBetween(avg: real, total: nat, n: nat, low: nat, high: nat)
    requires n > 0 && IsMean(avg, total, n)
    requires n * low <= total <= n * high
    ensures low as real <= avg <= high as real
  {
    SignOfQuotient(avg - low as real, n as real);
    SignOfQuotient(high as real - avg, n as real);
  }

  /** The mean of the positives over the mean of the totals is the positives' sum over the totals' sum. */
  lemma {:induction false} MeanRatio(p: nat, t: nat, n: nat, ap: real, at: real)
    requires 0 < p <= t && n > 0
    requires IsMean(ap, p, n) && IsMean(at, t, n)
    ensures at > 0.0
    ensures IsMean(ap / at, p, t)
    ensures 0.0 < ap / at <= 1.0
  {
    SignOfQuotient(at, n as real);
    SignOfQuotient(ap, n as real);
    SignOfQuotient(at - ap, n as real);
    var q := ap / at;
    assert q * at == ap;
    assert q * t as real == q * at * n as real;
    SignOfQuotient(q, at);
    SignOfQuotient(1.0 - q, at);
  }

  lemma {:induction false} SumPositiveWithinTotal(records: seq<Record>)
    ensures Sum(records, PositiveTests) <= Sum(records, TotalTests)
    ensures HasPositive(records) ==> Sum(records, PositiveTests) > 0
  {
    if |records| > 0 {
      SumPositiveWithinTotal(records[1..]);
      if HasPositive(records) && records[0].positive == 0 {
        var i :| 0 <= i < |records| && records[i].positive > 0;
        assert records[1..][i - 1] == records[i];
      }
    }
  }

  /**
   The average of `m` over the records dated on or after the first positive
   test. `FindAveragePositiveTestsSinceFirstPositiveTest`, and both
   `...SinceSpecifiedDate` queries, which ignore their date argument.
   */
  function FindAverageSinceFirstPositiveTest(records: seq<Record>, m: Metric): (r: Result<real>)
    ensures r.Err? <==> !HasPositive(records)
    ensures r.Err? ==> r.failure == NoData
    ensures r.Ok? ==> var window := SinceFirstPositive(records).value;
      IsMean(r.value, Sum(window, m), |window|)
    ensures r.Ok? && (m == PositiveTests || m == TotalTests) ==> r.value > 0.0
  {
    var window :- SinceFirstPositive(records);
    SumPositiveWithinTotal(window);
    Ok(Mean(Sum(window, m), |window|))
  }

  /** The average lies between the window's lowest and highest values. */
  lemma {:induction false} AverageBetweenExtremes(records: seq<Record>, m: Metric)
    requires HasPositive(records)
    ensures var avg := FindAverageSinceFirstPositiveTest(records, m).value;
      var first := FindDayOfFirstPositiveTest(records).value;
      && Value(FindRecordWithLowest(records, m, first).value, m) as real <= avg
      && avg <= Value(FindRecordWithHighest(SinceFirstPositive(records).value, m).value, m) as real
  {
    var first := FindDayOfFirstPositiveTest(records).value;
    var window := SinceFirstPositive(records).value;
    assert window == Since(records, first);
    var low := Value(FindRecordWithLowest(records, m, first).value, m);
    var high := Value(FindRecordWithHighest(window, m).value, m);
    SumBounds(window, m, low, high);
    MeanBetween(FindAverageSinceFirstPositiveTest(records, m).value, Sum(window, m), |window|, low, high);
  }

  /**
   `FindOverallPositivityRateSinceFirstPositiveTest`: the average of the
   positives over the average of the totals on the same window, which is the
   positives' sum over the totals' sum, a share in (0, 1].
   */
  function FindOverallPositivityRate(records: seq<Record>): (r: Result<real>)
    ensures r.Err? <==> !HasPositive(records)
    ensures r.Err? ==> r.failure == NoData
    ensures r.Ok? ==> var window := SinceFirstPositive(records).value;
      IsMean(r.value, Sum(window, PositiveTests), Sum(window, TotalTests))
    ensures r.Ok? ==> 0.0 < r.value <= 1.0
  {
    var averagePositive :- FindAverageSinceFirstPositiveTest(records, PositiveTests);
    var averageTotal := FindAverageSinceFirstPositiveTest(records, TotalTests).value;
    var window := SinceFirstPositive(records).value;
    SumPositiveWithinTotal(window);
    MeanRatio(Sum(window, PositiveTests), Sum(window, TotalTests), |window|, averagePositive, averageTotal);
    Ok(averagePositive / averageTotal)
  }

  function CountAbove(records: seq<Record>, threshold: int): (c: nat)
    ensures c <= |records|
  {
    if |records| == 0 then 0
    else CountAbove(records[..|records| - 1], threshold) + (if records[|records| - 1].positive > threshold then 1 else 0)
  }

  function CountBelow(records: seq<Record>, threshold: int): (c: nat)
    ensures c <= |records|
  {
    if |records| == 0 then 0
    else CountBelow(records[..|records| - 1], threshold) + (if records[|records| - 1].positive < threshold then 1 else 0)
  }

  function CountEqual(records: seq<Record>, threshold: int): (c: nat)
    ensures c <= |records|
  {
    if |records| == 0 then 0
    else CountEqual(records[..|records| - 1], threshold) + (if records[|records| - 1].positive == threshold then 1 else 0)
  }

  /** Strictly above the threshold when `above`, strictly below it otherwise. */
  predicate Beyond(positive: int, threshold: int, above: bool) {
    if above then positive > threshold else positive < threshold
  }

  /** The positions of the days whose positives lie beyond the threshold. */
  function BeyondDays(records: seq<Record>, threshold: int, above: bool): set<int> {
    set i | 0 <= i < |records| && Beyond(records[i].positive, threshold, above)
  }

  /** The days of `records` beyond the threshold: those of all but the last day, and the last day if it is. */
  lemma {:induction false} BeyondDaysSnoc(records: seq<Record>, threshold: int, above: bool)
    requires |records| > 0
    ensures var n := |records| - 1;
      && BeyondDays(records, threshold, above)
         == BeyondDays(records[..n], threshold, above) + (if Beyond(records[n].positive, threshold, above) then {n} else {})
      && n !in BeyondDays(records[..n], threshold, above)
  {
    var n := |records| - 1;
    var init := records[..n];
    forall i | 0 <= i < n
      ensures records[i] == init[i]
    {
    }
  }

  /** The running counts count exactly the days beyond the threshold. */
  lemma {:induction false} CountIsBeyondDays(records: seq<Record>, threshold: int, above: bool)
    ensures (if above then CountAbove(records, threshold) else CountBelow(records, threshold))
      == |BeyondDays(records, threshold, above)|
    decreases |records|
  {
    if |records| > 0 {
      CountIsBeyondDays(records[..|records| - 1], threshold, above);
      BeyondDaysSnoc(records, threshold, above);
    }
  }

  /**
   `FindNumberOfDaysForPositiveTests{Greater,Less}ThanThreshold`: a negative
   threshold is rejected with ArgumentException before anything else is
   looked at; then the days on or after the first positive test whose
   positives are strictly above (`above`) or strictly below the threshold.
   */
  function FindNumberOfDaysBeyondThreshold(records: seq<Record>, threshold: int, above: bool): (r: Result<nat>)
    ensures r.Err? <==> threshold < 0 || !HasPositive(records)
    ensures r.Err? ==> r.failure == (if threshold < 0 then InvalidArgument else NoData)
    ensures r.Ok? ==> r.value <= |SinceFirstPositive(records).value|
    ensures r.Ok? ==> r.value == |BeyondDays(SinceFirstPositive(records).value, threshold, above)|
  {
    if threshold < 0 then Err(InvalidArgument)
    else
      var window :- SinceFirstPositive(records);
      CountIsBeyondDays(window, threshold, above);
      Ok(if above then CountAbove(window, threshold) else CountBelow(window, threshold))
  }

  lemma {:induction false} CountsPartition(records: seq<Record>, threshold: int)
    ensures CountAbove(records, threshold) + CountBelow(records, threshold) + CountEqual(records, threshold) == |records|
  {
    if |records| > 0 {
      CountsPartition(records[..|records| - 1], threshold);
    }
  }

  /**
   The two threshold counts and the days exactly at the threshold together
   cover the window: every day is counted once.
   */
  lemma {:induction false} ThresholdCountsCoverWindow(records: seq<Record>, threshold: nat)
    requires HasPositive(records)
    ensures var window := SinceFirstPositive(records).value;
      FindNumberOfDaysBeyondThreshold(records, threshold, true).value
      + FindNumberOfDaysBeyondThreshold(records, threshold, false).value
      + CountEqual(window, threshold) == |window|
  {
    CountsPartition(SinceFirstPositive(records).value, threshold);
  }

  /** A negative threshold is rejected even when there are no records at all. */
  lemma {:induction false} NegativeThresholdFirst()
    ensures FindNumberOfDaysBeyondThreshold([], -1, true) == Err(InvalidArgument)
    ensures FindNumberOfDaysBeyondThreshold([], 0, true) == Err(NoData)
  {
  }
}

=== FILE: summary.dfy ===
/**
 `CovidDataSummary`: the lines of the statistics report for one state.

 Some getters catch every exception of their query and print the
 "no positive data" placeholder where the figure would be; the "highest"
 getters catch nothing, so on an empty collection their exception reaches
 the caller. The first is modelled as a line in either case, the second as a
 `Result`.
 */
module Summaries {
  import opened Outcomes
  import opened Text
  import opened Calendar
  import opened Records
  import opened FormatValidator
  import opened Format
  import opened Assets
  import opened Host
  import opened Lines
  import opened Statistics
  import opened Collections
  import opened Histograms

  /** The summary's collection, already filtered, and its state filter. */
  datatype Summary = Summary(records: seq<Record>, stateFilter: string)

  /**
   The constructor. A `null` collection raises ArgumentNullException, and so
   does a `null` filter, inside `CreateAFilteredCollection`; a null filter is
   therefore not "unfiltered". The collection object is then overwritten
   with its filtered members.
   */
  function NewSummary(collection: Option<seq<Record>>, stateFilter: Option<string>): (s: Result<Summary>)
    ensures s.Err? <==> collection.None? || stateFilter.None?
    ensures s.Err? ==> s.failure == InvalidArgument
    ensures s.Ok? ==> s.value.stateFilter == stateFilter.value
    ensures s.Ok? ==> s.value.records == CreateAFilteredCollection(collection.value, stateFilter).value
    ensures s.Ok? ==> forall x :: x in s.value.records ==> x in collection.value
    ensures s.Ok? ==> (|s.value.records| == 0 <==> |collection.value| == 0)
    ensures s.Ok? && IsStateLabelValid(stateFilter) && Upper(stateFilter.value) in StatesOf(collection.value) ==>
      forall x :: x in s.value.records <==> x in collection.value && EqualsIgnoreCase(x.state, stateFilter.value)
  {
    if collection.None? then Err(InvalidArgument)
    else
      var filtered :- CreateAFilteredCollection(collection.value, stateFilter);
      assert |filtered| > 0 ==> filtered[0] in collection.value;
      Ok(Summary(filtered, stateFilter.value))
  }

  /**
   `GetFirstDayOfPositiveTest`: the earliest date of a positive test, or the
   placeholder alone when there is none.
   */
  function FirstDayLine(s: Summary, env: Env): (line: string)
    ensures !HasPositive(s.records) ==> line == NoPositiveData(env.nl)
    ensures HasPositive(s.records) ==> exists i ::
      && 0 <= i < |s.records| && s.records[i].positive > 0
      && (forall j :: 0 <= j < |s.records| && s.records[j].positive > 0 ==> OnOrAfter(s.records[j].date, s.records[i].date))
      && line == FirstDayOfPositiveTestLabel + " " + Slashed(s.records[i].date) + env.nl
  {
    match FindDayOfFirstPositiveTest(s.records)
    case Ok(first) => FirstDayOfPositiveTestLabel + " " + Slashed(first) + env.nl
    case Err(_) => NoPositiveData(env.nl)
  }

  /**
   The "highest" getters: the greatest value of `m`, taken from the first
   record holding it, and that record's date. `First()` raises on an empty
   collection and nothing catches it.
   */
  function HighestLine(s: Summary, m: Metric, title: string, nl: string): (line: Result<string>)
    ensures line.Err? <==> |s.records| == 0
    ensures line.Err? ==> line.failure == NoData
    ensures line.Ok? ==> exists i :: (IsFirstMax(s.records, m, i)
      && line.value == LineForValueAndDate(title, FormatIntegerAsFormattedString(Value(s.records[i], m)), Slashed(s.records[i].date), nl))
  {
    var top :- FindRecordWithHighest(s.records, m);
    Ok(LineForValueAndDate(title, FormatIntegerAsFormattedString(Value(top, m)), Slashed(top.date), nl))
  }

  /** The metrics of the six "highest" lines, in the order the report prints them, with their labels. */
  function HighestRows(env: Env): seq<(Metric, string)> {
    [(PositiveTests, HighestPositiveTestsLabel), (NegativeTests, HighestNegativeTestsLabel),
     (TotalTests, HighestTotalTestsLabel), (Deaths, HighestDeathsLabel),
     (Hospitalizations, HighestHospitalizationsLabel), (HospitalizedCurrently, env.currentHospitalizationsLabel)]
  }

  /** The "highest" lines for `rows`, one after the other; the first failure ends them. */
  function HighestLines(s: Summary, rows: seq<(Metric, string)>, nl: string): (text: Result<string>)
    ensures text.Err? <==> |rows| > 0 && |s.records| == 0
    ensures text.Err? ==> text.failure == NoData
  {
    if |rows| == 0 then Ok("")
    else
      match HighestLine(s, rows[0].0, rows[0].1, nl)
      case Err(f) => Err(f)
      case Ok(line) => Ok(line + HighestLines(s, rows[1..], nl).value)
  }

  /**
   `GetHighestPercentageOfTestsPerDayWithDate`: the share of the top-ranked
   record with tests and its date; when no record has tests, the placeholder
   stands in the value's place and the date is empty.
   */
  function PercentageLine(s: Summary, env: Env): (line: string)
    ensures !HasTests(s.records) ==>
      line == LineForValueAndDate(HighestPercentageOfPositiveCasesLabel, NoPositiveData(env.nl), "", env.nl)
    ensures HasTests(s.records) ==> exists i :: (IsTopPercentage(s.records, i)
      && line == LineForValueAndDate(HighestPercentageOfPositiveCasesLabel,
                   env.percentText(Percentage(s.records[i])), Slashed(s.records[i].date), env.nl))
  {
    match FindRecordWithHighestPercentageOfPositiveTests(s.records)
    case Err(_) => LineForValueAndDate(HighestPercentageOfPositiveCasesLabel, NoPositiveData(env.nl), "", env.nl)
    case Ok(top) =>
      var share := FindPositivePercentageForRecord(Some(top)).value.value;
      LineForValueAndDate(HighestPercentageOfPositiveCasesLabel, env.percentText(share), Slashed(top.date), env.nl)
  }

  /**
   `GetAveragePositiveTestsSinceFirstPositiveTest`: the mean of the
   positives from the first positive test on, or the placeholder.
   */
  function AveragePositiveLine(s: Summary, env: Env): (line: string)
    ensures !HasPositive(s.records) ==> line == LineForValue(AveragePositiveTestsLabel, NoPositiveData(env.nl), env.nl)
    ensures HasPositive(s.records) ==> var window := SinceFirstPositive(s.records).value;
      exists avg :: IsMean(avg, Sum(window, PositiveTests), |window|)
        && line == LineForValue(AveragePositiveTestsLabel, env.averageText(avg), env.nl)
  {
    match FindAverageSinceFirstPositiveTest(s.records, PositiveTests)
    case Ok(avg) => LineForValue(AveragePositiveTestsLabel, env.averageText(avg), env.nl)
    case Err(_) => LineForValue(AveragePositiveTestsLabel, NoPositiveData(env.nl), env.nl)
  }

  /**
   `GetOverallPositivityRateSinceFirstPositiveTest`: positives over total
   tests from the first positive test on, a share in (0, 1], or the
   placeholder.
   */
  function PositivityLine(s: Summary, env: Env): (line: string)
    ensures !HasPositive(s.records) ==> line == LineForValue(OverallPositivityRateLabel, NoPositiveData(env.nl), env.nl)
    ensures HasPositive(s.records) ==> var window := SinceFirstPositive(s.records).value;
      exists rate :: 0.0 < rate <= 1.0 && IsMean(rate, Sum(window, PositiveTests), Sum(window, TotalTests))
        && line == LineForValue(OverallPositivityRateLabel, env.percentText(rate), env.nl)
  {
    match FindOverallPositivityRate(s.records)
    case Ok(rate) => LineForValue(OverallPositivityRateLabel, env.percentText(rate), env.nl)
    case Err(_) => LineForValue(OverallPositivityRateLabel, NoPositiveData(env.nl), env.nl)
  }

  /** The label of the "greater than" (`above`) or "less than" threshold line. */
  function ThresholdTitle(above: bool): string {
    if above then DaysGreaterThanValueLabel else DaysLessThanValueLabel
  }

  /** The number of days from the first positive test on whose positives lie beyond `threshold`. */
  function DaysBeyond(window: seq<Record>, threshold: int, above: bool): nat {
    if above then CountAbove(window, threshold) else CountBelow(window, threshold)
  }

  /**
   `GetTheDaysFromTheFirstPositiveTest{Greater,Less}ThanThreshold`: the
   number of days from the first positive test on whose positives are
   strictly beyond the threshold. When the query raises (a negative
   threshold, no positive test) the count is empty and the placeholder
   takes the threshold's place.
   */
  function ThresholdLine(s: Summary, threshold: int, above: bool, env: Env): (line: string)
    ensures threshold < 0 || !HasPositive(s.records) ==>
      line == LineForValueWithThreshold(ThresholdTitle(above), "", NoPositiveData(env.nl), env.nl)
    ensures threshold >= 0 && HasPositive(s.records) ==> var window := SinceFirstPositive(s.records).value;
      line == LineForValueWithThreshold(ThresholdTitle(above),
        FormatIntegerAsFormattedString(DaysBeyond(window, threshold, above)),
        FormatIntegerAsFormattedString(threshold), env.nl)
  {
    match FindNumberOfDaysBeyondThreshold(s.records, threshold, above)
    case Ok(days) =>
      LineForValueWithThreshold(ThresholdTitle(above), FormatIntegerAsFormattedString(days),
        FormatIntegerAsFormattedString(threshold), env.nl)
    case Err(_) => LineForValueWithThreshold(ThresholdTitle(above), "", NoPositiveData(env.nl), env.nl)
  }

  /**
   When the lower threshold does not exceed the upper one, no day is both
   above the upper and below the lower: the two threshold lines count
   disjoint sets of days.
   */
  lemma {:induction false} ThresholdDaysDisjoint(window: seq<Record>, lower: int, upper: int)
    requires lower <= upper + 1
    ensures DaysBeyond(window, upper, true) + DaysBeyond(window, lower, false) <= |window|
  {
    if |window| > 0 {
      ThresholdDaysDisjoint(window[..|window| - 1], lower, upper);
    }
  }

  /** The positives of the records, in order. */
  function Positives(records: seq<Record>): (values: seq<int>)
    ensures |values| == |records|
    ensures forall i :: 0 <= i < |records| ==> values[i] == records[i].positive
  {
    seq(|records|, i requires 0 <= i < |records| => records[i].positive)
  }

  lemma {:induction false} PositivesAreNatural(records: seq<Record>)
    ensures forall v :: v in Positives(records) ==> v >= 0
  {
    var values := Positives(records);
    forall v | v in values
      ensures v >= 0
    {
      var i :| 0 <= i < |values| && values[i] == v;
      assert v == records[i].positive;
    }
  }

  /**
   `GetTheFrequencyTableHistogramOfPositiveTests`: a histogram of the
   positives of the records dated from the first positive test on. The
   query orders them by positives, descending, but the generator sorts its
   list before use, so only the multiset of values matters. Any exception
   (no positive test, a bin width of 0) leaves exactly the placeholder.
   */
  function HistogramSection(s: Summary, binSize: nat, env: Env): (text: string)
    ensures !HasPositive(s.records) || binSize == 0 ==> text == NoPositiveData(env.nl)
    ensures HasPositive(s.records) && binSize > 0 ==>
      var values := Positives(SinceFirstPositive(s.records).value);
      && NewHistogram(values, binSize).Ok?
      && var h := NewHistogram(values, binSize).value;
         text == env.nl + HistogramLabel + env.nl + (env.nl + Table(h.values, GetCollectionOfRanges(h.highestValue, binSize), env.nl))
  {
    match SinceFirstPositive(s.records)
    case Err(_) => NoPositiveData(env.nl)
    case Ok(window) =>
      match NewHistogram(Positives(window), binSize)
      case Err(_) => NoPositiveData(env.nl)
      case Ok(h) =>
        env.nl + HistogramLabel + env.nl + GenerateHistogram(h, env.nl)
  }

  /**
   When the top of the table reaches two bin widths, the bins of the
   histogram section count every day from the first positive test on, once.
   */
  lemma {:induction false} HistogramCountsEveryDay(s: Summary, binSize: nat)
    requires HasPositive(s.records) && binSize > 0
    requires NewHistogram(Positives(SinceFirstPositive(s.records).value), binSize).value.highestValue >= 2 * binSize
    ensures var window := SinceFirstPositive(s.records).value;
      var h := NewHistogram(Positives(window), binSize).value;
      TotalCount(h.values, GetCollectionOfRanges(h.highestValue, binSize)) == |window|
  {
    var window := SinceFirstPositive(s.records).value;
    var values := Positives(window);
    var h := NewHistogram(values, binSize).value;
    PositivesAreNatural(window);
    HistogramValuesBounded(values, binSize);
    CountsAddUpToValues(h);
  }
}

=== FILE: text.dfy ===
/**
 String primitives the C# code takes from the .NET base library: decimal
 rendering and parsing of integers, padding, `Split`, `Replace` of one
 character, ASCII upper-casing and `int.Parse`.
 */
module Text {
  import opened Outcomes

  const MinInt32: int := -0x8000_0000
  const MaxInt32: int := 0x7FFF_FFFF

  predicate IsDigit(c: char) {
    '0' <= c <= '9'
  }

  predicate AllDigits(s: string) {
    forall i :: 0 <= i < |s| ==> IsDigit(s[i])
  }

  predicate HasDigit(s: string) {
    exists i :: 0 <= i < |s| && IsDigit(s[i])
  }

  function DigitChar(d: nat): (c: char)
    requires d < 10
    ensures IsDigit(c)
  {
    ('0' as int + d) as char
  }

  function DigitValue(c: char): (d: nat)
    requires IsDigit(c)
    ensures d < 10
  {
    c as int - '0' as int
  }

  function Repeat(c: char, n: nat): (s: string)
    ensures |s| == n
    ensures forall i :: 0 <= i < n ==> s[i] == c
  {
    if n == 0 then "" else [c] + Repeat(c, n - 1)
  }

  function Pow10(k: nat): (p: nat)
    ensures p >= 1
  {
    if k == 0 then 1 else 10 * Pow10(k - 1)
  }

  /** `n.ToString()` for a non-negative integer: no sign, no separators. */
  function Decimal(n: nat): (s: string)
    ensures 1 <= |s|
    ensures AllDigits(s)
  {
    if n < 10 then [DigitChar(n)] else Decimal(n / 10) + [DigitChar(n % 10)]
  }

  /** `i.ToString()` for any integer. */
  function IntText(i: int): string {
    if i < 0 then "-" + Decimal(-i) else Decimal(i)
  }

  /** The value of a string of decimal digits, read most significant first. */
  function DigitsValue(s: string): nat
    requires AllDigits(s)
  {
    if |s| == 0 then 0 else DigitsValue(s[..|s| - 1]) * 10 + DigitValue(s[|s| - 1])
  }

  lemma {:induction false} DecimalValue(n: nat)
    ensures DigitsValue(Decimal(n)) == n
  {
    if n >= 10 {
      var s := Decimal(n);
      assert s[..|s| - 1] == Decimal(n / 10);
      DecimalValue(n / 10);
    }
  }

  lemma {:induction false} DecimalLength(n: nat, k: nat)
    requires 1 <= k
    requires n < Pow10(k)
    ensures |Decimal(n)| <= k
  {
    if n >= 10 {
      DecimalLength(n / 10, k - 1);
    }
  }

  /** Leading zeros do not change the value of a digit string. */
  lemma {:induction false} LeadingZeros(k: nat, s: string)
    requires AllDigits(s)
    ensures AllDigits(Repeat('0', k) + s)
    ensures DigitsValue(Repeat('0', k) + s) == DigitsValue(s)
    decreases |s|, k
  {
    var z := Repeat('0', k);
    if |s| == 0 {
      assert z + s == z;
      if k > 0 {
        assert z[..k - 1] == Repeat('0', k - 1);
        LeadingZeros(k - 1, s);
        assert Repeat('0', k - 1) + s == Repeat('0', k - 1);
      }
    } else {
      var t := z + s;
      assert t[..|t| - 1] == z + s[..|s| - 1];
      LeadingZeros(k, s[..|s| - 1]);
    }
  }

  /** `s.PadLeft(width, fill)`, which never truncates. */
  function PadLeft(s: string, width: nat, fill: char): (r: string)
    ensures |r| == if |s| >= width then |s| else width
  {
    if |s| >= width then s else Repeat(fill, width - |s|) + s
  }

  /** The padded text ends with the original text and begins with fill characters only. */
  lemma {:induction false} PadLeftShape(s: string, width: nat, fill: char)
    ensures var r := PadLeft(s, width, fill);
      && r[|r| - |s|..] == s
      && forall i :: 0 <= i < |r| - |s| ==> r[i] == fill
  {
    var r := PadLeft(s, width, fill);
    if |s| < width {
      assert r == Repeat(fill, width - |s|) + s;
      assert r[|r| - |s|..] == s;
    }
  }

  /** A digit string of value 0 holds only zeros. */
  lemma {:induction false} ZeroValueDigits(s: string)
    requires AllDigits(s) && DigitsValue(s) == 0
    ensures s == Repeat('0', |s|)
  {
    if |s| > 0 {
      ZeroValueDigits(s[..|s| - 1]);
      assert s == s[..|s| - 1] + [s[|s| - 1]];
    }
  }

  /** One more digit on the right of a positive value. */
  lemma {:induction false} DecimalSnoc(m: nat, d: nat)
    requires m > 0 && d < 10
    ensures Decimal(m * 10 + d) == Decimal(m) + [DigitChar(d)]
  {
    var n := m * 10 + d;
    assert n / 10 == m && n % 10 == d;
  }

  /** Padding to one more place, with one more character on the right. */
  lemma {:induction false} PadSnoc(x: string, w: nat, c: char)
    requires |x| <= w
    ensures PadLeft(x + [c], w + 1, '0') == PadLeft(x, w, '0') + [c]
  {
    if |x| < w {
      assert Repeat('0', w - |x|) + (x + [c]) == Repeat('0', w - |x|) + x + [c];
    }
  }

  /** The digits of a prefix of a digit string. */
  lemma {:induction false} PrefixDigits(t: string, k: nat)
    requires k <= |t| && AllDigits(t)
    ensures AllDigits(t[..k])
  {
    forall i | 0 <= i < k
      ensures IsDigit(t[..k][i])
    {
      assert t[..k][i] == t[i];
    }
  }

  /** The round trip for zeros followed by one digit `c`. */
  lemma {:induction false} ZerosThenDigitRoundTrip(u: string, c: char)
    requires AllDigits(u) && DigitsValue(u) == 0 && IsDigit(c)
    ensures PadLeft(Decimal(DigitValue(c)), |u| + 1, '0') == u + [c]
  {
    var d := DigitValue(c);
    assert Decimal(d) == [c];
    ZeroValueDigits(u);
    PadSnoc("", |u|, c);
    assert "" + [c] == [c];
  }

  /** A zero-padded text stays zero-padded with one more character on the right. */
  lemma {:induction false} PadStep(x: string, u: string, c: char)
    requires PadLeft(x, |u|, '0') == u
    ensures PadLeft(x + [c], |u| + 1, '0') == u + [c]
  {
    PadSnoc(x, |u|, c);
  }

  /** One more digit `c` on the right of a positive value's rendering. */
  lemma {:induction false} DecimalAppended(v: nat, c: char)
    requires v > 0 && IsDigit(c)
    ensures Decimal(v * 10 + DigitValue(c)) == Decimal(v) + [c]
  {
    DecimalSnoc(v, DigitValue(c));
    assert DigitChar(DigitValue(c)) == c;
  }

  /** Padding extends to a text that has one more character than its padded prefix. */
  lemma {:induction false} PadToWhole(t: string, x: string, y: string)
    requires 1 <= |t| && PadLeft(x, |t| - 1, '0') == t[..|t| - 1]
    requires y == x + [t[|t| - 1]]
    ensures PadLeft(y, |t|, '0') == t
  {
    PadStep(x, t[..|t| - 1], t[|t| - 1]);
    assert t[..|t| - 1] + [t[|t| - 1]] == t;
  }

  lemma {:induction false} LastDigit(t: string)
    requires 1 <= |t| && AllDigits(t)
    ensures AllDigits(t[..|t| - 1]) && IsDigit(t[|t| - 1])
    ensures |t[..|t| - 1]| + 1 == |t|
    ensures t == t[..|t| - 1] + [t[|t| - 1]]
    ensures DigitsValue(t) == DigitsValue(t[..|t| - 1]) * 10 + DigitValue(t[|t| - 1])
  {
    PrefixDigits(t, |t| - 1);
  }

  /**
   Reading a digit string and rendering the value again, padded with zeros to
   the original width, gives the string back.
   */
  lemma {:induction false} DigitsRoundTrip(t: string)
    requires 1 <= |t| && AllDigits(t)
    ensures PadLeft(Decimal(DigitsValue(t)), |t|, '0') == t
  {
    var u, c := t[..|t| - 1], t[|t| - 1];
    LastDigit(t);
    if |u| == 0 || DigitsValue(u) == 0 {
      ZerosThenDigitRoundTrip(u, c);
    } else {
      var v := DigitsValue(u);
      DecimalAppended(v, c);
      DigitsRoundTrip(u);
      PadToWhole(t, Decimal(v), Decimal(DigitsValue(t)));
    }
  }

  /** The first position of `c` in `s`. */
  function IndexOf(s: string, c: char): (i: nat)
    requires c in s
    ensures i < |s| && s[i] == c && c !in s[..i]
  {
    if s[0] == c then 0
    else
      var j := IndexOf(s[1..], c);
      assert s[..j + 1] == [s[0]] + s[1..][..j];
      1 + j
  }

  /** The pieces joined back with the separator between them. */
  function Join(parts: seq<string>, sep: char): string {
    if |parts| == 0 then ""
    else if |parts| == 1 then parts[0]
    else parts[0] + [sep] + Join(parts[1..], sep)
  }

  lemma {:induction false} JoinCons(first: string, rest: seq<string>, sep: char)
    requires |rest| >= 1
    ensures Join([first] + rest, sep) == first + [sep] + Join(rest, sep)
  {
    assert ([first] + rest)[1..] == rest;
  }

  /** `s.Split(sep)`: every piece, including empty ones. */
  function Split(s: string, sep: char): (parts: seq<string>)
    ensures |parts| >= 1
    ensures forall k :: 0 <= k < |parts| ==> sep !in parts[k]
    decreases |s|
  {
    if sep !in s then [s]
    else
      var i := IndexOf(s, sep);
      var rest := Split(s[i + 1..], sep);
      assert ([s[..i]] + rest)[1..] == rest;
      assert s == s[..i] + [sep] + s[i + 1..];
      [s[..i]] + rest
  }

  /** Joining the pieces with the separator gives the text back. */
  lemma {:induction false} SplitJoin(s: string, sep: char)
    ensures Join(Split(s, sep), sep) == s
    decreases |s|
  {
    if sep in s {
      var i := IndexOf(s, sep);
      var rest := Split(s[i + 1..], sep);
      assert Split(s, sep) == [s[..i]] + rest;
      SplitJoin(s[i + 1..], sep);
      JoinCons(s[..i], rest, sep);
      assert s == s[..i] + [sep] + s[i + 1..];
    }
  }

  lemma {:induction false} SplitWithout(s: string, sep: char)
    requires sep !in s
    ensures Split(s, sep) == [s]
  {
  }

  lemma {:induction false} SplitCons(a: string, b: string, sep: char)
    requires sep !in a
    ensures Split(a + [sep] + b, sep) == [a] + Split(b, sep)
  {
    var s := a + [sep] + b;
    assert s[|a|] == sep;
    assert s[..|a|] == a;
    var i := IndexOf(s, sep);
    assert s[..i] == a;
    assert s[i + 1..] == b;
  }

  /** Splitting off a last separator-free piece from the right. */
  lemma {:induction false} SplitSnoc(a: string, b: string, sep: char)
    requires sep !in b
    ensures Split(a + [sep] + b, sep) == Split(a, sep) + [b]
  {
    SplitConcat(a, b, sep);
    SplitWithout(b, sep);
  }

  /** Splitting at a separator splits each side independently. */
  lemma {:induction false} SplitConcat(a: string, b: string, sep: char)
    ensures Split(a + [sep] + b, sep) == Split(a, sep) + Split(b, sep)
    decreases |a|
  {
    if sep !in a {
      SplitCons(a, b, sep);
      SplitWithout(a, sep);
    } else {
      var i := IndexOf(a, sep);
      var a1, a2 := a[..i], a[i + 1..];
      assert a == a1 + [sep] + a2;
      Regroup(a1, a2, b, sep);
      SplitConcat(a2, b, sep);
      SplitConcatStep(a1, a2, b, sep);
    }
  }

  lemma {:induction false} Regroup(a1: string, a2: string, b: string, sep: char)
    ensures a1 + [sep] + a2 + [sep] + b == a1 + [sep] + (a2 + [sep] + b)
  {
  }

  lemma {:induction false} SplitConcatStep(a1: string, a2: string, b: string, sep: char)
    requires sep !in a1
    requires Split(a2 + [sep] + b, sep) == Split(a2, sep) + Split(b, sep)
    requires a1 + [sep] + a2 + [sep] + b == a1 + [sep] + (a2 + [sep] + b)
    ensures Split(a1 + [sep] + a2 + [sep] + b, sep) == Split(a1 + [sep] + a2, sep) + Split(b, sep)
  {
    SplitCons(a1, a2 + [sep] + b, sep);
    SplitCons(a1, a2, sep);
    ConsAssoc(a1, Split(a2, sep), Split(b, sep));
  }

  lemma {:induction false} ConsAssoc<T>(x: T, xs: seq<T>, ys: seq<T>)
    ensures [x] + (xs + ys) == ([x] + xs) + ys
  {
  }

  lemma {:induction false} JoinAppend(parts: seq<string>, last: string, sep: char)
    requires |parts| > 0
    ensures Join(parts + [last], sep) == Join(parts, sep) + [sep] + last
    decreases |parts|
  {
    if |parts| == 1 {
      assert (parts + [last])[1..] == [last];
    } else {
      assert (parts + [last])[1..] == parts[1..] + [last];
      JoinAppend(parts[1..], last, sep);
    }
  }

  /** Splitting joined pieces that do not contain the separator gives the pieces back. */
  lemma {:induction false} SplitOfJoin(parts: seq<string>, sep: char)
    requires |parts| > 0
    requires forall k :: 0 <= k < |parts| ==> sep !in parts[k]
    ensures Split(Join(parts, sep), sep) == parts
    decreases |parts|
  {
    if |parts| == 1 {
      SplitWithout(parts[0], sep);
    } else {
      SplitOfJoin(parts[1..], sep);
      SplitCons(parts[0], Join(parts[1..], sep), sep);
      assert [parts[0]] + parts[1..] == parts;
    }
  }

  lemma {:induction false} JoinAvoids(parts: seq<string>, sep: char, c: char)
    requires c != sep
    requires forall k :: 0 <= k < |parts| ==> c !in parts[k]
    ensures c !in Join(parts, sep)
    decreases |parts|
  {
    if |parts| > 1 {
      JoinAvoids(parts[1..], sep, c);
    }
  }

  /** Each line followed by the terminator `nl`, as a file writer emits them. */
  function TerminatedLines(lines: seq<string>, nl: string): string {
    if |lines| == 0 then "" else lines[0] + nl + TerminatedLines(lines[1..], nl)
  }

  lemma {:induction false} TerminatedLinesSnoc(lines: seq<string>, last: string, nl: string)
    ensures TerminatedLines(lines + [last], nl) == TerminatedLines(lines, nl) + last + nl
    decreases |lines|
  {
    if |lines| == 0 {
      assert ([] + [last])[1..] == [];
    } else {
      assert (lines + [last])[1..] == lines[1..] + [last];
      TerminatedLinesSnoc(lines[1..], last, nl);
    }
  }

  lemma {:induction false} SplitLineThen(head: string, rest: string, tail: seq<string>)
    requires '\n' !in head
    requires Split(rest, '\n') == tail + [""]
    ensures Split(head + "\n" + rest, '\n') == [head] + tail + [""]
  {
    SplitCons(head, rest, '\n');
  }

  lemma {:induction false} SplitTerminatedLines(lines: seq<string>)
    requires forall k :: 0 <= k < |lines| ==> '\n' !in lines[k]
    ensures Split(TerminatedLines(lines, "\n"), '\n') == lines + [""]
  {
    if |lines| == 0 {
      SplitWithout("", '\n');
    } else {
      var tail := lines[1..];
      forall k | 0 <= k < |tail|
        ensures '\n' !in tail[k]
      {
        assert tail[k] == lines[k + 1];
      }
      SplitTerminatedLines(tail);
      SplitLineThen(lines[0], TerminatedLines(tail, "\n"), tail);
      assert [lines[0]] + tail == lines;
    }
  }

  /** `s.Replace(c.ToString(), "")`. */
  function Remove(s: string, c: char): (r: string)
    ensures c !in r
    ensures |r| <= |s|
  {
    if |s| == 0 then ""
    else (if s[0] == c then "" else [s[0]]) + Remove(s[1..], c)
  }

  lemma {:induction false} RemoveAppend(a: string, b: string, c: char)
    ensures Remove(a + b, c) == Remove(a, c) + Remove(b, c)
  {
    if |a| > 0 {
      assert (a + b)[1..] == a[1..] + b;
      RemoveAppend(a[1..], b, c);
    } else {
      assert a + b == b;
    }
  }

  lemma {:induction false} RemoveSingle(c: char)
    ensures Remove([c], c) == ""
  {
    assert [c][1..] == "";
  }

  lemma {:induction false} RemoveAbsent(s: string, c: char)
    requires c !in s
    ensures Remove(s, c) == s
  {
    if |s| > 0 {
      assert c !in s[1..];
      RemoveAbsent(s[1..], c);
      assert s == [s[0]] + s[1..];
    }
  }

  lemma {:induction false} RemoveNewline(nl: string)
    requires nl == "\n" || nl == "\r\n"
    ensures Remove(nl, '\r') == "\n"
  {
    if nl == "\r\n" {
      assert nl[1..] == "\n";
      RemoveAbsent("\n", '\r');
    } else {
      RemoveAbsent(nl, '\r');
    }
  }

  lemma {:induction false} Regrouped(a: string, b: string, c: string)
    ensures a + b + c == a + (b + c)
  {
  }

  /** Dropping carriage returns from one terminated line followed by more text. */
  lemma {:induction false} RemoveLineStep(line: string, nl: string, rest: string)
    requires nl == "\n" || nl == "\r\n"
    requires '\r' !in line
    ensures Remove(line + nl + rest, '\r') == line + "\n" + Remove(rest, '\r')
  {
    var tail := nl + rest;
    Regrouped(line, nl, rest);
    RemoveAppend(line, tail, '\r');
    RemoveAppend(nl, rest, '\r');
    RemoveAbsent(line, '\r');
    RemoveNewline(nl);
    Regrouped(line, "\n", Remove(rest, '\r'));
  }

  lemma {:induction false} RemoveTerminatedLines(lines: seq<string>, nl: string)
    requires nl == "\n" || nl == "\r\n"
    requires forall k :: 0 <= k < |lines| ==> '\r' !in lines[k]
    ensures Remove(TerminatedLines(lines, nl), '\r') == TerminatedLines(lines, "\n")
  {
    if |lines| > 0 {
      assert forall k :: 0 <= k < |lines| - 1 ==> lines[1..][k] == lines[k + 1];
      RemoveTerminatedLines(lines[1..], nl);
      RemoveLineStep(lines[0], nl, TerminatedLines(lines[1..], nl));
    }
  }


  /** Upper-casing of one character; only the ASCII letters a-z change. */
  function UpperChar(c: char): char {
    if 'a' <= c <= 'z' then (c as int - 32) as char else c
  }

  function Upper(s: string): (r: string)
    ensures |r| == |s|
    ensures forall i :: 0 <= i < |r| ==> !('a' <= r[i] <= 'z')
    ensures forall i :: 0 <= i < |s| && !('a' <= s[i] <= 'z') ==> r[i] == s[i]
  {
    seq(|s|, i requires 0 <= i < |s| => UpperChar(s[i]))
  }

  lemma {:induction false} UpperIdempotent(s: string)
    ensures Upper(Upper(s)) == Upper(s)
  {
  }

  /** The white-space characters `int.Parse` skips at either end. */
  predicate IsWhite(c: char) {
    c == ' ' || '\t' <= c <= '\r'
  }

  function TrimStart(s: string): (r: string)
    ensures |r| <= |s| && r == s[|s| - |r|..]
    ensures |r| > 0 ==> !IsWhite(r[0])
  {
    if |s| > 0 && IsWhite(s[0]) then TrimStart(s[1..]) else s
  }

  function TrimEnd(s: string): (r: string)
    ensures |r| <= |s| && r == s[..|r|]
    ensures |r| > 0 ==> !IsWhite(r[|r| - 1])
  {
    if |s| > 0 && IsWhite(s[|s| - 1]) then TrimEnd(s[..|s| - 1]) else s
  }

  /**
   `int.Parse(s)` with NumberStyles.Integer: optional white space at both ends,
   an optional leading '+' or '-', one or more ASCII digits, and a value within
   the 32-bit range. Anything else raises FormatException or
   OverflowException, modelled as ParseAbort.
   */
  function ParseInt32(s: string): (r: Result<int>)
    ensures r.Err? ==> r.failure == ParseAbort
    ensures r.Ok? ==> MinInt32 <= r.value <= MaxInt32
    ensures r.Ok? ==> HasDigit(s)
  {
    var t := TrimEnd(TrimStart(s));
    var r := ParseTrimmed(t);
    if r.Ok? then
      SliceHasDigit(s, |s| - |TrimStart(s)|, t);
      r
    else r
  }

  /** The sign-and-digits part of `int.Parse`, once white space is trimmed. */
  function ParseTrimmed(t: string): (r: Result<int>)
    ensures r.Err? ==> r.failure == ParseAbort
    ensures r.Ok? ==> MinInt32 <= r.value <= MaxInt32
    ensures r.Ok? ==> HasDigit(t)
  {
    var signed := |t| > 0 && (t[0] == '-' || t[0] == '+');
    var digits := if signed then t[1..] else t;
    if |digits| == 0 || !AllDigits(digits) then Err(ParseAbort)
    else
      var magnitude: int := DigitsValue(digits);
      var v := if signed && t[0] == '-' then -magnitude else magnitude;
      if v < MinInt32 || v > MaxInt32 then Err(ParseAbort)
      else
        assert t[if signed then 1 else 0] == digits[0];
        Ok(v)
  }

  lemma {:induction false} SliceHasDigit(s: string, k: nat, t: string)
    requires k + |t| <= |s| && t == s[k..k + |t|]
    requires HasDigit(t)
    ensures HasDigit(s)
  {
    var j :| 0 <= j < |t| && IsDigit(t[j]);
    assert s[k + j] == t[j];
  }

  lemma {:induction false} TrimDigits(s: string)
    requires 1 <= |s| && IsDigit(s[0]) && IsDigit(s[|s| - 1])
    ensures TrimEnd(TrimStart(s)) == s
  {
    assert !IsWhite(s[0]) && !IsWhite(s[|s| - 1]);
    assert TrimStart(s) == s;
    assert TrimEnd(s) == s;
  }

  /** Parsing the decimal rendering of any 32-bit non-negative value gives it back. */
  lemma {:induction false} ParseDecimal(n: nat)
    requires n <= MaxInt32
    ensures ParseInt32(Decimal(n)) == Ok(n)
  {
    var s := Decimal(n);
    TrimDigits(s);
    DecimalValue(n);
    assert !(s[0] == '-' || s[0] == '+');
  }

  /** ... and the same holds after a leading minus sign. */
  lemma {:induction false} ParseNegativeDecimal(n: nat)
    requires 1 <= n <= -MinInt32
    ensures ParseInt32("-" + Decimal(n)) == Ok(0 - n)
  {
    var s := "-" + Decimal(n);
    assert TrimStart(s) == s;
    assert s[|s| - 1] == Decimal(n)[|Decimal(n)| - 1];
    assert TrimEnd(s) == s;
    assert s[1..] == Decimal(n);
    DecimalValue(n);
  }
}

=== FILE: validator.dfy ===
/**
 The three validators of `FormatValidator`: the "yyyyMMdd" date check, the
 numeric-field check and the state-label check. A `None` argument stands for
 `null`, which each validator handles explicitly.
 */
module FormatValidator {
  import opened Outcomes
  import opened Text
  import opened Calendar

  /** `DateTime.TryParseExact(s, "yyyyMMdd", ...)` succeeds; `null` is invalid. */
  predicate IsDateStringValid(s: Option<string>) {
    s.Some? && ParseCompact(s.value).Some?
  }

  /** `s[i..j]` is one match of the pattern `[-]?\d+`. */
  predicate SignedDigitsAt(s: string, i: int, j: int)
    requires 0 <= i < j <= |s|
  {
    AllDigits(s[i..j]) || (s[i] == '-' && i + 1 < j && AllDigits(s[i + 1..j]))
  }

  /** The unanchored pattern `[-]?\d+` matches somewhere in `s`. */
  predicate NumberPatternMatches(s: string) {
    exists i, j :: 0 <= i < j <= |s| && SignedDigitsAt(s, i, j)
  }

  /** `null` and "" are valid; anything else must match `[-]?\d+` somewhere. */
  predicate IsNumericStringValid(s: Option<string>) {
    s.None? || s.value == "" || NumberPatternMatches(s.value)
  }

  /**
   Because the pattern is not anchored, a non-empty string passes exactly when
   it holds at least one digit: "12abc" and "x-7" pass, "-" and "abc" do not.
   */
  lemma {:induction false} NumericValidIffHasDigit(s: string)
    requires s != ""
    ensures IsNumericStringValid(Some(s)) <==> HasDigit(s)
  {
    if HasDigit(s) {
      var k :| 0 <= k < |s| && IsDigit(s[k]);
      assert AllDigits(s[k..k + 1]);
      assert SignedDigitsAt(s, k, k + 1);
    }
    if NumberPatternMatches(s) {
      var i, j :| 0 <= i < j <= |s| && SignedDigitsAt(s, i, j);
      if AllDigits(s[i..j]) {
        assert s[i..j][0] == s[i];
        assert IsDigit(s[i]);
      } else {
        assert s[i + 1..j][0] == s[i + 1];
        assert IsDigit(s[i + 1]);
      }
    }
  }

  predicate IsUpperAscii(c: char) {
    'A' <= c <= 'Z'
  }

  predicate IsLowerAscii(c: char) {
    'a' <= c <= 'z'
  }

  /** The alternative `^([A-Z]{2})`: two capitals at the very start. */
  predicate CapitalsAtStart(s: string) {
    |s| >= 2 && IsUpperAscii(s[0]) && IsUpperAscii(s[1])
  }

  /**
   The alternative `([a-z]{2})$` matching at position `i`: two small letters
   followed by the end of the text, or by a final "\n", which .NET's `$` also
   accepts.
   */
  predicate SmallLettersAtEnd(s: string, i: int) {
    && 0 <= i && i + 2 <= |s|
    && IsLowerAscii(s[i]) && IsLowerAscii(s[i + 1])
    && (i + 2 == |s| || (i + 3 == |s| && s[i + 2] == '\n'))
  }

  /**
   `Regex("^([A-Z]{2})|([a-z]{2})$").IsMatch(s)`. The alternation binds
   loosest, so either alternative may match on its own; `null` is invalid.
   */
  predicate IsStateLabelValid(s: Option<string>) {
    s.Some? && (CapitalsAtStart(s.value) || exists i | 0 <= i < |s.value| :: SmallLettersAtEnd(s.value, i))
  }

  /**
   The label check in positional terms: a label is accepted exactly when it
   starts with two capitals, or ends with two small letters, possibly followed
   by one "\n". Neither alternative limits the length.
   */
  lemma {:induction false} StateLabelPositions(s: string)
    ensures IsStateLabelValid(Some(s)) <==>
      || CapitalsAtStart(s)
      || (|s| >= 2 && IsLowerAscii(s[|s| - 2]) && IsLowerAscii(s[|s| - 1]))
      || (|s| >= 3 && s[|s| - 1] == '\n' && IsLowerAscii(s[|s| - 3]) && IsLowerAscii(s[|s| - 2]))
  {
    if |s| >= 2 && IsLowerAscii(s[|s| - 2]) && IsLowerAscii(s[|s| - 1]) {
      assert SmallLettersAtEnd(s, |s| - 2);
    }
    if |s| >= 3 && s[|s| - 1] == '\n' && IsLowerAscii(s[|s| - 3]) && IsLowerAscii(s[|s| - 2]) {
      assert SmallLettersAtEnd(s, |s| - 3);
    }
  }

  /** Two-letter codes in either case pass, and so does "GAX"; mixed case and digits fail. */
  lemma {:induction false} StateLabelExamples()
    ensures IsStateLabelValid(Some("GA")) && IsStateLabelValid(Some("ga"))
    ensures IsStateLabelValid(Some("GAX")) && IsStateLabelValid(Some("xga"))
    ensures !IsStateLabelValid(Some("Ga")) && !IsStateLabelValid(Some("G1"))
    ensures !IsStateLabelValid(Some("")) && !IsStateLabelValid(None)
  {
    StateLabelPositions("ga");
    StateLabelPositions("xga");
    StateLabelPositions("Ga");
    StateLabelPositions("G1");
    StateLabelPositions("");
  }
}
